=== FILE: README.md ===
# ChatRecapAI chat analyzer — a Dafny model

ChatRecapAI is a Next.js application. A user gives it a Gemini API key and uploads
Instagram chat exports (`message_1.json`, `message_2.json`, …). It then asks
Gemini for a relationship analysis of every conversation and for one analysis
over all of them. This project models its core in Dafny:

- the three server routes:
  - `analyze-chat`, the per-conversation route;
  - `analyze-overall`, the aggregate route;
  - `test-api-key`, the key check;
- the pure logic of the upload page `app/page.tsx`: the key format check, the
  numeric file sort, file reading and removal, and the two retry loops of
  `analyzeAllChats`;
- the value and colour mappings of the two dashboards, `chat-analysis.tsx` and
  `overall-analysis.tsx`.

Modules follow the program's structure:

| module | what it holds |
|---|---|
| `Wrappers` | the `Option` datatype |
| `Text` | JavaScript string built-ins: `length` and prefix cuts in UTF-16 code units, `\s`, `trim`, `toLowerCase`, `includes`, `String(n)` |
| `JsonValue` | JSON values and JavaScript truthiness |
| `ApiErrors` | the substring tests of the three catch blocks |
| `Backoff` | `retryWithBackoff`: a recursive definition, the source's loop as a method, and the delay sums |
| `Cleaning` | the eight-step regex chain applied to the model's reply, with each regex modelled as a matcher |
| `Recovery` | the clean, guard, `JSON.parse` and required-field steps |
| `ChatStats` | participants, averages, duration and prompt text |
| `ChatFallback` | the heuristic fallback analysis |
| `AnalyzeChat`, `AnalyzeOverall`, `TestApiKey` | the three routes |
| `Page` | the upload page |
| `ClientRetry` | the client's per-file and overall retry loops |
| `ChatView`, `OverallView` | the dashboards |

Everything outside the program is a parameter:

- the k-th `generateContent` call of the analysis routes (`call: nat -> Generation`): it throws, or it returns a response whose `text()` returns the reply or throws;
- the test-key route's reply text (`reply: Attempt<string>`), where either step throwing reaches the same catch block;
- `Math.random()` in the backoff (`jitter: nat -> real`);
- `JSON.parse` (`parse: string -> Option<Json>`);
- the answers the page's `fetch` gets (`fetch: nat -> FetchOutcome`).

Waits are returned as lists of milliseconds, not slept.

A Dafny `string` holds Unicode scalar values, while JavaScript counts UTF-16
code units. Wherever the source measures or cuts a string (`length`,
`substring`, `slice`), the model does so in code units through
`Text.Utf16Length` and `Text.Utf16Cut`, where a character above U+FFFF counts
two.

## Model

| member | source | states |
|---|---|---|
| JsonValue.Truthy | app/api/analyze-chat/route.ts:40 | JavaScript truthiness: null, false, 0, "" are falsy; arrays, objects, true, non-zero numbers and non-empty strings are truthy. |
| Backoff.RetryWithBackoff | app/api/analyze-chat/route.ts:4-31 | Between 1 and maxRetries+1 invocations. Every invocation before the last threw a non-auth error. The result is the last invocation's outcome. A retryable last outcome means all attempts were used. Sleep k is baseDelay·2^k plus jitter k. |
| Backoff.RetryFrom | app/api/analyze-chat/route.ts:7-28 | The loop from iteration `attempt` on: same facts, shifted by `attempt`. |
| Backoff.RetryLoop | app/api/analyze-chat/route.ts:4-31 | The `for` loop with early return, rethrow and `break`. It returns exactly what the recursive definition promises. |
| Backoff.RetryLoopMatchesDefinition | app/api/analyze-chat/route.ts:4-31 | Any run satisfying the loop's postcondition equals the recursive definition's run, so the loop and the definition agree on every oracle. |
| Backoff.AuthFailureIsNotRetried | app/api/analyze-chat/route.ts:13-16 | An API_KEY_INVALID / PERMISSION_DENIED error on the first call is rethrown after one call, with no sleep. |
| Backoff.StopsAtFirstFinalAttempt | app/api/analyze-chat/route.ts:7-28 | If calls 0..k−1 all threw retryable errors and call k did not (k ≤ maxRetries), the wrapper stops after k+1 calls with call k's outcome. |
| Backoff.SleepBounds | app/api/analyze-chat/route.ts:24 | Each sleep lies in [baseDelay·2^k, baseDelay·2^k + 1000). |
| Backoff.JitterSumBounds | app/api/analyze-chat/route.ts:24 | n jitters sum to a value in [0, 1000·n). |
| Backoff.Pow2SumClosedForm | app/api/analyze-chat/route.ts:24 | The doubling delays form a geometric sum: 2^a + … + 2^(a+n-1) = 2^(a+n) − 2^a. |
| Backoff.SleepSum | app/api/analyze-chat/route.ts:24-26 | The sleeps from attempt a on add up to baseDelay times the doubling sum, plus the jitters. |
| Backoff.SleepsFromStart | app/api/analyze-chat/route.ts:24-26 | n sleeps from the first failure total at least baseDelay·(2^n − 1), and less than that plus 1000·n. |
| Backoff.ExhaustedRunSleepTotal | app/api/analyze-chat/route.ts:18-30 | A run that used every attempt slept at least baseDelay·(2^maxRetries − 1) in total, and less than that plus 1000 per sleep. |
| Backoff.RouteConfigurationBound | app/api/analyze-chat/route.ts:167-173 | With the routes' (3, 2000): at most 4 model calls and at most 3 sleeps. |
| Backoff.SucceedsOnThirdAttempt | app/api/analyze-overall/route.ts:157-163 | Two retryable failures then a value: 3 calls, 2 sleeps, and that value is returned. |
| ApiErrors.ChatErrorStatus | app/api/analyze-chat/route.ts:313-365 | The per-conversation catch block's status: the first match of auth (401), unavailable (503), not found (404), rate limit (429); otherwise 500. |
| ApiErrors.IsAuthMessage | app/api/analyze-chat/route.ts:317 | The auth markers: "API_KEY_INVALID" or "PERMISSION_DENIED" in the message. |
| ApiErrors.IsUnavailableMessage | app/api/analyze-chat/route.ts:327-331 | The service-unavailable markers: "503", "Service Unavailable" or "Visibility check was unavailable". |
| ApiErrors.IsNotFoundMessage | app/api/analyze-chat/route.ts:341 | The not-found markers: "not found" or "404". |
| ApiErrors.IsRateLimitMessage | app/api/analyze-chat/route.ts:350 | The rate-limit markers: "429" or "quota". |
| ApiErrors.OverallErrorStatus | app/api/analyze-overall/route.ts:296-337 | The aggregate catch block: auth 401, unavailable 503, rate limit 429, else 500. It has no not-found branch. |
| ApiErrors.KeyTestErrorStatus | app/api/test-api-key/route.ts:40-101 | The key-test catch block: auth 401, then the bare codes "403", "404", "429", then "503"/"Service Unavailable", else 500. |
| ApiErrors.KeyTestFailureText | app/api/test-api-key/route.ts:97 | The 500 text is "API key validation failed: " followed by the message, or by "Unknown error" when the message is empty. |
| ApiErrors.AuthWinsInEveryRoute | app/api/analyze-chat/route.ts:316 | An auth marker yields 401 in all three routes, whatever else the message contains. |
| ApiErrors.NotFoundOnlyInChatRoute | app/api/analyze-overall/route.ts:323-337 | A message that only mentions "404" is 404 in the per-conversation route and 500 in the aggregate route. |
| ApiErrors.AnalysisRoutesAgreeWithoutNotFound | app/api/analyze-overall/route.ts:300-337 | The two analysis routes give the same status to every message without a not-found marker. |
| ApiErrors.KeyTestIgnoresQuotaAndVisibility | app/api/test-api-key/route.ts:75-95 | "quota" and the visibility-check text fall through to 500 in the key test, but not in the analysis routes. |
| ApiErrors.KeyTestForbiddenBeforeNotFound | app/api/test-api-key/route.ts:54-73 | A message with both "403" and "404" is a 403: the first match wins. |
| Cleaning.Skip | app/api/analyze-chat/route.ts:187-195 | The greedy `k*` run: every character up to the end is in the class, and the next one is not. |
| Cleaning.DropBeforeFirstOpen | app/api/analyze-chat/route.ts:183 | `/^[^{]*/` removes a brace-free prefix; what is left is empty or starts with '{'. |
| Cleaning.DropAfterLastClose | app/api/analyze-chat/route.ts:185 | `/[^}]*$/` removes a suffix without '}'; what is left is empty or ends with '}'. |
| Cleaning.MatchAt | app/api/analyze-chat/route.ts:187-195 | Every global pattern's match consumes at least one character, and its replacement keeps a leading '{' and a final '}'. |
| Cleaning.ValueGroup | app/api/analyze-chat/route.ts:192 | The backtracked first capture group of the value-quoting regex is a non-empty suffix of the value run. |
| Cleaning.Step | app/api/analyze-chat/route.ts:187-195 | One step of a global replace: the match, or one character copied. |
| Cleaning.GlobalReplace | app/api/analyze-chat/route.ts:187-195 | A `/g` replace scans left to right and resumes after each match. A text where the pattern matches nowhere comes back unchanged. |
| Cleaning.MatchFence | app/api/analyze-chat/route.ts:187-188 | "```json" or "```" and the whitespace after it. A match never consumes a final '}'. |
| Cleaning.MatchTrailingComma | app/api/analyze-chat/route.ts:190 | `,(\s*[}\]])`: the comma goes and the rest stays. A match never consumes a final '}'. |
| Cleaning.MatchBareKey | app/api/analyze-chat/route.ts:191 | `([{,]\s*)(\w+):`: the word key gets quotes. A match never consumes a final '}'. |
| Cleaning.MatchBareValue | app/api/analyze-chat/route.ts:192 | `:\s*([^",[\]{}]+)(\s*[,}])`: the value run is quoted. A match keeps the closing '}' it consumes. |
| Cleaning.MatchArraySpacing | app/api/analyze-chat/route.ts:193 | `"\s*,\s*"` becomes `", "`. A match never consumes a final '}'. |
| Cleaning.Cut | app/api/analyze-chat/route.ts:183-185 | The two anchored replaces: from the first '{' through the last '}'. Its shape is CutShape's. |
| Cleaning.CleanSteps | app/api/analyze-chat/route.ts:181-196 | The whole chain: the cut, the eight global replaces in order, then `trim()`. Its shape is Recovery.CleanedShape's. |
| Cleaning.GuardIsFramed | app/api/analyze-chat/route.ts:199-201 | `startsWith("{") && endsWith("}")` holds exactly for texts framed by '{' … '}'. |
| Cleaning.CutShape | app/api/analyze-chat/route.ts:183-185 | The two anchored replaces leave "" or a framed text, and a non-empty text exactly when the input has a '{' before a '}'. |
| Cleaning.KeepsLeadingOpen | app/api/analyze-chat/route.ts:187-195 | No global replace of the chain removes a leading '{'. |
| Cleaning.KeepsTrailingClose | app/api/analyze-chat/route.ts:187-195 | No global replace of the chain removes a final '}'. |
| Cleaning.KeepsFrame | app/api/analyze-chat/route.ts:187-195 | A framed text stays framed through any global replace. |
| Cleaning.ReplaceEachKeepsFrame | app/api/analyze-chat/route.ts:187-195 | A framed text stays framed through any sequence of the global replaces. |
| Cleaning.WsRunNormalizes | app/api/analyze-chat/route.ts:195 | `/\s+/g → " "` leaves whitespace only as single spaces, never two in a row. |
| Cleaning.BareValueQuotes | app/api/analyze-chat/route.ts:192 | A bare value after ':' up to ',' or '}' is wrapped in quotes. |
| Cleaning.QuotedValueNotRequoted | app/api/analyze-chat/route.ts:192 | A value that already starts with a quote is not matched. |
| Cleaning.CleanWithShape | app/api/analyze-chat/route.ts:181-196 | Whatever the global replaces, the cleaned text is "" or framed, and non-empty exactly when the input has a '{' before a '}'. |
| Cleaning.CleanWithWhitespace | app/api/analyze-chat/route.ts:194-196 | Ending with the whitespace step and `trim()` leaves no newline, no double whitespace and none at the ends. |
| Recovery.CleanedShape | app/api/analyze-overall/route.ts:171-186 | The routes' full chain yields "" or a framed text, non-empty iff the reply has a '{' before a '}'. |
| Recovery.GuardPassesIffBracePair | app/api/analyze-chat/route.ts:198-201 | The brace guard passes exactly when the reply holds a '{' followed later by a '}'. |
| Recovery.CleanedWhitespace | app/api/analyze-chat/route.ts:194-196 | The cleaned text has no newline and no two whitespace characters in a row. |
| Recovery.Recover | app/api/analyze-chat/route.ts:179-209 | The parsed reply is used only when the guard passes, the cleaned text parses, and every required field is truthy. Otherwise the fallback is used. |
| Recovery.ProseFallsBack | app/api/analyze-chat/route.ts:199-201 | A reply without a '{' before a '}' always ends in the fallback. |
| Recovery.ValidTextIsRecovered | app/api/analyze-chat/route.ts:179-209 | A reply with a brace pair whose cleaned text parses to a value with every required field truthy is always recovered as that value. |
| ChatStats.Senders | app/api/analyze-chat/route.ts:46 | `map(m => m.sender_name)`, index by index. |
| ChatStats.Distinct | app/api/analyze-chat/route.ts:46 | `[...new Set(xs)]`: no duplicates, the same elements, ordered by first occurrence, starting with xs[0]. |
| ChatStats.NoDuplicatesCardinality | app/api/analyze-overall/route.ts:43 | A duplicate-free list is as long as its set. |
| ChatStats.DistinctSenderCount | app/api/analyze-overall/route.ts:43 | The distinct senders are as many as the different sender names. |
| ChatStats.ChatParticipants | app/api/analyze-chat/route.ts:46 | `.slice(0, 2)` of the distinct senders: at most two, distinct, the first being the first message's sender. |
| ChatStats.Count | app/api/analyze-chat/route.ts:214-215 | The number of messages from a name is positive exactly when some message has that sender. |
| ChatStats.CountPair | app/api/analyze-chat/route.ts:290-293 | With two different senders only, their counts add up to the message count. |
| ChatStats.ParticipantCountsAddUp | app/api/analyze-chat/route.ts:290-293 | With at most two senders, the participants' message counts add up to all messages. |
| ChatStats.SendersAreParticipants | app/api/analyze-chat/route.ts:46 | With at most two senders, `.slice(0, 2)` drops nobody. |
| ChatStats.TotalLength | app/api/analyze-chat/route.ts:50 | `content?.length \|\| 0` summed, in UTF-16 code units: messages without content contribute nothing. The lemmas below pin the sum down: one message totals its length, and totals add over concatenation. |
| ChatStats.ContentLength | app/api/analyze-chat/route.ts:50 | `m.content?.length || 0`: 0 without content, otherwise between the character count and twice it. |
| ChatStats.TotalLengthSingle | app/api/analyze-chat/route.ts:50 | One message totals its own `content?.length \|\| 0`. |
| ChatStats.TotalLengthAppend | app/api/analyze-chat/route.ts:50 | The total over `a + b` is the total over `a` plus the total over `b`, so the reduce sums every message exactly once. |
| ChatStats.ContentLengthWithinTotal | app/api/analyze-chat/route.ts:50 | Every message's length is at most the total. |
| ChatStats.RoundDiv | app/api/analyze-chat/route.ts:50 | `Math.round(a / b)` on naturals: the nearest integer, with halves rounded up. |
| ChatStats.AvgMessageLength | app/api/analyze-chat/route.ts:50 | The rounded mean content length in UTF-16 code units. It is absent (NaN) exactly for an empty conversation. |
| ChatStats.MinTimestamp | app/api/analyze-chat/route.ts:53-54 | The first element of the numeric sort: a timestamp of the list, not above any. |
| ChatStats.MaxTimestamp | app/api/analyze-chat/route.ts:53-54 | The last element of the numeric sort: a timestamp of the list, not below any. |
| ChatStats.DurationMs | app/api/analyze-chat/route.ts:53-54 | The span is the largest difference between two timestamps. It is absent for no messages. |
| ChatStats.DurationDays | app/api/analyze-chat/route.ts:55 | `Math.round(durationMs / 86400000)`: NaN exactly for no messages, otherwise the rounded number of days between the earliest and latest timestamp. |
| ChatStats.DurationLabel | app/api/analyze-chat/route.ts:308 | A positive day count reads "N days"; anything else reads "Same day". |
| ChatStats.SameDayIffUnderHalfDay | app/api/analyze-chat/route.ts:53-55 | The label is "Same day" exactly when the chat is empty or spans under 12 hours. |
| ChatStats.RoundsToWholeDay | app/api/analyze-chat/route.ts:55 | Half a day or more rounds to at least one day. |
| ChatStats.DaysLabelIsNotSameDay | app/api/analyze-chat/route.ts:308 | A "N days" label never reads "Same day". |
| ChatStats.ChatLine | app/api/analyze-chat/route.ts:58 | `${sender}: ${content}`: the sender, ": ", then the content or "undefined". |
| ChatStats.ChatText | app/api/analyze-chat/route.ts:58 | The lines joined with "\n": empty for no messages, the single line for one, and always starting with the first message's line. ChatTextAppend pins the rest. |
| ChatStats.ChatTextAppend | app/api/analyze-chat/route.ts:58 | For two non-empty runs of messages, the text of both is the first's text, one "\n", then the second's, so every line appears in order with one newline between neighbours. |
| ChatStats.Truncate | app/api/analyze-chat/route.ts:61-63 | Texts up to 30000 UTF-16 code units are kept whole. Longer ones keep a proper prefix of 29999 or 30000 units and end with the continuation marker. |
| ChatFallback.SentBy | app/api/analyze-chat/route.ts:214-215 | `filter(sender === name)`: exactly that sender's messages, as many as Count says. |
| ChatFallback.StrictTotalLength | app/api/analyze-chat/route.ts:218-219 | `m.content.length` without `?.`: defined exactly when every message has content, and then equal to the total length in UTF-16 code units. |
| ChatFallback.GreaterAsymmetric | app/api/analyze-chat/route.ts:224-225 | `x > y` on averages, false on NaN, never holds both ways. |
| ChatFallback.PairMap | app/api/analyze-chat/route.ts:223-226 | `{[p0]: a, [p1]: b}`: the two slot keys, the second write winning when they coincide. |
| ChatFallback.PairMapValues | app/api/analyze-chat/route.ts:223-226 | Every value of a pair map is one of the two given. |
| ChatFallback.FallbackFor | app/api/analyze-chat/route.ts:221-298 | Sentiments are among positive / neutral / mixed, and openness is High or Medium. The four maps have the two participants' keys. The second participant (whose entry is written last) is "positive" and "thoughtful" iff its average is greater, and has the busy tones and High openness iff it sent more messages. The same holds for the first participant, with "expressive", when the keys differ. |
| ChatFallback.BuildFallback | app/api/analyze-chat/route.ts:214-298 | Fails exactly when a participant's message lacks content. Otherwise the message counts are Count of each participant, most_engaged is participants[0], sentiments are among the three labels and openness among the two. The per-participant choices are the lemmas below. |
| ChatFallback.MissingContentWitness | app/api/analyze-chat/route.ts:218-219 | The TypeError has a cause: some participant message without content. |
| ChatFallback.AtMostOnePositive | app/api/analyze-chat/route.ts:223-226 | At most one participant is called "positive". |
| ChatFallback.AtMostOneHighOpenness | app/api/analyze-chat/route.ts:249-252 | At most one participant gets "High" openness. |
| ChatFallback.CountsCoverConversation | app/api/analyze-chat/route.ts:290-293 | With two or fewer senders, user1_msg_count + user2_msg_count equals the message count. |
| ChatFallback.FirstPositiveIffLonger | app/api/analyze-chat/route.ts:224 | The first participant is "positive" exactly when their average length is greater. |
| ChatFallback.SecondPositiveIffLonger | app/api/analyze-chat/route.ts:225 | The second participant is "positive" exactly when their average length is greater, even when both names are equal. |
| ChatFallback.TonesFollowCounts | app/api/analyze-chat/route.ts:227-236 | Each participant gets its busy tone list exactly when it sent more messages than the other, and its other list otherwise. |
| ChatFallback.StyleFollowsAverages | app/api/analyze-chat/route.ts:269-272 | The first participant's style is "expressive" iff its average is greater, else "casual". The second's is "thoughtful" iff its average is greater, else "supportive". |
| AnalyzeChat.Stats | app/api/analyze-chat/route.ts:302-310 | message_stats: the message count, an average absent only for no messages, and "Same day" iff the span is under half a day. |
| AnalyzeChat.ErrorResponse | app/api/analyze-chat/route.ts:313-365 | The catch block answers with ChatErrorStatus, never 400, and a 500 carries the message itself. |
| AnalyzeChat.ErrorText | app/api/analyze-chat/route.ts:359-364 | A 500's text is the thrown message. |
| AnalyzeChat.Answer | app/api/analyze-chat/route.ts:176-310 | An analysis always carries the computed participants and stats. The answer is a model analysis exactly when recovery keeps the parsed reply, and then it carries that parsed value. When recovery falls back, the answer is FallbackAnswer's: BuildFallback's analysis, or its TypeError answered as a 500. |
| AnalyzeChat.FallbackAnswer | app/api/analyze-chat/route.ts:209-299 | Analysed iff the fallback builds, carrying it; otherwise the caught TypeError. |
| AnalyzeChat.Analyze | app/api/analyze-chat/route.ts:33-365 | A missing message array or a falsy key gives its 400 with no model call. Otherwise the model calls are the wrapper's. A rethrow goes to the catch block, and so does an error from `text()` after the wrapper. A reply goes to Answer. |
| AnalyzeChat.AnalysisCarriesComputedStats | app/api/analyze-chat/route.ts:301-310 | At most 4 model calls; every analysis carries participants and stats computed from the messages. |
| AnalyzeChat.BadRequestIffNoModelCall | app/api/analyze-chat/route.ts:37-43 | The answer is a 400 exactly when the model was never called. |
| AnalyzeChat.ModelAnalysisWasValidated | app/api/analyze-chat/route.ts:198-208 | A model analysis comes from the last call's reply, which has a brace pair, parses after cleaning, and has truthy participants and sentiments. |
| AnalyzeChat.ValidatedReplyIsUsed | app/api/analyze-chat/route.ts:167-208 | Conversely: when the last call returns a reply with a brace pair that parses after cleaning with truthy participants and sentiments, the route answers with that parsed analysis, after k+1 calls. |
| AnalyzeChat.ParsedReplyIsRecovered | app/api/analyze-chat/route.ts:198-208 | A reply that passes the brace guard, parses, and has truthy participants and sentiments is recovered as the parsed value. |
| AnalyzeChat.RequiredFieldsTruthy | app/api/analyze-chat/route.ts:205 | Truthy participants and sentiments are all the fields the route requires. |
| AnalyzeChat.ValidatedReplyExample | app/api/analyze-chat/route.ts:167-208 | A request with a key whose first call returns `{}`, parsed to an object with truthy participants and sentiments, is answered with that object after one call. |
| AnalyzeChat.ProseReplyUsesFallback | app/api/analyze-chat/route.ts:199-214 | A reply without braces is never answered with a model analysis. |
| AnalyzeChat.FallbackCrashIsCaught | app/api/analyze-chat/route.ts:218 | A prose reply with a content-less participant message is answered as the caught TypeError. |
| AnalyzeChat.TextFailureIsNotRetried | app/api/analyze-chat/route.ts:174-176 | When `text()` throws after the first call, no further call is made and the catch block answers with that error. |
| AnalyzeChat.AuthErrorAnswered401 | app/api/analyze-chat/route.ts:316-325 | An auth error on the first call gives 401 after one call. |
| AnalyzeChat.ExhaustedRetriesAnswerLastError | app/api/analyze-chat/route.ts:30 | Four retryable failures: four calls, and the fourth error decides the answer. |
| AnalyzeOverall.Flatten | app/api/analyze-overall/route.ts:42 | `flatMap(chat => chat.data)`: every message of every chat, and no other, with the total count. |
| AnalyzeOverall.FlattenSingle | app/api/analyze-overall/route.ts:42 | One chat flattens to its own messages. |
| AnalyzeOverall.FlattenAppend | app/api/analyze-overall/route.ts:42 | Flattening distributes over concatenation, so the chats' order and each chat's order are kept. |
| AnalyzeOverall.ParticipantCountIsDistinctSenders | app/api/analyze-overall/route.ts:43-47 | total_participants is the number of different sender names. |
| AnalyzeOverall.AllParticipants | app/api/analyze-overall/route.ts:43 | No name twice, and exactly the sender names of the merged messages. |
| AnalyzeOverall.Totals | app/api/analyze-overall/route.ts:46-54 | total_stats: the message count, the participant count, "Same day" iff the span is under half a day, and the rounded messages per chat. |
| AnalyzeOverall.OverallText | app/api/analyze-overall/route.ts:57-60 | `.slice(0, 50000)`: a prefix of at most 50000 UTF-16 code units, the whole text when it fits, and otherwise at least 49999 units. |
| AnalyzeOverall.Fallback | app/api/analyze-overall/route.ts:204-281 | A friendship with score 75, described under the first two participants' keys, with a three-point timeline. |
| AnalyzeOverall.ErrorResponse | app/api/analyze-overall/route.ts:296-337 | The catch block answers with OverallErrorStatus, never 400, and a 500 carries the message. |
| AnalyzeOverall.ErrorText | app/api/analyze-overall/route.ts:332-337 | A 500's text is the thrown message. |
| AnalyzeOverall.Answer | app/api/analyze-overall/route.ts:165-295 | Always an analysis with the computed total_stats. It is the fallback exactly when recovery falls back, and otherwise a validated parse. |
| AnalyzeOverall.Analyze | app/api/analyze-overall/route.ts:33-339 | One combined 400 check with no model call. Then the wrapper: a rethrow goes to the catch block, and so does an error from `text()` after the wrapper. A reply goes to Answer. |
| AnalyzeOverall.ReplyAlwaysAnalysed | app/api/analyze-overall/route.ts:165-295 | The route answers with an analysis exactly when the model answered and its text was read. |
| AnalyzeOverall.ZeroScoreIsReplaced | app/api/analyze-overall/route.ts:196-198 | A parsed compatibility_score of 0 fails the field check, so the fallback answers. |
| AnalyzeOverall.TextFailureIsNotRetried | app/api/analyze-overall/route.ts:165-166 | When `text()` throws after the first call, no further call is made and the catch block answers with that error. |
| AnalyzeOverall.BadRequestIffNoModelCall | app/api/analyze-overall/route.ts:37-39 | The answer is a 400 exactly when the model was never called. |
| TestApiKey.ErrorResponse | app/api/test-api-key/route.ts:40-101 | Status from KeyTestErrorStatus (at least 400), `success: false`, and the prefixed message for a 500. |
| TestApiKey.ErrorText | app/api/test-api-key/route.ts:95-101 | A 500's text is the validation-failed text. |
| TestApiKey.TestKey | app/api/test-api-key/route.ts:3-103 | A falsy key gives a 400 with no call and no `success`. Otherwise there is one call. `success: true` iff the reply says "working" in any case, iff the status is 2xx. Any other reply gives 400 with `success: false`. A throw goes to the catch block. |
| TestApiKey.SaysWorking | app/api/test-api-key/route.ts:26 | `text && text.toLowerCase().includes("working")`. |
| TestApiKey.ContainsLower | app/api/test-api-key/route.ts:26 | Lower-casing keeps every occurrence, lower-cased. |
| TestApiKey.AnyCaseOfWorkingPasses | app/api/test-api-key/route.ts:26 | A reply containing "working" in any ASCII capitalisation passes. |
| TestApiKey.EmptyReplyNeverSaysWorking | app/api/test-api-key/route.ts:26 | An empty reply never contains "working", so the `text &&` test adds nothing. |
| TestApiKey.FailuresReportSuccessFalse | app/api/test-api-key/route.ts:7-9 | `success` is absent exactly on the missing-key answer. |
| Text.Utf16Length | app/page.tsx:68 | `length` in UTF-16 code units: between the character count and twice it, and equal to the character count exactly when no character lies above U+FFFF. |
| Text.Utf16LengthOfPrefix | app/page.tsx:68 | A prefix never has more code units than the whole string. |
| Text.Utf16Cut | app/api/analyze-chat/route.ts:63 | The characters `substring(0, n)` keeps: a prefix of at most n units that the next character would overflow, and the whole string when it fits. |
| Text.Trim | app/page.tsx:65 | `trim()` removes whitespace runs at both ends and nothing else. |
| Text.Lower | app/components/chat-analysis.tsx:40 | `toLowerCase()` maps each character, keeping the length. |
| Text.LowerIdempotent | app/components/chat-analysis.tsx:40 | Lower-casing twice is lower-casing once. |
| Text.DigitsValueOfNatToString | app/page.tsx:121 | `parseInt` reads back the decimal text of n as n. |
| Text.JoinAppend | app/api/analyze-chat/route.ts:58 | `join(sep)` of two non-empty lists is the join of each with `sep` between them. |
| Page.ValidateApiKeyFormat | app/page.tsx:63-70 | Valid iff the trimmed key starts with "AIza" and is 39 UTF-16 code units long. Each failing check gives its message, in order. |
| Page.TrimIdempotent | app/page.tsx:91-95 | Trimming twice is trimming once. |
| Page.FormatCheckIgnoresSurroundingSpace | app/page.tsx:91-95 | Checking the trimmed key equals checking the raw one. |
| Page.AcceptedKeyShape | app/page.tsx:63-70 | An accepted key, trimmed, is 39 UTF-16 code units (20 to 39 characters) starting "AIza" with no whitespace at its ends. |
| Page.SubmitKey | app/page.tsx:73-113 | A blank key is ignored. A badly formed key alerts its message. A well-formed key is accepted exactly when the route's answer is 2xx. |
| Page.KeyAcceptedIffModelSaysWorking | app/page.tsx:90-113 | Page and route together: a key is accepted iff it is well formed and the model's reply says "working". |
| Page.DigitPrefix | app/page.tsx:120 | `\d+` is greedy: the maximal leading digit run. |
| Page.FirstDigitRun | app/page.tsx:120-121 | `match(/(\d+)/)`: a digit run that is empty exactly when the name has no digit. |
| Page.DigitPrefixOfNumber | app/page.tsx:120 | A digit run followed by a non-digit is taken whole. |
| Page.FirstDigitRunSkipsPrefix | app/page.tsx:120 | Characters before the first digit are skipped. |
| Page.FileNumberOfNumberedName | app/page.tsx:119-122 | `getNumber(prefix + n + suffix)` is n. |
| Page.FileNumber | app/page.tsx:119-122 | `getNumber`: the value of the first digit run, 0 without digits. FileNumberOfNumberedName states its value on export names. |
| Page.SecondExportBeforeTenth | app/page.tsx:115-124 | "message_2.json" reads 2 and "message_10.json" reads 10. |
| Page.SortedSnoc | app/page.tsx:117-124 | Appending a file whose key is greatest keeps the order. |
| Page.SortedLast | app/page.tsx:117-124 | The last file of a sorted list has the greatest key, and the rest stays sorted. |
| Page.Insert | app/page.tsx:117-124 | Insertion keeps the order and adds exactly the new file. |
| Page.SortBy | app/page.tsx:117-124 | The result is sorted by the key and is a permutation of the input. |
| Page.SortFilesByName | app/page.tsx:116-125 | `sortFilesByName`: sorted by the number in the name, a permutation of the files. |
| Page.SortSwapsPair | app/page.tsx:123 | Two files in the wrong order are swapped. |
| Page.ExportsSortNumerically | app/page.tsx:115-124 | "message_10.json" uploaded before "message_2.json" ends up after it. |
| Page.ExtractMessages | app/page.tsx:138 | An array is kept. An object contributes its truthy `messages`, otherwise []. null has no value, because the property access throws. |
| Page.ReadUpload | app/page.tsx:134-141 | A file is read exactly when it parses to a non-null value. It keeps the file name and ExtractMessages' data. |
| Page.ReadBatch | app/page.tsx:133-152 | Every file is either read or alerted. No alerts iff every file parses, and then the files are in order. |
| Page.AddUploads | app/page.tsx:127-155 | A fully read batch joins the list, which is re-sorted. A batch with an unreadable file adds nothing. |
| Page.RemoveFile | app/page.tsx:333-335 | `filter((_, i) => i !== index)`: the file at index goes; an out-of-range index changes nothing. |
| Page.RemoveFileShifts | app/page.tsx:333-335 | Files before the index stay; later ones move down by one. |
| ClientRetry.KeyErrorMessage | app/page.tsx:215-216 | The thrown message starts with "Invalid API Key". |
| ClientRetry.KeyRejected | app/page.tsx:213-217 | A failed answer with a non-null body and status 401 or an error text containing "API_KEY_INVALID". A null body throws a TypeError on `errorData.error` first, so it is never a key rejection. |
| ClientRetry.Rethrows | app/page.tsx:238 | The catch block rethrows a key error, or any error once two retries were spent. |
| ClientRetry.FailureMessage | app/page.tsx:228 | `errorData.error \|\| "Analysis failed for …"` is never empty. |
| ClientRetry.Waits | app/page.tsx:196 | The waits are 2000·r ms before retry round r. |
| ClientRetry.Classify | app/page.tsx:211-233 | A request is a success iff `ok`. A failed answer with a `null` body is a failure carrying the TypeError's text, whatever its status. Otherwise a key error iff 401 or "API_KEY_INVALID", carrying the marker; unavailable iff 503; anything else a failure with the caught message. |
| ClientRetry.StepAt | app/page.tsx:185-242 | One iteration ends the loop iff the request succeeded. A retry happens only with fewer than two retries spent. |
| ClientRetry.FileFrom | app/page.tsx:185-243 | The loop from retryCount on: at most 3 requests in all, the waits before them, and every request but the last retried. |
| ClientRetry.FileAttempts | app/page.tsx:182-243 | Per file: 1–3 requests with waits 2 s, 4 s. Analysed iff the last request was ok. A rejected key aborts with its message. No earlier request was ok or key-rejected. |
| ClientRetry.LoopBody | app/page.tsx:199-242 | The request body as written, with `continue`, rethrow and `retryCount++`, does what StepAt decides. |
| ClientRetry.ResumeStep | app/page.tsx:185-197 | One iteration is the wait followed by StepAt's decision. |
| ClientRetry.Iteration | app/page.tsx:185-242 | One iteration of the loop keeps the remaining-run invariant, and increments retryCount by at most one. |
| ClientRetry.AnalyzeFile | app/page.tsx:182-243 | The `while` loop as written yields exactly FileAttempts. |
| ClientRetry.RejectedKeyIsNotRetried | app/page.tsx:214-216 | A rejected key on the first request aborts after that one request. |
| ClientRetry.ThreeUnavailableAbort | app/page.tsx:220-226 | Three 503s: three requests, waits 2000 and 4000, and the unavailable message. |
| ClientRetry.ThreeFailuresAbort | app/page.tsx:237-242 | Any three failed requests abort the file; there is never a fourth. |
| ClientRetry.NullBodyMessageIsNoKeyError | app/page.tsx:238 | The TypeError's text does not contain "Invalid API Key", so the catch block does not rethrow it early. |
| ClientRetry.NullErrorBodyIsRetried | app/page.tsx:211-241 | Three failed answers with a `null` body, even 401s, make three requests with waits of 2 s and 4 s, and the file aborts with the TypeError's text. |
| ClientRetry.FileRuns | app/page.tsx:171-244 | The runs of every file, each with 1–3 requests. |
| ClientRetry.FilesFrom | app/page.tsx:171-244 | Files are processed in order. The run aborts at the first failed file with its message. Otherwise result k is file k's name with the body of its successful response. |
| ClientRetry.OverallFrom | app/page.tsx:256-309 | The overall loop: at most 3 requests with waits 3 s, 6 s. An analysis iff the last was ok; none means all three failed. Every failure counts one retry. |
| ClientRetry.AnalyzeAllChats | app/page.tsx:157-331 | Nothing happens for no files. An abort makes no overall request. A finish has 1–3 overall requests and, for every file, `{ ...result, fileName }` built from that file's successful response. |
| ClientRetry.OverallFailureDoesNotAbort | app/page.tsx:289-308 | Once every file is analysed the run finishes, whatever the overall requests return. |
| ClientRetry.AbortAtFirstFailure | app/page.tsx:237-240 | The run aborts at the first failing file, with its message, and never requests a later file. |
| ChatView.ScoreValue | app/components/chat-analysis.tsx:39-54 | Widths up to 95; 0 exactly for a label outside very low … very high. |
| ChatView.ScoreValueIncreasing | app/components/chat-analysis.tsx:39-54 | Label i reads as 10, 20, 50, 85, 95, strictly increasing. |
| ChatView.ScoreValueIgnoresCase | app/components/chat-analysis.tsx:40 | The mapping ignores case. |
| ChatView.ScoreValueDeterminesLabel | app/components/chat-analysis.tsx:39-54 | A non-zero width determines the label up to case. |
| ChatView.SentimentColor | app/components/chat-analysis.tsx:56-69 | The grey default exactly for an unknown sentiment. |
| ChatView.SentimentColorsDistinct | app/components/chat-analysis.tsx:56-69 | Different known sentiments get different classes. |
| ChatView.MetricScore | app/components/chat-analysis.tsx:177-181 | `scores[p] \|\| "medium"`. |
| ChatView.MetricBarWidth | app/components/chat-analysis.tsx:183 | A metric bar is at most 95% wide. |
| ChatView.MissingMetricIsHalfWidth | app/components/chat-analysis.tsx:177-183 | A participant the model said nothing about gets a 50% bar. |
| ChatView.ColorAt | app/components/chat-analysis.tsx:37 | `COLORS[i]` is defined exactly inside the eight-colour palette. |
| ChatView.BadgeColorsDefined | app/components/chat-analysis.tsx:289-315 | The wrapped emotion and tone indices always hit the palette. Badge `index` of participant p has the same colour in both rows exactly when p % 8 == 6, so never for the route's two participants. |
| ChatView.PaletteDistinct | app/components/chat-analysis.tsx:37 | The eight palette colours are different. |
| ChatView.BehaviourColors | app/components/chat-analysis.tsx:343-350 | The unwrapped `COLORS[index*2]`, `COLORS[index*2+1]` are both defined iff index < 4. |
| ChatView.RouteParticipantsHaveBehaviourColors | app/components/chat-analysis.tsx:343-350 | With the route's at most two participants, both badges always have a colour. |
| ChatView.FallbackSentimentsAreColoured | app/components/chat-analysis.tsx:219 | Every sentiment of the route's fallback gets a real colour, never the default. |
| ChatView.FallbackOpennessWidths | app/components/chat-analysis.tsx:180-183 | The fallback's "High"/"Medium" openness reads as 85% or 50%. |
| OverallView.HealthColor | app/components/overall-analysis.tsx:62-75 | The grey default exactly for an unknown health label. |
| OverallView.HealthColorIgnoresCase | app/components/overall-analysis.tsx:63 | The health badge ignores case. |
| OverallView.HealthColorsDistinct | app/components/overall-analysis.tsx:62-75 | Different known labels get different classes. |
| OverallView.BandCounts | app/components/overall-analysis.tsx:77-82 | The band is the number of thresholds 40, 60, 80 the score reaches. |
| OverallView.ScoreColor | app/components/overall-analysis.tsx:77-82 | One of the four band classes. |
| OverallView.RingStroke | app/components/overall-analysis.tsx:215-223 | One of the four ring strokes. |
| OverallView.ColoursFollowBand | app/components/overall-analysis.tsx:215-223 | The badge cascade and the ring cascade both pick their band's colour. |
| OverallView.RingAgreesWithScoreColor | app/components/overall-analysis.tsx:215-223 | The ring and the score badge always show the same band. |
| OverallView.ReachedMonotone | app/components/overall-analysis.tsx:77-82 | A higher score reaches at least as many thresholds. |
| OverallView.BandMonotone | app/components/overall-analysis.tsx:77-82 | A higher score is never in a lower band; a missing score is red. |
| OverallView.LevelValue | app/components/overall-analysis.tsx:84-99 | Widths from 20 to 95; 50 exactly for an unknown label. |
| OverallView.LevelValueIncreasing | app/components/overall-analysis.tsx:84-99 | Label i reads 20, 40, 60, 80, 95, strictly increasing. |
| OverallView.LevelValueIgnoresCase | app/components/overall-analysis.tsx:85 | The level bars ignore case. |
| OverallView.LevelWidth | app/components/overall-analysis.tsx:611 | `getLevelValue(x \|\| "medium")` lies between 20 and 95. |
| OverallView.MissingLevelWidths | app/components/overall-analysis.tsx:611-688 | A missing or empty level shows 60%, while an unknown one shows 50%. |
| OverallView.MediumReadsDifferently | app/components/overall-analysis.tsx:90-91 | "medium" is 50% on one dashboard and 60% on the other, though both orders agree. |
| OverallView.ParticipantNames | app/components/overall-analysis.tsx:103 | Falsy individual_analysis gives the two placeholders; an object gives its keys. An array or a string gives index names, the string's counted in UTF-16 code units. |
| OverallView.NatToStringInjective | app/components/overall-analysis.tsx:103 | Different indices have different names. |
| OverallView.ArrayParticipantsAreIndices | app/components/overall-analysis.tsx:103 | An array shows its indices "0", "1", … as participants. |
| OverallView.StringParticipantsAreUnitIndices | app/components/overall-analysis.tsx:103 | A string shows index "i" exactly when i is below its UTF-16 `length`, as `Object.keys` lists one key per code unit. |
| OverallView.FallbackParticipantsShown | app/components/overall-analysis.tsx:103 | The route's fallback shows its first two participants' names. |
| OverallView.Timeline | app/components/overall-analysis.tsx:106-110 | The given timeline when truthy, else the three default points. |
| OverallView.DefaultTimelineIsFallbacks | app/components/overall-analysis.tsx:106-110 | The chart's default equals the route's fallback timeline. |
| OverallView.EmptyTimelineIsKept | app/components/overall-analysis.tsx:106 | An empty timeline array is truthy, so it is kept and nothing is drawn. |
| OverallView.ShownParticipantTotal | app/components/overall-analysis.tsx:133 | `\|\| 2`: a positive count is shown as is, and zero or missing shows 2. |
| OverallView.EmptyMergeShowsTwo | app/components/overall-analysis.tsx:133 | A merge without messages shows "2" participants. |

## Left out

- Gemini itself is an oracle: the SDK, its configuration, and the prompt texts and their wording are not modelled.
- `JSON.parse` is an oracle from text to an optional JSON value. A failing `req.json()` (a body that is not JSON) is not modelled.
- The client's `fetch` is an oracle, and so is the `FileReader` result. A network error on the page is a `FetchOutcome` like any other.
- Timers: the backoff and retry waits are returned as durations, never slept. `Math.random()` is the oracle `jitter`. The 500 ms pause after each analysed file and the clearing of the progress display after 3 s only pace the progress display and are not modelled.
- `toLowerCase` is ASCII only. Other letters' case mappings are not modelled.
- Thrown values are modelled as strings (`error.message`). Non-Error throwables and non-string `error` fields are not modelled; `errorData.error?.includes` on a non-string is read as absent. A `null` error body is modelled: reading its `error` throws a TypeError, whose text is V8's wording ("Cannot read properties of null (reading 'error')"); other engines word it differently.
- Every message is assumed to carry a string `sender_name` and a numeric `timestamp_ms`. A message without a sender, which puts `undefined` among the participants, and one without a timestamp, which makes the span NaN and reads "Same day", are not modelled.
- The aggregate route's `chat.data` is assumed to be an array of messages. A chat whose `data` is not an array is not modelled.
- Fallback fields that do not depend on the messages (emotions, intents, toxicity, trust, love, sarcasm, curiosity, the long texts) are not modelled field by field. The fields depending on the messages are modelled: sentiments, tones, openness, style, most_engaged and message_balance.
- ChatStats.Truncate: when the 30000th code unit is the first half of a surrogate pair, `substring` keeps that lone half, which a Dafny string cannot hold; the model stops one unit earlier.
- AnalyzeOverall.OverallText: the same for `slice` at 50000 code units; a lone high surrogate at the cut is dropped.
- ChatStats.RoundDiv: `Math.round` is stated on naturals as the nearest integer with halves up. Floating-point division is not modelled.
- AnalyzeOverall.Totals: the source's "avg_daily_messages" divides by the number of chats, not days, and the model states exactly that.
- Page.FileNumber: `Number.parseInt` precision loss on digit runs past 2^53 is not modelled.
- The `strokeDasharray` of the ring and other percentage arithmetic on floats are not modelled.
- The upload callbacks run in arbitrary order. `AddUploads` takes the batch in selection order and models the all-read case of the `length === files.length` test. A batch with an unreadable file never reaches that test, so it adds nothing.
- Page.SortFilesByName: the stability of `Array.prototype.sort` is not stated. The contract says sorted and a permutation only.
- Progress display strings and the `isAnalyzing`/`currentStep` UI state are not modelled.
- OverallView.ParticipantNames returns a set. The insertion order of `Object.keys` is not modelled.
- OverallView.ScoreColor: `data.compatibility_score` is taken as a number or missing. A string score coerced by `>=` is not modelled. `getScoreColor` is declared but never called in the dashboard; it is modelled anyway, and the ring's own cascade is proved to agree with it.

=== FILE: analyze_chat.dfy ===
/** The per-conversation route, `POST` in app/api/analyze-chat/route.ts:
    request validation, statistics, the model call through the retry
    wrapper, reply recovery or the fallback, the assembled answer, and the
    error classification of the outer catch block. The model is the oracle
    `call` (the text of the k-th reply, or the error it threw), `JSON.parse`
    the oracle `parse`, the backoff jitter the oracle `jitter`. */
module AnalyzeChat {
  import opened Wrappers
  import opened Text
  import opened JsonValue
  import opened ApiErrors
  import opened Backoff
  import opened Cleaning
  import opened Recovery
  import opened ChatStats
  import opened ChatFallback

  /** The request body: `messages` is `None` when it is missing or not an
      array; a missing `apiKey` is `JNull`. */
  datatype ChatRequest = ChatRequest(messages: Option<seq<Message>>, apiKey: Json)

  datatype MessageStats = MessageStats(totalMessages: nat, avgMessageLength: Option<nat>, conversationDuration: string)

  /** Where the analysis fields came from. */
  datatype AnalysisBody = FromModel(analysis: Json) | FromFallback(fallback: Fallback)

  /** `{ ...analysisObject, participants, message_stats }`. */
  datatype ChatAnalysis = ChatAnalysis(body: AnalysisBody, participants: seq<string>, stats: MessageStats)

  datatype ChatResponse = Analysed(result: ChatAnalysis) | Failed(status: int, error: string)

  /** The answer, and how many times the model was called on the way. */
  datatype ChatOutcome = ChatOutcome(response: ChatResponse, modelCalls: nat)

  /** The fields required of a parsed reply. */
  const RequiredFields: seq<string> := ["participants", "sentiments"]

  /** The message of the TypeError the fallback throws on a missing `content`. */
  const MissingContentError: string := "Cannot read properties of undefined (reading 'length')"

  /** The statistics the route adds to every analysis. */
  function Stats(ms: seq<Message>): (st: MessageStats)
    ensures st.totalMessages == |ms|
    ensures st.avgMessageLength.None? <==> |ms| == 0
    ensures st.conversationDuration == "Same day" <==> |ms| == 0 || MaxTimestamp(ms) - MinTimestamp(ms) < 43200000
  {
    SameDayIffUnderHalfDay(ms);
    MessageStats(|ms|, AvgMessageLength(ms), DurationLabel(DurationDays(ms)))
  }

  /** The outer catch block: the status from the message's markers, and the
      message itself as the error text of a 500. */
  function ErrorResponse(m: string): (r: ChatResponse)
    ensures r.Failed? && r.status == ChatErrorStatus(m)
    ensures r.status != 400
    ensures r.status == 500 ==> r.error == m
  {
    var status := ChatErrorStatus(m);
    Failed(status, ErrorText(status, m))
  }

  /** The error text the catch block sends with each status. */
  function ErrorText(status: int, m: string): (text: string)
    ensures status == 500 ==> text == m
  {
    if status == 401 then "Invalid Gemini API key or insufficient permissions. Please check your API key and ensure it has access to Gemini models."
    else if status == 503 then "Gemini API is temporarily unavailable (503 error). This is usually a temporary issue. Please try again in a few moments. If the problem persists, the service may be experiencing high traffic."
    else if status == 404 then "Gemini model not available. Please try again or check your API access."
    else if status == 429 then "API rate limit exceeded. Please wait a moment and try again."
    else m
  }

  /** What the route answers once the model returned `reply`: the parsed
      reply when it survives cleaning, the guard and the field check, the
      fallback otherwise, and the fallback's TypeError as a caught error. */
  function Answer(ms: seq<Message>, reply: string, parse: string -> Option<Json>): (r: ChatResponse)
    ensures r.Analysed? ==> r.result.participants == ChatParticipants(ms) && r.result.stats == Stats(ms)
    ensures r.Analysed? && r.result.body.FromModel? ==>
              && HasBracePair(Trim(reply))
              && parse(CleanSteps(Trim(reply))) == Some(r.result.body.analysis)
              && FieldTruthy(r.result.body.analysis, "participants")
              && FieldTruthy(r.result.body.analysis, "sentiments")
    ensures !HasBracePair(Trim(reply)) ==> !(r.Analysed? && r.result.body.FromModel?)
    ensures (r.Analysed? && r.result.body.FromModel?) <==> Recover(Trim(reply), parse, RequiredFields).UseParsed?
    ensures Recover(Trim(reply), parse, RequiredFields).UseParsed? ==>
              r == Analysed(ChatAnalysis(FromModel(Recover(Trim(reply), parse, RequiredFields).value),
                                         ChatParticipants(ms), Stats(ms)))
    ensures Recover(Trim(reply), parse, RequiredFields).UseFallback? ==> r == FallbackAnswer(ms)
    ensures r.Analysed? && r.result.body.FromFallback? ==>
              BuildFallback(ms, ChatParticipants(ms)) == Built(r.result.body.fallback)
    ensures r.Failed? ==> r == ErrorResponse(MissingContentError) && BuildFallback(ms, ChatParticipants(ms)).ContentMissing?
    ensures !HasBracePair(Trim(reply)) && BuildFallback(ms, ChatParticipants(ms)).ContentMissing? ==>
              r == ErrorResponse(MissingContentError)
  {
    var ps := ChatParticipants(ms);
    match Recover(Trim(reply), parse, RequiredFields)
    case UseParsed(v) =>
      assert RequiredFields[0] == "participants" && RequiredFields[1] == "sentiments";
      Analysed(ChatAnalysis(FromModel(v), ps, Stats(ms)))
    case UseFallback => FallbackAnswer(ms)
  }

  /** The answer built from the fallback, or its TypeError as a caught error. */
  function FallbackAnswer(ms: seq<Message>): (r: ChatResponse)
    ensures r.Analysed? <==> BuildFallback(ms, ChatParticipants(ms)).Built?
    ensures r.Analysed? ==>
              && r.result.participants == ChatParticipants(ms) && r.result.stats == Stats(ms)
              && r.result.body == FromFallback(BuildFallback(ms, ChatParticipants(ms)).value)
    ensures r.Failed? ==> r == ErrorResponse(MissingContentError)
  {
    match BuildFallback(ms, ChatParticipants(ms))
    case Built(f) => Analysed(ChatAnalysis(FromFallback(f), ChatParticipants(ms), Stats(ms)))
    case ContentMissing => ErrorResponse(MissingContentError)
  }

  /** The route. After validation it calls the model through the retry
      wrapper (3 retries, 2000 ms base delay): a rethrown error goes to the
      catch block, and so does an error thrown afterwards by `text()`, with
      no retry; a reply goes to `Answer`. */
  function Analyze(req: ChatRequest, call: nat -> Generation, jitter: nat -> real, parse: string -> Option<Json>)
    : (o: ChatOutcome)
    ensures req.messages.None? ==> o == ChatOutcome(Failed(400, "Invalid messages format"), 0)
    ensures req.messages.Some? && !Truthy(req.apiKey) ==> o == ChatOutcome(Failed(400, "Gemini API key is required"), 0)
    ensures req.messages.Some? && Truthy(req.apiKey) ==>
              var run := RetryWithBackoff(call, jitter, 3, 2000);
              && o.modelCalls == run.calls
              && (run.outcome.Threw? ==> o.response == ErrorResponse(run.outcome.message))
              && (run.outcome.Returned? && run.outcome.value.Threw? ==>
                    o.response == ErrorResponse(run.outcome.value.message))
              && (run.outcome.Returned? && run.outcome.value.Returned? ==>
                    o.response == Answer(req.messages.value, run.outcome.value.value, parse))
  {
    match req.messages
    case None => ChatOutcome(Failed(400, "Invalid messages format"), 0)
    case Some(ms) =>
      if !Truthy(req.apiKey) then ChatOutcome(Failed(400, "Gemini API key is required"), 0)
      else
        var run: RetryRun<Attempt<string>> := RetryWithBackoff(call, jitter, 3, 2000);
        match run.outcome
        case Threw(m) => ChatOutcome(ErrorResponse(m), run.calls)
        case Returned(Threw(m)) => ChatOutcome(ErrorResponse(m), run.calls)
        case Returned(Returned(reply)) => ChatOutcome(Answer(ms, reply, parse), run.calls)
  }

  /** Whatever the model said, an analysis carries the participants and the
      statistics computed from the messages, and at most four model calls
      are made. */
  lemma AnalysisCarriesComputedStats(req: ChatRequest, call: nat -> Generation, jitter: nat -> real,
                                     parse: string -> Option<Json>)
    ensures var o := Analyze(req, call, jitter, parse);
            && o.modelCalls <= 4
            && (o.response.Analysed? ==> o.response.result.participants == ChatParticipants(req.messages.value)
                                         && o.response.result.stats == Stats(req.messages.value))
  {
    var o := Analyze(req, call, jitter, parse);
    if req.messages.Some? && Truthy(req.apiKey) {
      var run := RetryWithBackoff(call, jitter, 3, 2000);
      if run.outcome.Returned? && run.outcome.value.Returned? {
        assert o.response == Answer(req.messages.value, run.outcome.value.value, parse);
      }
    }
  }

  /** The answer is a 400 exactly when the model was never called. */
  lemma BadRequestIffNoModelCall(req: ChatRequest, call: nat -> Generation, jitter: nat -> real,
                                 parse: string -> Option<Json>)
    ensures var o := Analyze(req, call, jitter, parse);
            o.response.Failed? && o.response.status == 400 <==> o.modelCalls == 0
  {
    var o := Analyze(req, call, jitter, parse);
    if req.messages.Some? && Truthy(req.apiKey) {
      var run := RetryWithBackoff(call, jitter, 3, 2000);
      if run.outcome.Threw? {
        assert o.response == ErrorResponse(run.outcome.message);
      } else if run.outcome.value.Threw? {
        assert o.response == ErrorResponse(run.outcome.value.message);
      } else {
        var r := Answer(req.messages.value, run.outcome.value.value, parse);
        assert o.response == r;
        assert r.Failed? ==> r.status != 400;
      }
    }
  }

  /** An analysis taken from the model's reply comes from a reply holding a
      '{' before a '}', parsed after cleaning, with both required fields
      truthy; the model was called until it answered. */
  lemma ModelAnalysisWasValidated(req: ChatRequest, call: nat -> Generation, jitter: nat -> real,
                                  parse: string -> Option<Json>)
    requires Analyze(req, call, jitter, parse).response.Analysed?
    requires Analyze(req, call, jitter, parse).response.result.body.FromModel?
    ensures var o := Analyze(req, call, jitter, parse);
            var g := call(o.modelCalls - 1);
            && g.Returned? && g.value.Returned?
            && HasBracePair(Trim(g.value.value))
            && parse(CleanSteps(Trim(g.value.value))) == Some(o.response.result.body.analysis)
            && FieldTruthy(o.response.result.body.analysis, "participants")
            && FieldTruthy(o.response.result.body.analysis, "sentiments")
  {
    var o := Analyze(req, call, jitter, parse);
    var run := RetryWithBackoff(call, jitter, 3, 2000);
    assert req.messages.Some? && Truthy(req.apiKey) && o.modelCalls == run.calls;
    if run.outcome.Threw? || run.outcome.value.Threw? {
      assert false;
    }
    assert o.response == Answer(req.messages.value, run.outcome.value.value, parse);
  }

  /** A reply passing the guard, the parse and the field check is recovered. */
  lemma ParsedReplyIsRecovered(reply: string, parse: string -> Option<Json>, v: Json)
    requires var text := Trim(reply);
             && HasBracePair(text) && parse(CleanSteps(text)) == Some(v)
             && FieldTruthy(v, "participants") && FieldTruthy(v, "sentiments")
    ensures Recover(Trim(reply), parse, RequiredFields) == UseParsed(v)
  {
    RequiredFieldsTruthy(v);
    ValidTextIsRecovered(Trim(reply), parse, RequiredFields, v);
  }

  /** The two required fields are `participants` and `sentiments`. */
  lemma RequiredFieldsTruthy(v: Json)
    requires FieldTruthy(v, "participants") && FieldTruthy(v, "sentiments")
    ensures forall f :: f in RequiredFields ==> FieldTruthy(v, f)
  {
    assert |RequiredFields| == 2 && RequiredFields[0] == "participants" && RequiredFields[1] == "sentiments";
  }

  /** Conversely, a reply that passes the guard, parses after cleaning and
      has truthy `participants` and `sentiments` is what the route answers
      with, once the retryable failures before it are used up. */
  lemma ValidatedReplyIsUsed(req: ChatRequest, call: nat -> Generation, jitter: nat -> real,
                             parse: string -> Option<Json>, k: nat, v: Json)
    requires req.messages.Some? && Truthy(req.apiKey)
    requires k <= 3 && forall j :: 0 <= j < k ==> Retryable(call(j))
    requires call(k).Returned? && call(k).value.Returned?
    requires var text := Trim(call(k).value.value);
             && HasBracePair(text) && parse(CleanSteps(text)) == Some(v)
             && FieldTruthy(v, "participants") && FieldTruthy(v, "sentiments")
    ensures var o := Analyze(req, call, jitter, parse);
            var ms := req.messages.value;
            o.modelCalls == k + 1 && o.response == Analysed(ChatAnalysis(FromModel(v), ChatParticipants(ms), Stats(ms)))
  {
    var ms := req.messages.value;
    var reply := call(k).value.value;
    StopsAtFirstFinalAttempt(call, jitter, 3, 2000, k);
    ParsedReplyIsRecovered(reply, parse, v);
    assert Analyze(req, call, jitter, parse).response == Answer(ms, reply, parse);
  }

  /** The premises of ValidatedReplyIsUsed can all hold: a first reply of
      `{}` whose parse has both required fields is answered with it. */
  lemma ValidatedReplyExample(call: nat -> Generation, jitter: nat -> real, parse: string -> Option<Json>, v: Json)
    requires call(0) == Returned(Returned("{}"))
    requires v == JObject(map["participants" := JBool(true), "sentiments" := JBool(true)])
    requires forall t :: parse(t) == Some(v)
    ensures var o := Analyze(ChatRequest(Some([]), JString("key")), call, jitter, parse);
            o.modelCalls == 1 && o.response == Analysed(ChatAnalysis(FromModel(v), [], Stats([])))
  {
    BraceReplyPasses();
    assert FieldTruthy(v, "participants") && FieldTruthy(v, "sentiments");
    assert ChatParticipants([]) == [];
    ValidatedReplyIsUsed(ChatRequest(Some([]), JString("key")), call, jitter, parse, 0, v);
  }

  /** The reply `{}` survives trimming and passes the brace guard. */
  lemma BraceReplyPasses()
    ensures HasBracePair(Trim("{}"))
  {
    assert Trim("{}") == "{}";
    assert "{}"[0] == '{' && "{}"[1] == '}';
  }

  /** A reply without a '{' before a '}' never reaches the client as an
      analysis of the model: the fallback answers, or the 500 of its TypeError. */
  lemma ProseReplyUsesFallback(req: ChatRequest, call: nat -> Generation, jitter: nat -> real,
                               parse: string -> Option<Json>)
    requires req.messages.Some? && Truthy(req.apiKey)
    requires call(0).Returned? && call(0).value.Returned? && !HasBracePair(Trim(call(0).value.value))
    ensures var o := Analyze(req, call, jitter, parse);
            o.modelCalls == 1
            && (o.response.Analysed? ==> o.response.result.body.FromFallback?)
            && (o.response.Failed? ==> o.response == ErrorResponse(MissingContentError))
  {
    assert RetryWithBackoff(call, jitter, 3, 2000).calls == 1;
  }

  /** The fallback crashes exactly when one of the two participants has a
      message without content; that crash is answered through the same
      catch block as a model error. */
  lemma FallbackCrashIsCaught(req: ChatRequest, call: nat -> Generation, jitter: nat -> real,
                              parse: string -> Option<Json>)
    requires req.messages.Some? && Truthy(req.apiKey)
    requires call(0).Returned? && call(0).value.Returned? && !HasBracePair(Trim(call(0).value.value))
    requires var ms := req.messages.value;
             var ps := ChatParticipants(ms);
             exists i :: 0 <= i < |ms| && ms[i].content.None?
                         && ((|ps| > 0 && ms[i].sender == ps[0]) || (|ps| > 1 && ms[i].sender == ps[1]))
    ensures Analyze(req, call, jitter, parse).response == ErrorResponse(MissingContentError)
  {
    var ms := req.messages.value;
    var run := RetryWithBackoff(call, jitter, 3, 2000);
    assert run.calls == 1;
    assert BuildFallback(ms, ChatParticipants(ms)).ContentMissing?;
  }

  /** When `text()` throws, the model is not called again: the catch block
      answers with that error after the one call. */
  lemma TextFailureIsNotRetried(req: ChatRequest, call: nat -> Generation, jitter: nat -> real,
                                parse: string -> Option<Json>)
    requires req.messages.Some? && Truthy(req.apiKey)
    requires call(0).Returned? && call(0).value.Threw?
    ensures var o := Analyze(req, call, jitter, parse);
            o.modelCalls == 1 && o.response == ErrorResponse(call(0).value.message)
  {
    assert RetryWithBackoff(call, jitter, 3, 2000).calls == 1;
  }

  /** An auth error on the first model call is answered with 401 after one call. */
  lemma AuthErrorAnswered401(req: ChatRequest, call: nat -> Generation, jitter: nat -> real,
                             parse: string -> Option<Json>)
    requires req.messages.Some? && Truthy(req.apiKey)
    requires call(0).Threw? && IsAuthMessage(call(0).message)
    ensures var o := Analyze(req, call, jitter, parse);
            o.modelCalls == 1 && o.response.Failed? && o.response.status == 401
  {
    AuthFailureIsNotRetried(call, jitter, 3, 2000);
  }

  /** Four retryable failures in a row use up the retries, and the last
      error decides the answer. */
  lemma ExhaustedRetriesAnswerLastError(req: ChatRequest, call: nat -> Generation, jitter: nat -> real,
                                        parse: string -> Option<Json>)
    requires req.messages.Some? && Truthy(req.apiKey)
    requires forall k :: 0 <= k < 4 ==> Retryable(call(k))
    ensures var o := Analyze(req, call, jitter, parse);
            o.modelCalls == 4 && o.response == ErrorResponse(call(3).message)
  {
  }
}

=== FILE: analyze_overall.dfy ===
/** The aggregate route, `POST` in app/api/analyze-overall/route.ts: all
    uploaded conversations are merged and analysed together. It shares the
    retry wrapper and the reply recovery with the per-conversation route;
    its statistics, its fallback and its error classification differ. */
module AnalyzeOverall {
  import opened Wrappers
  import opened Text
  import opened JsonValue
  import opened ApiErrors
  import opened Backoff
  import opened Cleaning
  import opened Recovery
  import opened ChatStats

  /** The request body: `allChats` is `None` when missing or not an array;
      each chat contributes its `data` array of messages. */
  datatype OverallRequest = OverallRequest(allChats: Option<seq<seq<Message>>>, apiKey: Json)

  datatype TotalStats = TotalStats(totalMessages: nat, totalParticipants: nat, conversationSpan: string, avgDailyMessages: nat)

  datatype TimelinePoint = TimelinePoint(period: string, sentiment: nat, engagement: nat, trust: nat)

  /** The fixed analysis used when the reply cannot be used; only the fields
      the view reads back are kept. */
  datatype OverallFallback = OverallFallback(
    relationshipType: string,
    compatibilityScore: nat,
    individualKeys: set<string>,
    timeline: seq<TimelinePoint>)

  datatype OverallBody = FromModel(analysis: Json) | FromFallback(fallback: OverallFallback)

  /** `{ ...analysisObject, total_stats }`. */
  datatype OverallAnalysis = OverallAnalysis(body: OverallBody, totalStats: TotalStats)

  datatype OverallResponse = Analysed(result: OverallAnalysis) | Failed(status: int, error: string)

  datatype OverallOutcome = OverallOutcome(response: OverallResponse, modelCalls: nat)

  const RequiredFields: seq<string> := ["relationship_type", "compatibility_score"]

  const MaxChars: nat := 50000

  /** The number of messages over all chats. */
  function MessageCount(chats: seq<seq<Message>>): nat {
    if |chats| == 0 then 0 else MessageCount(chats[..|chats| - 1]) + |chats[|chats| - 1]|
  }

  /** `allChats.flatMap((chat) => chat.data)`. */
  function Flatten(chats: seq<seq<Message>>): (all: seq<Message>)
    ensures |all| == MessageCount(chats)
    ensures forall m :: m in all <==> exists c :: c in chats && m in c
  {
    if |chats| == 0 then []
    else
      var rest := Flatten(chats[..|chats| - 1]);
      assert forall c :: c in chats <==> c in chats[..|chats| - 1] || c == chats[|chats| - 1];
      rest + chats[|chats| - 1]
  }

  /** A single chat flattens to its own messages. */
  lemma FlattenSingle(c: seq<Message>)
    ensures Flatten([c]) == c
  {
    assert [c][..0] == [];
  }

  /** Flattening keeps the chats' order: the messages of earlier chats come
      first, each chat's messages in their own order. */
  lemma {:induction false} FlattenAppend(a: seq<seq<Message>>, b: seq<seq<Message>>)
    ensures Flatten(a + b) == Flatten(a) + Flatten(b)
    decreases |b|
  {
    if |b| == 0 {
      assert a + b == a;
    } else {
      var b' := b[..|b| - 1];
      assert (a + b)[..|a + b| - 1] == a + b';
      FlattenAppend(a, b');
    }
  }

  /** `allParticipants`: every sender once, in order of first appearance. */
  function AllParticipants(chats: seq<seq<Message>>): (ps: seq<string>)
    ensures NoDuplicates(ps)
    ensures forall n :: n in ps <==> exists m :: m in Flatten(chats) && m.sender == n
  {
    var all := Flatten(chats);
    var names := Senders(all);
    assert forall n :: n in names <==> exists m :: m in all && m.sender == n by {
      forall n ensures n in names <==> exists m :: m in all && m.sender == n {
        if n in names {
          var i :| 0 <= i < |names| && names[i] == n;
          assert all[i] in all;
        }
        if exists m :: m in all && m.sender == n {
          var m :| m in all && m.sender == n;
          var i :| 0 <= i < |all| && all[i] == m;
          assert names[i] == n;
        }
      }
    }
    Distinct(names)
  }

  /** `total_participants` is the number of different sender names. */
  lemma ParticipantCountIsDistinctSenders(chats: seq<seq<Message>>)
    ensures |AllParticipants(chats)| == |set m | m in Flatten(chats) :: m.sender|
  {
    DistinctSenderCount(Flatten(chats));
  }

  /** The statistics the route adds to every analysis. The average divides by
      the number of chats (at least one), not by a number of days. */
  function Totals(chats: seq<seq<Message>>): (st: TotalStats)
    ensures st.totalMessages == MessageCount(chats)
    ensures st.totalParticipants == |AllParticipants(chats)|
    ensures st.conversationSpan == "Same day" <==>
              |Flatten(chats)| == 0 || MaxTimestamp(Flatten(chats)) - MinTimestamp(Flatten(chats)) < 43200000
    ensures RoundedQuotient(st.avgDailyMessages, MessageCount(chats), if |chats| > 1 then |chats| else 1)
  {
    var all := Flatten(chats);
    SameDayIffUnderHalfDay(all);
    TotalStats(|all|, |AllParticipants(chats)|, DurationLabel(DurationDays(all)),
               RoundDiv(|all|, if |chats| > 1 then |chats| else 1))
  }

  /** The prompt's copy of the merged conversation, `.slice(0, 50000)`: a
      prefix of at most 50000 UTF-16 code units, the whole text when it fits,
      and otherwise no more than one unit short of the limit. */
  function OverallText(chats: seq<seq<Message>>): (t: string)
    ensures Utf16Length(t) <= MaxChars
    ensures StartsWith(ChatText(Flatten(chats)), t)
    ensures Utf16Length(ChatText(Flatten(chats))) <= MaxChars ==> t == ChatText(Flatten(chats))
    ensures t != ChatText(Flatten(chats)) ==> MaxChars - 1 <= Utf16Length(t)
  {
    var full := ChatText(Flatten(chats));
    full[..Utf16Cut(full, MaxChars)]
  }

  /** The fixed fallback analysis. */
  function Fallback(ps: seq<string>): (f: OverallFallback)
    ensures f.compatibilityScore == 75 && f.relationshipType == "friendship"
    ensures |f.individualKeys| <= 2 && f.individualKeys == {SlotKey(ps, 0), SlotKey(ps, 1)}
    ensures |f.timeline| == 3
  {
    OverallFallback("friendship", 75, {SlotKey(ps, 0), SlotKey(ps, 1)},
      [TimelinePoint("Early Phase", 70, 75, 60), TimelinePoint("Development", 80, 85, 75),
       TimelinePoint("Current", 85, 90, 85)])
  }

  /** The catch block of this route, which has no not-found branch. */
  function ErrorResponse(m: string): (r: OverallResponse)
    ensures r.Failed? && r.status == OverallErrorStatus(m)
    ensures r.status != 400
    ensures r.status == 500 ==> r.error == m
  {
    var status := OverallErrorStatus(m);
    Failed(status, ErrorText(status, m))
  }

  function ErrorText(status: int, m: string): (text: string)
    ensures status == 500 ==> text == m
  {
    if status == 401 then "Invalid Gemini API key or insufficient permissions for overall analysis."
    else if status == 503 then "Gemini API is temporarily unavailable (503 error). This is usually a temporary issue. Please try again in a few moments. If the problem persists, the service may be experiencing high traffic."
    else if status == 429 then "API rate limit exceeded. Please wait a moment and try again."
    else m
  }

  /** What the route answers once the model returned `reply`: always an
      analysis, from the reply or from the fixed fallback. */
  function Answer(chats: seq<seq<Message>>, reply: string, parse: string -> Option<Json>): (r: OverallResponse)
    ensures r.Analysed? && r.result.totalStats == Totals(chats)
    ensures r.result.body.FromModel? ==>
              && HasBracePair(Trim(reply))
              && parse(CleanSteps(Trim(reply))) == Some(r.result.body.analysis)
              && FieldTruthy(r.result.body.analysis, "relationship_type")
              && FieldTruthy(r.result.body.analysis, "compatibility_score")
    ensures r.result.body.FromFallback? ==> r.result.body.fallback == Fallback(AllParticipants(chats))
    ensures r.result.body.FromFallback? <==> Recover(Trim(reply), parse, RequiredFields).UseFallback?
  {
    match Recover(Trim(reply), parse, RequiredFields)
    case UseParsed(v) =>
      assert RequiredFields[0] == "relationship_type" && RequiredFields[1] == "compatibility_score";
      Analysed(OverallAnalysis(FromModel(v), Totals(chats)))
    case UseFallback =>
      Analysed(OverallAnalysis(FromFallback(Fallback(AllParticipants(chats))), Totals(chats)))
  }

  /** The route: one combined validation, then the retry wrapper (3 retries,
      2000 ms base delay) and `Answer`, or the catch block for an error the
      wrapper rethrows or `text()` throws afterwards. */
  function Analyze(req: OverallRequest, call: nat -> Generation, jitter: nat -> real, parse: string -> Option<Json>)
    : (o: OverallOutcome)
    ensures req.allChats.None? || !Truthy(req.apiKey) ==> o == OverallOutcome(Failed(400, "Invalid request data"), 0)
    ensures req.allChats.Some? && Truthy(req.apiKey) ==>
              var run := RetryWithBackoff(call, jitter, 3, 2000);
              && o.modelCalls == run.calls
              && (run.outcome.Threw? ==> o.response == ErrorResponse(run.outcome.message))
              && (run.outcome.Returned? && run.outcome.value.Threw? ==>
                    o.response == ErrorResponse(run.outcome.value.message))
              && (run.outcome.Returned? && run.outcome.value.Returned? ==>
                    o.response == Answer(req.allChats.value, run.outcome.value.value, parse))
  {
    if req.allChats.None? || !Truthy(req.apiKey) then OverallOutcome(Failed(400, "Invalid request data"), 0)
    else
      var run: RetryRun<Attempt<string>> := RetryWithBackoff(call, jitter, 3, 2000);
      match run.outcome
      case Threw(m) => OverallOutcome(ErrorResponse(m), run.calls)
      case Returned(Threw(m)) => OverallOutcome(ErrorResponse(m), run.calls)
      case Returned(Returned(reply)) => OverallOutcome(Answer(req.allChats.value, reply, parse), run.calls)
  }

  /** Once the model answers and its text is read, the route always answers
      with an analysis: nothing after reading the text can fail. */
  lemma ReplyAlwaysAnalysed(req: OverallRequest, call: nat -> Generation, jitter: nat -> real,
                            parse: string -> Option<Json>)
    requires req.allChats.Some? && Truthy(req.apiKey)
    ensures var o := Analyze(req, call, jitter, parse);
            var run := RetryWithBackoff(call, jitter, 3, 2000);
            o.response.Analysed? <==> run.outcome.Returned? && run.outcome.value.Returned?
  {
  }

  /** A reply whose parsed `compatibility_score` is 0 fails the required-field
      check (0 is falsy), so the fixed fallback with its score of 75 is used. */
  lemma ZeroScoreIsReplaced(chats: seq<seq<Message>>, reply: string, parse: string -> Option<Json>)
    requires var p := parse(CleanSteps(Trim(reply)));
             p.Some? && Field(p.value, "compatibility_score") == Some(JNumber(0.0))
    ensures var r := Answer(chats, reply, parse);
            r.result.body.FromFallback? && r.result.body.fallback.compatibilityScore == 75
  {
  }

  /** The answer is a 400 exactly when the model was never called. */
  lemma BadRequestIffNoModelCall(req: OverallRequest, call: nat -> Generation, jitter: nat -> real,
                                 parse: string -> Option<Json>)
    ensures var o := Analyze(req, call, jitter, parse);
            o.response.Failed? && o.response.status == 400 <==> o.modelCalls == 0
  {
    var o := Analyze(req, call, jitter, parse);
    if req.allChats.Some? && Truthy(req.apiKey) {
      var run := RetryWithBackoff(call, jitter, 3, 2000);
      if run.outcome.Threw? {
        assert o.response == ErrorResponse(run.outcome.message);
      } else if run.outcome.value.Threw? {
        assert o.response == ErrorResponse(run.outcome.value.message);
      }
    }
  }

  /** When `text()` throws, the model is not called again: the catch block
      answers with that error after the one call. */
  lemma TextFailureIsNotRetried(req: OverallRequest, call: nat -> Generation, jitter: nat -> real,
                                parse: string -> Option<Json>)
    requires req.allChats.Some? && Truthy(req.apiKey)
    requires call(0).Returned? && call(0).value.Threw?
    ensures var o := Analyze(req, call, jitter, parse);
            o.modelCalls == 1 && o.response == ErrorResponse(call(0).value.message)
  {
    assert RetryWithBackoff(call, jitter, 3, 2000).calls == 1;
  }
}

=== FILE: api_errors.dfy ===
/** The substring tests the three server routes apply to a thrown error's
    message, and the HTTP status each route's catch block picks from them.
    A thrown value without a message behaves like one whose message is "":
    every `includes` test is false and `message || x` yields `x`. */
module ApiErrors {
  import opened Text

  /** Invalid key or missing permission: never retried, answered with 401. */
  predicate IsAuthMessage(m: string) {
    Contains(m, "API_KEY_INVALID") || Contains(m, "PERMISSION_DENIED")
  }

  /** The service-unavailable family of the two analysis routes. */
  predicate IsUnavailableMessage(m: string) {
    Contains(m, "503") || Contains(m, "Service Unavailable") || Contains(m, "Visibility check was unavailable")
  }

  predicate IsNotFoundMessage(m: string) {
    Contains(m, "not found") || Contains(m, "404")
  }

  predicate IsRateLimitMessage(m: string) {
    Contains(m, "429") || Contains(m, "quota")
  }

  /** Status of the per-conversation route's catch block: the first family
      that matches, in the order auth, unavailable, not found, rate limit. */
  function ChatErrorStatus(m: string): (status: int)
    ensures status == 401 || status == 503 || status == 404 || status == 429 || status == 500
    ensures IsAuthMessage(m) ==> status == 401
    ensures !IsAuthMessage(m) && IsUnavailableMessage(m) ==> status == 503
    ensures !IsAuthMessage(m) && !IsUnavailableMessage(m) && IsNotFoundMessage(m) ==> status == 404
    ensures !IsAuthMessage(m) && !IsUnavailableMessage(m) && !IsNotFoundMessage(m) && IsRateLimitMessage(m)
            ==> status == 429
    ensures !IsAuthMessage(m) && !IsUnavailableMessage(m) && !IsNotFoundMessage(m) && !IsRateLimitMessage(m)
            ==> status == 500
  {
    if IsAuthMessage(m) then 401
    else if IsUnavailableMessage(m) then 503
    else if IsNotFoundMessage(m) then 404
    else if IsRateLimitMessage(m) then 429
    else 500
  }

  /** Status of the aggregate route's catch block: like the per-conversation
      route but without a not-found branch. */
  function OverallErrorStatus(m: string): (status: int)
    ensures IsAuthMessage(m) ==> status == 401
    ensures !IsAuthMessage(m) && IsUnavailableMessage(m) ==> status == 503
    ensures !IsAuthMessage(m) && !IsUnavailableMessage(m) && IsRateLimitMessage(m) ==> status == 429
    ensures !IsAuthMessage(m) && !IsUnavailableMessage(m) && !IsRateLimitMessage(m) ==> status == 500
  {
    if IsAuthMessage(m) then 401
    else if IsUnavailableMessage(m) then 503
    else if IsRateLimitMessage(m) then 429
    else 500
  }

  /** Status of the key-test route's catch block: auth, then the bare codes
      "403", "404", "429", then "503" or "Service Unavailable". */
  function KeyTestErrorStatus(m: string): (status: int)
    ensures status in {401, 403, 404, 429, 503, 500}
    ensures IsAuthMessage(m) ==> status == 401
    ensures !IsAuthMessage(m) && Contains(m, "403") ==> status == 403
    ensures !IsAuthMessage(m) && !Contains(m, "403") && Contains(m, "404") ==> status == 404
    ensures !IsAuthMessage(m) && !Contains(m, "403") && !Contains(m, "404") && Contains(m, "429")
            ==> status == 429
    ensures (!IsAuthMessage(m) && !Contains(m, "403") && !Contains(m, "404") && !Contains(m, "429")
             && (Contains(m, "503") || Contains(m, "Service Unavailable"))) ==> status == 503
    ensures (!IsAuthMessage(m) && !Contains(m, "403") && !Contains(m, "404") && !Contains(m, "429")
             && !Contains(m, "503") && !Contains(m, "Service Unavailable")) ==> status == 500
  {
    if IsAuthMessage(m) then 401
    else if Contains(m, "403") then 403
    else if Contains(m, "404") then 404
    else if Contains(m, "429") then 429
    else if Contains(m, "503") || Contains(m, "Service Unavailable") then 503
    else 500
  }

  /** The error text of the key-test route's final 500 answer. */
  function KeyTestFailureText(m: string): (text: string)
    ensures StartsWith(text, "API key validation failed: ")
    ensures m != "" ==> text[|"API key validation failed: "|..] == m
    ensures m == "" ==> text[|"API key validation failed: "|..] == "Unknown error"
  {
    "API key validation failed: " + (if m != "" then m else "Unknown error")
  }

  /** An auth marker wins over every other marker, in all three routes. */
  lemma AuthWinsInEveryRoute(m: string)
    requires IsAuthMessage(m)
    ensures ChatErrorStatus(m) == OverallErrorStatus(m) == KeyTestErrorStatus(m) == 401
  {
  }

  /** The aggregate route has no not-found branch: a message that only
      mentions "404" is a 404 for the per-conversation route and a 500 here. */
  lemma NotFoundOnlyInChatRoute(m: string)
    requires Contains(m, "404")
    requires !IsAuthMessage(m) && !IsUnavailableMessage(m) && !IsRateLimitMessage(m)
    ensures ChatErrorStatus(m) == 404
    ensures OverallErrorStatus(m) == 500
  {
  }

  /** The two analysis routes agree on every message without a not-found marker. */
  lemma AnalysisRoutesAgreeWithoutNotFound(m: string)
    requires !IsNotFoundMessage(m)
    ensures ChatErrorStatus(m) == OverallErrorStatus(m)
  {
  }

  /** The key-test route does not look for "quota" or the visibility-check
      text: such messages fall through to 500 there. */
  lemma KeyTestIgnoresQuotaAndVisibility(m: string)
    requires Contains(m, "quota") || Contains(m, "Visibility check was unavailable")
    requires !IsAuthMessage(m) && !Contains(m, "403") && !Contains(m, "404")
    requires !Contains(m, "429") && !Contains(m, "503") && !Contains(m, "Service Unavailable")
    ensures KeyTestErrorStatus(m) == 500
    ensures OverallErrorStatus(m) != 500 && ChatErrorStatus(m) != 500
  {
  }

  /** First match wins: "403" is checked before "404". */
  lemma KeyTestForbiddenBeforeNotFound(m: string)
    requires !IsAuthMessage(m) && Contains(m, "403") && Contains(m, "404")
    ensures KeyTestErrorStatus(m) == 403
  {
  }
}

=== FILE: backoff.dfy ===
/** `retryWithBackoff`, the retry wrapper both analysis routes put around the
    model call (app/api/analyze-chat/route.ts and app/api/analyze-overall/route.ts
    carry identical copies). The wrapped operation is an oracle `call`: `call(k)`
    is what the k-th invocation (counting from 0) returns or throws. The random
    jitter is an oracle too: `jitter(k)` stands for `Math.random() * 1000` drawn
    after the k-th failure. Sleeping is not performed; the delays are returned. */
module Backoff {
  import opened Text
  import opened ApiErrors

  /** One invocation of the wrapped operation: a value, or a thrown error. */
  datatype Attempt<T> = Returned(value: T) | Threw(message: string)

  /** One `model.generateContent(prompt)` as the analysis routes see it: the
      call throws, or it returns a response whose `text()` in turn returns
      the reply or throws. Only the outer failure is inside the wrapper. */
  type Generation = Attempt<Attempt<string>>

  /** What the wrapper did: how many times it invoked the operation, the
      delays it slept between invocations, and what it returned or rethrew. */
  datatype RetryRun<T> = RetryRun(outcome: Attempt<T>, calls: nat, sleeps: seq<real>)

  function Pow2(k: nat): (p: nat)
    ensures p >= 1
  {
    if k == 0 then 1 else 2 * Pow2(k - 1)
  }

  /** A failure the wrapper retries: thrown, and not an auth failure. */
  predicate Retryable<T>(a: Attempt<T>) {
    a.Threw? && !IsAuthMessage(a.message)
  }

  /** `jitter` stays in the range of `Math.random() * 1000`. */
  ghost predicate JitterInRange(jitter: nat -> real) {
    forall k: nat :: 0.0 <= jitter(k) < 1000.0
  }

  /** The delay slept after the failed invocation number `k`. */
  function BackoffDelay(baseDelay: nat, k: nat, jitter: nat -> real): real {
    (baseDelay * Pow2(k)) as real + jitter(k)
  }

  /** The loop of `retryWithBackoff` from iteration `attempt` on. */
  function RetryFrom<T>(call: nat -> Attempt<T>, jitter: nat -> real, maxRetries: nat, baseDelay: nat, attempt: nat)
    : (r: RetryRun<T>)
    requires attempt <= maxRetries
    ensures attempt < r.calls <= maxRetries + 1
    ensures |r.sleeps| == r.calls - 1 - attempt
    ensures r.outcome == call(r.calls - 1)
    ensures forall k :: attempt <= k < r.calls - 1 ==> Retryable(call(k))
    ensures Retryable(r.outcome) ==> r.calls == maxRetries + 1
    ensures forall i :: 0 <= i < |r.sleeps| ==> r.sleeps[i] == BackoffDelay(baseDelay, attempt + i, jitter)
    decreases maxRetries - attempt
  {
    match call(attempt)
    case Returned(v) => RetryRun(Returned(v), attempt + 1, [])
    case Threw(m) =>
      if IsAuthMessage(m) || attempt == maxRetries then RetryRun(Threw(m), attempt + 1, [])
      else
        var rest := RetryFrom(call, jitter, maxRetries, baseDelay, attempt + 1);
        RetryRun(rest.outcome, rest.calls, [BackoffDelay(baseDelay, attempt, jitter)] + rest.sleeps)
  }

  /** `retryWithBackoff(fn, maxRetries, baseDelay)`: invokes the operation at
      most `maxRetries + 1` times and returns what the last invocation gave.
      Every invocation before the last threw a retryable error, so a success is
      returned at once, an auth failure is rethrown at once, and a retryable
      failure is rethrown only once the attempts are used up. After the failed
      invocation k it sleeps `baseDelay * 2^k` plus the jitter, and it never
      sleeps after its last invocation. */
  function RetryWithBackoff<T>(call: nat -> Attempt<T>, jitter: nat -> real, maxRetries: nat, baseDelay: nat)
    : (r: RetryRun<T>)
    ensures 1 <= r.calls <= maxRetries + 1
    ensures |r.sleeps| == r.calls - 1
    ensures r.outcome == call(r.calls - 1)
    ensures forall k :: 0 <= k < r.calls - 1 ==> Retryable(call(k))
    ensures Retryable(r.outcome) ==> r.calls == maxRetries + 1
    ensures forall k :: 0 <= k < |r.sleeps| ==> r.sleeps[k] == BackoffDelay(baseDelay, k, jitter)
  {
    RetryFrom(call, jitter, maxRetries, baseDelay, 0)
  }

  /** When invocations 0 to k-1 fail with retryable errors and invocation k,
      within the budget, does not, the wrapper stops after k + 1 invocations
      with what invocation k gave. */
  lemma StopsAtFirstFinalAttempt<T>(call: nat -> Attempt<T>, jitter: nat -> real, maxRetries: nat, baseDelay: nat,
                                    k: nat)
    requires k <= maxRetries
    requires forall j :: 0 <= j < k ==> Retryable(call(j))
    requires !Retryable(call(k))
    ensures var r := RetryWithBackoff(call, jitter, maxRetries, baseDelay);
            r.calls == k + 1 && r.outcome == call(k)
  {
  }

  /** The same wrapper written as the source's `for` loop, with `return`,
      `break` and the `lastError` variable. */
  method RetryLoop<T>(call: nat -> Attempt<T>, jitter: nat -> real, maxRetries: nat, baseDelay: nat)
    returns (outcome: Attempt<T>, calls: nat, sleeps: seq<real>)
    ensures 1 <= calls <= maxRetries + 1
    ensures |sleeps| == calls - 1
    ensures outcome == call(calls - 1)
    ensures forall k :: 0 <= k < calls - 1 ==> Retryable(call(k))
    ensures Retryable(outcome) ==> calls == maxRetries + 1
    ensures forall k :: 0 <= k < |sleeps| ==> sleeps[k] == BackoffDelay(baseDelay, k, jitter)
  {
    var lastError := "";
    sleeps := [];
    var attempt := 0;
    while attempt <= maxRetries
      invariant attempt <= maxRetries
      invariant |sleeps| == attempt
      invariant forall k :: 0 <= k < attempt ==> Retryable(call(k))
      invariant attempt > 0 ==> call(attempt - 1) == Threw(lastError)
      invariant forall k :: 0 <= k < |sleeps| ==> sleeps[k] == BackoffDelay(baseDelay, k, jitter)
      decreases maxRetries + 1 - attempt
    {
      var a := call(attempt);
      if a.Returned? {
        return a, attempt + 1, sleeps;
      }
      lastError := a.message;
      if IsAuthMessage(a.message) {
        return a, attempt + 1, sleeps;
      }
      if attempt == maxRetries {
        break;
      }
      sleeps := sleeps + [BackoffDelay(baseDelay, attempt, jitter)];
      attempt := attempt + 1;
    }
    // Only the `break` on the last attempt leaves the loop.
    assert attempt == maxRetries;
    outcome, calls := Threw(lastError), attempt + 1;
  }

  /** The loop and the recursive definition agree on every oracle. */
  lemma RetryLoopMatchesDefinition<T>(call: nat -> Attempt<T>, jitter: nat -> real, maxRetries: nat, baseDelay: nat,
                                      outcome: Attempt<T>, calls: nat, sleeps: seq<real>)
    requires 1 <= calls <= maxRetries + 1
    requires |sleeps| == calls - 1
    requires outcome == call(calls - 1)
    requires forall k :: 0 <= k < calls - 1 ==> Retryable(call(k))
    requires Retryable(outcome) ==> calls == maxRetries + 1
    requires forall k :: 0 <= k < |sleeps| ==> sleeps[k] == BackoffDelay(baseDelay, k, jitter)
    ensures RetryWithBackoff(call, jitter, maxRetries, baseDelay) == RetryRun(outcome, calls, sleeps)
  {
  }

  /** An auth failure on the first invocation is rethrown after exactly one
      invocation, with no sleep. */
  lemma AuthFailureIsNotRetried<T>(call: nat -> Attempt<T>, jitter: nat -> real, maxRetries: nat, baseDelay: nat)
    requires call(0).Threw? && IsAuthMessage(call(0).message)
    ensures RetryWithBackoff(call, jitter, maxRetries, baseDelay) == RetryRun(call(0), 1, [])
  {
  }

  /** Every sleep lies in [baseDelay * 2^k, baseDelay * 2^k + 1000). */
  lemma SleepBounds<T>(call: nat -> Attempt<T>, jitter: nat -> real, maxRetries: nat, baseDelay: nat)
    requires JitterInRange(jitter)
    ensures var r := RetryWithBackoff(call, jitter, maxRetries, baseDelay);
            forall k :: 0 <= k < |r.sleeps| ==>
              (baseDelay * Pow2(k)) as real <= r.sleeps[k] < (baseDelay * Pow2(k)) as real + 1000.0
  {
  }

  function Sum(xs: seq<real>): real {
    if |xs| == 0 then 0.0 else xs[0] + Sum(xs[1..])
  }

  /** The jitter drawn after the failed invocations `attempt` to `attempt + n - 1`. */
  function JitterSum(jitter: nat -> real, attempt: nat, n: nat): real
    decreases n
  {
    if n == 0 then 0.0 else jitter(attempt) + JitterSum(jitter, attempt + 1, n - 1)
  }

  /** `n` jitters add up to less than 1000 each. */
  lemma {:induction false} JitterSumBounds(jitter: nat -> real, attempt: nat, n: nat)
    requires JitterInRange(jitter)
    ensures 0.0 <= JitterSum(jitter, attempt, n)
    ensures n > 0 ==> JitterSum(jitter, attempt, n) < 1000.0 * n as real
    decreases n
  {
    if n > 0 {
      JitterSumBounds(jitter, attempt + 1, n - 1);
    }
  }

  /** 2^attempt + ... + 2^(attempt + n - 1). */
  function Pow2Sum(attempt: nat, n: nat): nat
    decreases n
  {
    if n == 0 then 0 else Pow2(attempt) + Pow2Sum(attempt + 1, n - 1)
  }

  /** The geometric sum: 2^attempt + ... + 2^(attempt + n - 1) == 2^(attempt + n) - 2^attempt. */
  lemma {:induction false} Pow2SumClosedForm(attempt: nat, n: nat)
    ensures Pow2Sum(attempt, n) == Pow2(attempt + n) - Pow2(attempt)
    decreases n
  {
    if n > 0 {
      Pow2SumClosedForm(attempt + 1, n - 1);
      assert Pow2(attempt + 1) == 2 * Pow2(attempt);
      assert attempt + 1 + (n - 1) == attempt + n;
    }
  }

  /** The sleeps after the failed invocations from `attempt` on are the
      doubling delays plus the jitter. */
  lemma {:induction false} SleepSum(baseDelay: nat, jitter: nat -> real, attempt: nat, sleeps: seq<real>)
    requires forall i :: 0 <= i < |sleeps| ==> sleeps[i] == BackoffDelay(baseDelay, attempt + i, jitter)
    ensures Sum(sleeps) == (baseDelay * Pow2Sum(attempt, |sleeps|)) as real + JitterSum(jitter, attempt, |sleeps|)
    decreases |sleeps|
  {
    if |sleeps| > 0 {
      var rest := sleeps[1..];
      assert forall i :: 0 <= i < |rest| ==> rest[i] == BackoffDelay(baseDelay, attempt + 1 + i, jitter) by {
        forall i | 0 <= i < |rest| ensures rest[i] == BackoffDelay(baseDelay, attempt + 1 + i, jitter) {
          assert rest[i] == sleeps[i + 1];
        }
      }
      SleepSum(baseDelay, jitter, attempt + 1, rest);
      var p := Pow2(attempt);
      var q := Pow2Sum(attempt + 1, |rest|);
      assert baseDelay * (p + q) == baseDelay * p + baseDelay * q;
      assert Sum(sleeps) == sleeps[0] + Sum(rest);
      assert sleeps[0] == (baseDelay * p) as real + jitter(attempt);
    }
  }

  /** `n` sleeps from the first failure on add up to at least
      baseDelay * (2^n - 1), and to less than that plus 1000 per sleep. */
  lemma SleepsFromStart(baseDelay: nat, jitter: nat -> real, sleeps: seq<real>)
    requires JitterInRange(jitter)
    requires forall k :: 0 <= k < |sleeps| ==> sleeps[k] == BackoffDelay(baseDelay, k, jitter)
    ensures (baseDelay * (Pow2(|sleeps|) - 1)) as real <= Sum(sleeps)
    ensures |sleeps| > 0 ==> Sum(sleeps) < (baseDelay * (Pow2(|sleeps|) - 1)) as real + 1000.0 * |sleeps| as real
  {
    var n := |sleeps|;
    SleepSum(baseDelay, jitter, 0, sleeps);
    Pow2SumClosedForm(0, n);
    JitterSumBounds(jitter, 0, n);
    assert Pow2(0) == 1;
    var g := Pow2Sum(0, n);
    assert g == Pow2(n) - 1;
    assert (baseDelay * (Pow2(n) - 1)) as real == (baseDelay * g) as real;
  }

  /** A run that used up every attempt slept at least
      baseDelay * (2^maxRetries - 1) in total, and less than that plus 1000
      per sleep. */
  lemma ExhaustedRunSleepTotal<T>(call: nat -> Attempt<T>, jitter: nat -> real, maxRetries: nat, baseDelay: nat)
    requires JitterInRange(jitter)
    requires RetryWithBackoff(call, jitter, maxRetries, baseDelay).calls == maxRetries + 1
    ensures (baseDelay * (Pow2(maxRetries) - 1)) as real <= Sum(RetryWithBackoff(call, jitter, maxRetries, baseDelay).sleeps)
    ensures maxRetries > 0 ==>
              Sum(RetryWithBackoff(call, jitter, maxRetries, baseDelay).sleeps)
              < (baseDelay * (Pow2(maxRetries) - 1)) as real + 1000.0 * maxRetries as real
  {
    SleepsFromStart(baseDelay, jitter, RetryWithBackoff(call, jitter, maxRetries, baseDelay).sleeps);
  }

  /** Both routes call the wrapper with 3 retries and a 2000 ms base delay:
      at most four model calls and at most three sleeps. */
  lemma RouteConfigurationBound<T>(call: nat -> Attempt<T>, jitter: nat -> real)
    ensures var r := RetryWithBackoff(call, jitter, 3, 2000);
            r.calls <= 4 && |r.sleeps| <= 3
  {
  }

  /** Two retryable failures followed by a success, with 3 retries: the third
      invocation's value is returned after two sleeps. */
  lemma SucceedsOnThirdAttempt<T>(call: nat -> Attempt<T>, jitter: nat -> real, v: T)
    requires Retryable(call(0)) && Retryable(call(1)) && call(2) == Returned(v)
    ensures var r := RetryWithBackoff(call, jitter, 3, 2000);
            r.outcome == Returned(v) && r.calls == 3 && |r.sleeps| == 2
  {
  }
}

=== FILE: chat_fallback.dfy ===
/** The analysis the per-conversation route substitutes when the model's
    reply cannot be used (app/api/analyze-chat/route.ts, the catch block of
    the parse step). Only the fields that depend on the conversation are
    modelled; the constant lists and the two narrative paragraphs are not. */
module ChatFallback {
  import opened Wrappers
  import opened Text
  import opened ChatStats

  /** `messages.filter((m) => m.sender_name === name)`. */
  function SentBy(ms: seq<Message>, name: string): (r: seq<Message>)
    ensures |r| == Count(ms, name)
    ensures forall i :: 0 <= i < |r| ==> r[i].sender == name
    ensures forall i :: 0 <= i < |ms| && ms[i].sender == name ==> ms[i] in r
    ensures forall m :: m in r ==> m in ms
  {
    if |ms| == 0 then []
    else
      var r := SentBy(ms[..|ms| - 1], name);
      if ms[|ms| - 1].sender == name then r + [ms[|ms| - 1]] else r
  }

  /** The messages of `participants[i]`; an absent participant is `undefined`,
      which no sender name equals. */
  function SlotMessages(ms: seq<Message>, ps: seq<string>, i: nat): seq<Message> {
    if i < |ps| then SentBy(ms, ps[i]) else []
  }

  /** `reduce((sum, m) => sum + m.content.length, 0)` without the optional
      chaining: `None` when some message has no content, where the source
      throws a TypeError. */
  function StrictTotalLength(ms: seq<Message>): (r: Option<nat>)
    ensures r.Some? <==> forall i :: 0 <= i < |ms| ==> ms[i].content.Some?
    ensures r.Some? ==> r.value == TotalLength(ms)
  {
    if |ms| == 0 then Some(0)
    else match StrictTotalLength(ms[..|ms| - 1])
      case None => None
      case Some(t) =>
        match ms[|ms| - 1].content
        case None => None
        case Some(c) => Some(t + Utf16Length(c))
  }

  /** An average `total / count`, kept as the pair: `count == 0` is `NaN`. */
  datatype Avg = Avg(total: nat, count: nat)

  /** `x > y` on two averages; any comparison with `NaN` is false. */
  predicate Greater(x: Avg, y: Avg) {
    x.count > 0 && y.count > 0 && x.total * y.count > y.total * x.count
  }

  /** The comparison is a strict order: never both ways. */
  lemma GreaterAsymmetric(x: Avg, y: Avg)
    ensures !(Greater(x, y) && Greater(y, x))
  {
  }

  /** The tones of `participants[0]`, when it sent more messages and otherwise. */
  const FirstBusyTones: seq<string> := ["engaging", "expressive", "supportive"]
  const FirstQuietTones: seq<string> := ["casual", "friendly", "responsive"]

  /** The tones of `participants[1]`, when it sent more messages and otherwise. */
  const SecondBusyTones: seq<string> := ["thoughtful", "detailed", "caring"]
  const SecondQuietTones: seq<string> := ["concise", "direct", "warm"]

  /** The fields of the fallback that depend on the conversation, keyed by
      participant name. */
  datatype Fallback = Fallback(
    sentiments: map<string, string>,
    tones: map<string, seq<string>>,
    openness: map<string, string>,
    style: map<string, string>,
    mostEngaged: Option<string>,
    user1Count: nat,
    user2Count: nat)

  /** Either the fallback, or the TypeError of a participant's message without content. */
  datatype FallbackResult = Built(value: Fallback) | ContentMissing

  /** `{ [participants[0]]: a, [participants[1]]: b }`: when both keys are
      the same, the second entry wins. */
  function PairMap<V>(ps: seq<string>, a: V, b: V): (m: map<string, V>)
    ensures m.Keys == {SlotKey(ps, 0), SlotKey(ps, 1)}
    ensures m[SlotKey(ps, 1)] == b
    ensures SlotKey(ps, 0) != SlotKey(ps, 1) ==> m[SlotKey(ps, 0)] == a
  {
    map[SlotKey(ps, 0) := a][SlotKey(ps, 1) := b]
  }

  /** Every value of a pair map is one of the two given. */
  lemma PairMapValues<V>(ps: seq<string>, a: V, b: V)
    ensures var m := PairMap(ps, a, b);
            forall k :: k in m ==> m[k] == a || m[k] == b
  {
  }

  /** The fallback once the first two participants' messages `m1` and `m2`,
      of total lengths `t1` and `t2`, are known. */
  function FallbackFor(ps: seq<string>, m1: seq<Message>, m2: seq<Message>, t1: nat, t2: nat): (f: Fallback)
    ensures forall k :: k in f.sentiments ==> f.sentiments[k] == "positive" || f.sentiments[k] == "neutral" || f.sentiments[k] == "mixed"
    ensures forall k :: k in f.openness ==> f.openness[k] == "High" || f.openness[k] == "Medium"
    ensures f.sentiments.Keys == f.tones.Keys == f.openness.Keys == f.style.Keys == {SlotKey(ps, 0), SlotKey(ps, 1)}
    ensures var k := SlotKey(ps, 1);
            && (f.sentiments[k] == "positive" <==> Greater(Avg(t2, |m2|), Avg(t1, |m1|)))
            && (f.tones[k] == SecondBusyTones <==> |m2| > |m1|)
            && (f.tones[k] == SecondBusyTones || f.tones[k] == SecondQuietTones)
            && (f.openness[k] == "High" <==> |m2| > |m1|)
            && (f.style[k] == "thoughtful" <==> Greater(Avg(t2, |m2|), Avg(t1, |m1|)))
    ensures SlotKey(ps, 0) != SlotKey(ps, 1) ==>
              var k := SlotKey(ps, 0);
              && (f.sentiments[k] == "positive" <==> Greater(Avg(t1, |m1|), Avg(t2, |m2|)))
              && (f.tones[k] == FirstBusyTones <==> |m1| > |m2|)
              && (f.tones[k] == FirstBusyTones || f.tones[k] == FirstQuietTones)
              && (f.openness[k] == "High" <==> |m1| > |m2|)
              && (f.style[k] == "expressive" <==> Greater(Avg(t1, |m1|), Avg(t2, |m2|)))
  {
    var a1 := Avg(t1, |m1|);
    var a2 := Avg(t2, |m2|);
    var s1: string := if Greater(a1, a2) then "positive" else "neutral";
    var s2: string := if Greater(a2, a1) then "positive" else "mixed";
    var o1: string := if |m1| > |m2| then "High" else "Medium";
    var o2: string := if |m2| > |m1| then "High" else "Medium";
    assert FirstBusyTones[0] != FirstQuietTones[0] && SecondBusyTones[0] != SecondQuietTones[0];
    PairMapValues(ps, s1, s2);
    PairMapValues(ps, o1, o2);
    Fallback(
      PairMap(ps, s1, s2),
      PairMap(ps, if |m1| > |m2| then FirstBusyTones else FirstQuietTones,
                  if |m2| > |m1| then SecondBusyTones else SecondQuietTones),
      PairMap(ps, o1, o2),
      PairMap(ps, if Greater(a1, a2) then "expressive" else "casual",
                  if Greater(a2, a1) then "thoughtful" else "supportive"),
      if |ps| > 0 then Some(ps[0]) else None,
      |m1|, |m2|)
  }

  /** The fallback for messages `ms` and participants `ps`. */
  function BuildFallback(ms: seq<Message>, ps: seq<string>): (r: FallbackResult)
    ensures r.ContentMissing? <==>
              exists i :: 0 <= i < |ms| && ms[i].content.None?
                          && ((|ps| > 0 && ms[i].sender == ps[0]) || (|ps| > 1 && ms[i].sender == ps[1]))
    ensures r.Built? ==> r.value.user1Count == (if |ps| > 0 then Count(ms, ps[0]) else 0)
    ensures r.Built? ==> r.value.user2Count == (if |ps| > 1 then Count(ms, ps[1]) else 0)
    ensures r.Built? ==> r.value.mostEngaged == (if |ps| > 0 then Some(ps[0]) else None)
    ensures r.Built? ==> forall k :: k in r.value.sentiments ==>
              r.value.sentiments[k] == "positive" || r.value.sentiments[k] == "neutral" || r.value.sentiments[k] == "mixed"
    ensures r.Built? ==> forall k :: k in r.value.openness ==> r.value.openness[k] == "High" || r.value.openness[k] == "Medium"
  {
    var m1 := SlotMessages(ms, ps, 0);
    var m2 := SlotMessages(ms, ps, 1);
    match (StrictTotalLength(m1), StrictTotalLength(m2))
    case (Some(t1), Some(t2)) => Built(FallbackFor(ps, m1, m2, t1, t2))
    case _ =>
      MissingContentWitness(ms, ps, m1, m2);
      ContentMissing
  }

  /** A message without content among the first two participants' messages
      is one of the conversation's. */
  lemma MissingContentWitness(ms: seq<Message>, ps: seq<string>, m1: seq<Message>, m2: seq<Message>)
    requires m1 == SlotMessages(ms, ps, 0) && m2 == SlotMessages(ms, ps, 1)
    ensures (exists i :: 0 <= i < |m1| && m1[i].content.None?) || (exists i :: 0 <= i < |m2| && m2[i].content.None?)
            <==> exists i :: 0 <= i < |ms| && ms[i].content.None?
                             && ((|ps| > 0 && ms[i].sender == ps[0]) || (|ps| > 1 && ms[i].sender == ps[1]))
  {
    if exists i :: 0 <= i < |m1| && m1[i].content.None? {
      var i :| 0 <= i < |m1| && m1[i].content.None?;
      assert m1[i] in ms;
    }
    if exists i :: 0 <= i < |m2| && m2[i].content.None? {
      var i :| 0 <= i < |m2| && m2[i].content.None?;
      assert m2[i] in ms;
    }
    if exists i :: 0 <= i < |ms| && ms[i].content.None?
                   && ((|ps| > 0 && ms[i].sender == ps[0]) || (|ps| > 1 && ms[i].sender == ps[1])) {
      var i :| 0 <= i < |ms| && ms[i].content.None?
               && ((|ps| > 0 && ms[i].sender == ps[0]) || (|ps| > 1 && ms[i].sender == ps[1]));
      if |ps| > 0 && ms[i].sender == ps[0] {
        assert ms[i] in m1;
      } else {
        assert ms[i] in m2;
      }
    }
  }

  /** At most one participant is called "positive": the one whose messages
      are longer on average. */
  lemma AtMostOnePositive(ms: seq<Message>, ps: seq<string>)
    requires BuildFallback(ms, ps).Built?
    ensures var s := BuildFallback(ms, ps).value.sentiments;
            forall k1, k2 :: k1 in s && k2 in s && s[k1] == "positive" && s[k2] == "positive" ==> k1 == k2
  {
    var m1 := SlotMessages(ms, ps, 0);
    var m2 := SlotMessages(ms, ps, 1);
    var t1 := StrictTotalLength(m1).value;
    var t2 := StrictTotalLength(m2).value;
    GreaterAsymmetric(Avg(t1, |m1|), Avg(t2, |m2|));
  }

  /** At most one participant gets "High" openness: the one with more messages. */
  lemma AtMostOneHighOpenness(ms: seq<Message>, ps: seq<string>)
    requires BuildFallback(ms, ps).Built?
    ensures var o := BuildFallback(ms, ps).value.openness;
            forall k1, k2 :: k1 in o && k2 in o && o[k1] == "High" && o[k2] == "High" ==> k1 == k2
  {
  }

  /** With the route's participants and at most two senders, the two message
      counts of the fallback add up to the conversation's length. */
  lemma CountsCoverConversation(ms: seq<Message>)
    requires |Distinct(Senders(ms))| <= 2
    requires BuildFallback(ms, ChatParticipants(ms)).Built?
    ensures var f := BuildFallback(ms, ChatParticipants(ms)).value;
            f.user1Count + f.user2Count == |ms|
  {
    ParticipantCountsAddUp(ms);
  }

  /** `a` sent messages whose average length is greater than `b`'s, both
      averages being defined: `totalA / countA > totalB / countB` with the
      division multiplied out. */
  predicate LongerOnAverage(ms: seq<Message>, a: string, b: string) {
    Count(ms, a) > 0 && Count(ms, b) > 0
    && TotalLength(SentBy(ms, a)) * Count(ms, b) > TotalLength(SentBy(ms, b)) * Count(ms, a)
  }

  /** The first participant is called "positive" exactly when its average
      message length is the greater one, both averages being defined. */
  lemma FirstPositiveIffLonger(ms: seq<Message>, ps: seq<string>)
    requires 2 <= |ps| && ps[0] != ps[1]
    requires BuildFallback(ms, ps).Built?
    ensures BuildFallback(ms, ps).value.sentiments[ps[0]] == "positive" <==> LongerOnAverage(ms, ps[0], ps[1])
  {
  }

  /** The second participant is called "positive" exactly when its average
      message length is the greater one; as its entry is written last, this
      holds even when both participants have the same name. */
  lemma SecondPositiveIffLonger(ms: seq<Message>, ps: seq<string>)
    requires 2 <= |ps|
    requires BuildFallback(ms, ps).Built?
    ensures BuildFallback(ms, ps).value.sentiments[ps[1]] == "positive" <==> LongerOnAverage(ms, ps[1], ps[0])
  {
  }

  /** Each participant's tones are its "busy" list exactly when it sent more
      messages than the other; a tie gives both their other list. */
  lemma TonesFollowCounts(ms: seq<Message>, ps: seq<string>)
    requires 2 <= |ps| && ps[0] != ps[1]
    requires BuildFallback(ms, ps).Built?
    ensures var t := BuildFallback(ms, ps).value.tones;
            && t[ps[0]] == (if Count(ms, ps[0]) > Count(ms, ps[1]) then FirstBusyTones else FirstQuietTones)
            && t[ps[1]] == (if Count(ms, ps[1]) > Count(ms, ps[0]) then SecondBusyTones else SecondQuietTones)
  {
  }

  /** The communication style follows the same comparison of average lengths
      as the sentiment: "expressive" or "casual" for the first participant,
      "thoughtful" or "supportive" for the second. */
  lemma StyleFollowsAverages(ms: seq<Message>, ps: seq<string>)
    requires 2 <= |ps| && ps[0] != ps[1]
    requires BuildFallback(ms, ps).Built?
    ensures var s := BuildFallback(ms, ps).value.style;
            && s[ps[0]] == (if LongerOnAverage(ms, ps[0], ps[1]) then "expressive" else "casual")
            && s[ps[1]] == (if LongerOnAverage(ms, ps[1], ps[0]) then "thoughtful" else "supportive")
  {
  }
}

=== FILE: chat_stats.dfy ===
/** What the per-conversation route computes from the uploaded messages
    before and after the model call (app/api/analyze-chat/route.ts): the
    participants, the message statistics, and the conversation text sent in
    the prompt. A message's `content` may be missing (`None`); its sender and
    timestamp are always present. */
module ChatStats {
  import opened Wrappers
  import opened Text

  datatype Message = Message(sender: string, timestamp: int, content: Option<string>)

  /** `messages.map((m) => m.sender_name)`. */
  function Senders(ms: seq<Message>): (r: seq<string>)
    ensures |r| == |ms|
    ensures forall i :: 0 <= i < |ms| ==> r[i] == ms[i].sender
  {
    if |ms| == 0 then [] else Senders(ms[..|ms| - 1]) + [ms[|ms| - 1].sender]
  }

  predicate NoDuplicates<T(==)>(xs: seq<T>) {
    forall i, j :: 0 <= i < j < |xs| ==> xs[i] != xs[j]
  }

  /** Position of the first occurrence of `x` in `xs`. */
  function FirstIndex<T(==)>(xs: seq<T>, x: T): (k: nat)
    requires x in xs
    ensures k < |xs| && xs[k] == x
    ensures x !in xs[..k]
  {
    if xs[0] == x then 0 else 1 + FirstIndex(xs[1..], x)
  }

  /** Appending an element leaves the first occurrence of an earlier one in place. */
  lemma FirstIndexSnoc<T>(xs: seq<T>, y: T, x: T)
    requires x in xs
    ensures FirstIndex(xs + [y], x) == FirstIndex(xs, x)
  {
    var k := FirstIndex(xs, x);
    assert (xs + [y])[..k] == xs[..k];
    FirstIndexUnique(xs + [y], x, k);
  }

  lemma FirstIndexUnique<T>(xs: seq<T>, x: T, k: nat)
    requires k < |xs| && xs[k] == x && x !in xs[..k]
    ensures FirstIndex(xs, x) == k
  {
  }

  /** `[...new Set(xs)]`: the distinct values, each once, in the order of
      their first occurrence. */
  function Distinct(xs: seq<string>): (r: seq<string>)
    ensures NoDuplicates(r)
    ensures forall x :: x in r <==> x in xs
    ensures forall i, j :: 0 <= i < j < |r| ==> FirstIndex(xs, r[i]) < FirstIndex(xs, r[j])
    ensures |xs| > 0 ==> |r| > 0 && r[0] == xs[0]
    ensures |r| <= |xs|
  {
    if |xs| == 0 then []
    else
      var init := xs[..|xs| - 1];
      var last := xs[|xs| - 1];
      var r := Distinct(init);
      assert xs == init + [last];
      forall x | x in r ensures FirstIndex(xs, x) == FirstIndex(init, x) {
        FirstIndexSnoc(init, last, x);
      }
      if last in r then r
      else
        assert last !in init;
        FirstIndexUnique(xs, last, |xs| - 1);
        r + [last]
  }

  /** A sequence without duplicates has as many elements as its set. */
  lemma {:induction false} NoDuplicatesCardinality(xs: seq<string>)
    requires NoDuplicates(xs)
    ensures |set x | x in xs| == |xs|
  {
    if |xs| > 0 {
      var init := xs[..|xs| - 1];
      var last := xs[|xs| - 1];
      assert NoDuplicates(init);
      NoDuplicatesCardinality(init);
      assert last !in init;
      assert (set x | x in xs) == (set x | x in init) + {last};
    }
  }

  /** The distinct senders are as many as the different sender names. */
  lemma DistinctSenderCount(ms: seq<Message>)
    ensures |Distinct(Senders(ms))| == |set m | m in ms :: m.sender|
  {
    var ss := Senders(ms);
    var d := Distinct(ss);
    NoDuplicatesCardinality(d);
    var names := set x | x in d;
    var senders := set m | m in ms :: m.sender;
    forall x | x in names ensures x in senders {
      assert x in ss;
      var i :| 0 <= i < |ss| && ss[i] == x;
      assert ms[i] in ms;
    }
    forall x | x in senders ensures x in names {
      var m :| m in ms && m.sender == x;
      var i :| 0 <= i < |ms| && ms[i] == m;
      assert ss[i] == x;
    }
    assert names == senders;
  }

  /** The object key `[participants[i]]` of both routes' fallbacks: an
      absent participant becomes the key "undefined". */
  function SlotKey(ps: seq<string>, i: nat): string {
    if i < |ps| then ps[i] else "undefined"
  }

  /** `[...new Set(messages.map((m) => m.sender_name))].slice(0, 2)`. */
  function ChatParticipants(ms: seq<Message>): (ps: seq<string>)
    ensures |ps| == if |Distinct(Senders(ms))| < 2 then |Distinct(Senders(ms))| else 2
    ensures ps == Distinct(Senders(ms))[..|ps|]
    ensures NoDuplicates(ps)
    ensures |ms| > 0 ==> |ps| > 0 && ps[0] == ms[0].sender
  {
    var d := Distinct(Senders(ms));
    if |d| <= 2 then d else d[..2]
  }

  /** The number of messages `name` sent. */
  function Count(ms: seq<Message>, name: string): (n: nat)
    ensures n <= |ms|
    ensures n > 0 <==> exists i :: 0 <= i < |ms| && ms[i].sender == name
  {
    if |ms| == 0 then 0
    else Count(ms[..|ms| - 1], name) + (if ms[|ms| - 1].sender == name then 1 else 0)
  }

  /** When every message comes from `a` or from `b`, and they differ, their
      counts add up to the number of messages. */
  lemma {:induction false} CountPair(ms: seq<Message>, a: string, b: string)
    requires a != b
    requires forall i :: 0 <= i < |ms| ==> ms[i].sender == a || ms[i].sender == b
    ensures Count(ms, a) + Count(ms, b) == |ms|
  {
    if |ms| > 0 {
      CountPair(ms[..|ms| - 1], a, b);
    }
  }

  /** When every message comes from `a`, `a` sent them all. */
  lemma {:induction false} CountSingle(ms: seq<Message>, a: string)
    requires forall i :: 0 <= i < |ms| ==> ms[i].sender == a
    ensures Count(ms, a) == |ms|
  {
    if |ms| > 0 {
      CountSingle(ms[..|ms| - 1], a);
    }
  }

  /** With at most two senders, every sender is a participant. */
  lemma SendersAreParticipants(ms: seq<Message>)
    requires |Distinct(Senders(ms))| <= 2
    ensures forall i :: 0 <= i < |ms| ==> ms[i].sender in ChatParticipants(ms)
  {
    var d := Distinct(Senders(ms));
    assert ChatParticipants(ms) == d;
    forall i | 0 <= i < |ms| ensures ms[i].sender in d {
      assert Senders(ms)[i] == ms[i].sender;
    }
  }

  /** With at most two senders, every message is counted for exactly one
      of the (at most two) participants. */
  lemma ParticipantCountsAddUp(ms: seq<Message>)
    requires |Distinct(Senders(ms))| <= 2
    ensures var ps := ChatParticipants(ms);
            (if |ps| > 0 then Count(ms, ps[0]) else 0) + (if |ps| > 1 then Count(ms, ps[1]) else 0) == |ms|
  {
    var ps := ChatParticipants(ms);
    SendersAreParticipants(ms);
    if |ps| == 2 {
      CountPair(ms, ps[0], ps[1]);
    } else if |ps| == 1 {
      CountSingle(ms, ps[0]);
    }
  }

  /** `m.content?.length || 0`. */
  function ContentLength(m: Message): (n: nat)
    ensures m.content.None? ==> n == 0
    ensures m.content.Some? ==> |m.content.value| <= n <= 2 * |m.content.value|
  {
    match m.content
    case Some(c) => Utf16Length(c)
    case None => 0
  }

  /** The sum of `ContentLength` over the messages. */
  function TotalLength(ms: seq<Message>): (n: nat)
    ensures (forall i :: 0 <= i < |ms| ==> ms[i].content.None?) ==> n == 0
  {
    if |ms| == 0 then 0 else TotalLength(ms[..|ms| - 1]) + ContentLength(ms[|ms| - 1])
  }

  /** The total of one message is its length. */
  lemma TotalLengthSingle(m: Message)
    ensures TotalLength([m]) == ContentLength(m)
  {
  }

  /** The totals of two runs of messages add up to the total of both. */
  lemma {:induction false} TotalLengthAppend(a: seq<Message>, b: seq<Message>)
    ensures TotalLength(a + b) == TotalLength(a) + TotalLength(b)
    decreases |b|
  {
    if |b| == 0 {
      assert a + b == a;
    } else {
      assert (a + b)[..|a + b| - 1] == a + b[..|b| - 1];
      TotalLengthAppend(a, b[..|b| - 1]);
    }
  }

  /** Every message's length counts towards the total. */
  lemma {:induction false} ContentLengthWithinTotal(ms: seq<Message>, i: nat)
    requires i < |ms|
    ensures ContentLength(ms[i]) <= TotalLength(ms)
  {
    var before, m, after := ms[..i], ms[i], ms[i + 1..];
    assert ms == before + [m] + after;
    TotalLengthAppend(before + [m], after);
    TotalLengthAppend(before, [m]);
    TotalLengthSingle(m);
  }

  /** `r` is `a / b` rounded to the nearest integer with halves rounded up,
      `floor(a / b + 1/2)`, stated without division. */
  predicate RoundedQuotient(r: nat, a: nat, b: nat) {
    2 * b * r <= 2 * a + b < 2 * b * (r + 1)
  }

  /** `Math.round(a / b)` for a non-negative `a`. */
  function RoundDiv(a: nat, b: nat): (r: nat)
    requires b > 0
    ensures RoundedQuotient(r, a, b)
  {
    (2 * a + b) / (2 * b)
  }

  /** `avg_message_length`: `None` stands for `NaN`, what `0 / 0` gives on an
      empty conversation (serialised as `null`). */
  function AvgMessageLength(ms: seq<Message>): (avg: Option<nat>)
    ensures avg.None? <==> |ms| == 0
    ensures avg.Some? ==> RoundedQuotient(avg.value, TotalLength(ms), |ms|)
  {
    if |ms| == 0 then None else Some(RoundDiv(TotalLength(ms), |ms|))
  }

  function MinTimestamp(ms: seq<Message>): (t: int)
    requires |ms| > 0
    ensures exists i :: 0 <= i < |ms| && ms[i].timestamp == t
    ensures forall i :: 0 <= i < |ms| ==> t <= ms[i].timestamp
  {
    if |ms| == 1 then ms[0].timestamp
    else
      var t := MinTimestamp(ms[..|ms| - 1]);
      if ms[|ms| - 1].timestamp < t then ms[|ms| - 1].timestamp else t
  }

  function MaxTimestamp(ms: seq<Message>): (t: int)
    requires |ms| > 0
    ensures exists i :: 0 <= i < |ms| && ms[i].timestamp == t
    ensures forall i :: 0 <= i < |ms| ==> ms[i].timestamp <= t
  {
    if |ms| == 1 then ms[0].timestamp
    else
      var t := MaxTimestamp(ms[..|ms| - 1]);
      if ms[|ms| - 1].timestamp > t then ms[|ms| - 1].timestamp else t
  }

  const MsPerDay: nat := 86400000

  /** The numeric sort puts the earliest timestamp first and the latest last,
      so `durationMs` is their difference; `None` is the `NaN` of an empty
      conversation (`undefined - undefined`). */
  function DurationMs(ms: seq<Message>): (d: Option<nat>)
    ensures d.None? <==> |ms| == 0
    ensures d.Some? ==> exists i, j :: 0 <= i < |ms| && 0 <= j < |ms| && d.value == ms[j].timestamp - ms[i].timestamp
    ensures d.Some? ==> forall i, j :: 0 <= i < |ms| && 0 <= j < |ms| ==> ms[j].timestamp - ms[i].timestamp <= d.value
  {
    if |ms| == 0 then None else Some(MaxTimestamp(ms) - MinTimestamp(ms))
  }

  /** `Math.round(durationMs / 86400000)`. */
  function DurationDays(ms: seq<Message>): (days: Option<nat>)
    ensures days.None? <==> |ms| == 0
    ensures |ms| > 0 ==> RoundedQuotient(days.value, MaxTimestamp(ms) - MinTimestamp(ms), MsPerDay)
  {
    match DurationMs(ms)
    case None => None
    case Some(d) => Some(RoundDiv(d, MsPerDay))
  }

  /** `durationDays > 0 ? `${durationDays} days` : "Same day"`; a `NaN`
      comparison is false. */
  function DurationLabel(days: Option<nat>): (shown: string)
    ensures days.Some? && days.value > 0 ==> shown == NatToString(days.value) + " days"
    ensures !(days.Some? && days.value > 0) ==> shown == "Same day"
  {
    if days.Some? && days.value > 0 then NatToString(days.value) + " days" else "Same day"
  }

  /** A conversation is reported as "Same day" exactly when it is empty or
      spans less than half a day (12 hours); a span of exactly 12 hours rounds
      up to "1 days". */
  lemma SameDayIffUnderHalfDay(ms: seq<Message>)
    ensures DurationLabel(DurationDays(ms)) == "Same day"
            <==> |ms| == 0 || MaxTimestamp(ms) - MinTimestamp(ms) < 43200000
  {
    if |ms| > 0 {
      var d := MaxTimestamp(ms) - MinTimestamp(ms);
      RoundsToWholeDay(d);
      DaysLabelIsNotSameDay(RoundDiv(d, MsPerDay));
    }
  }

  /** Half a day or more rounds to at least one day. */
  lemma RoundsToWholeDay(d: nat)
    ensures RoundDiv(d, MsPerDay) > 0 <==> d >= 43200000
  {
    var r := RoundDiv(d, 86400000);
    assert 172800000 * r <= 2 * d + 86400000 < 172800000 * (r + 1);
  }

  lemma DaysLabelIsNotSameDay(days: nat)
    ensures days > 0 ==> NatToString(days) + " days" != "Same day"
  {
    var shown := NatToString(days) + " days";
    assert shown[|shown| - 1] == 's';
  }

  /** `${m.sender_name}: ${m.content}`: missing content prints "undefined". */
  function ChatLine(m: Message): (line: string)
    ensures StartsWith(line, m.sender + ": ")
    ensures line[|m.sender| + 2..] == m.content.GetOr("undefined")
  {
    m.sender + ": " + m.content.GetOr("undefined")
  }

  /** The conversation text: one line per message, joined with "\n". */
  function ChatText(ms: seq<Message>): (t: string)
    ensures |ms| == 0 ==> t == ""
    ensures |ms| == 1 ==> t == ChatLine(ms[0])
    ensures |ms| > 0 ==> StartsWith(t, ChatLine(ms[0]))
  {
    var lines := seq(|ms|, i requires 0 <= i < |ms| => ChatLine(ms[i]));
    if |ms| > 1 then
      assert (lines[0] + "\n" + Join(lines[1..], "\n"))[..|lines[0]|] == lines[0];
      Join(lines, "\n")
    else Join(lines, "\n")
  }

  /** The lines of two non-empty runs of messages are joined with one "\n"
      between them. */
  lemma ChatTextAppend(a: seq<Message>, b: seq<Message>)
    requires |a| > 0 && |b| > 0
    ensures ChatText(a + b) == ChatText(a) + "\n" + ChatText(b)
  {
    var la := seq(|a|, i requires 0 <= i < |a| => ChatLine(a[i]));
    var lb := seq(|b|, i requires 0 <= i < |b| => ChatLine(b[i]));
    assert seq(|a + b|, i requires 0 <= i < |a + b| => ChatLine((a + b)[i])) == la + lb;
    JoinAppend(la, lb, "\n");
  }

  const MaxChars: nat := 30000
  const ContinuesMarker: string := "\n[... conversation continues ...]"

  /** The prompt's copy of the conversation: a text of more than 30000
      UTF-16 code units is cut to a proper prefix of 29999 or 30000 units
      and the marker is appended; a shorter text is kept whole. */
  function Truncate(t: string): (r: string)
    ensures Utf16Length(t) <= MaxChars ==> r == t
    ensures Utf16Length(t) > MaxChars ==>
              && EndsWith(r, ContinuesMarker)
              && var kept := r[..|r| - |ContinuesMarker|];
                 StartsWith(t, kept) && |kept| < |t| && MaxChars - 1 <= Utf16Length(kept) <= MaxChars
    ensures |r| <= MaxChars + |ContinuesMarker|
    ensures StartsWith(t, r) || EndsWith(r, ContinuesMarker)
  {
    if Utf16Length(t) > MaxChars then
      var e := Utf16Cut(t, MaxChars);
      assert t[..|t|] == t;
      var r := t[..e] + ContinuesMarker;
      assert r[..|r| - |ContinuesMarker|] == t[..e];
      r
    else t
  }
}

=== FILE: chat_view.dfy ===
/** The value and colour mappings of the per-conversation dashboard,
    app/components/chat-analysis.tsx: score labels to bar widths, sentiment
    labels to badge classes, the metric defaults and the badge palette. */
module ChatView {
  import opened Wrappers
  import opened Text
  import opened ChatStats
  import opened ChatFallback

  /** The badge palette, `COLORS`. */
  const Colors: seq<string> := ["#3B82F6", "#10B981", "#F59E0B", "#EF4444", "#8B5CF6", "#EC4899", "#14B8A6", "#F97316"]

  /** The labels `getScoreValue` knows, from lowest to highest. */
  const ScoreLabels: seq<string> := ["very low", "low", "medium", "high", "very high"]

  /** `getScoreValue`: a bar width in percent for a score label, in any case. */
  function ScoreValue(score: string): (v: nat)
    ensures v <= 95
    ensures v == 0 <==> Lower(score) !in ScoreLabels
  {
    var l := Lower(score);
    if l == "very high" then 95
    else if l == "high" then 85
    else if l == "medium" then 50
    else if l == "low" then 20
    else if l == "very low" then 10
    else 0
  }

  /** The widths of the labels in the order of `ScoreLabels`. */
  const ScoreWidths: seq<nat> := [10, 20, 50, 85, 95]

  /** Each known label, written in lower case, reads as its width. */
  lemma ScoreOfLowLabels()
    ensures ScoreValue("very low") == 10 && ScoreValue("low") == 20 && ScoreValue("medium") == 50
  {
    LowerOfLowercase("very low");
    LowerOfLowercase("low");
    LowerOfLowercase("medium");
  }

  lemma ScoreOfHighLabels()
    ensures ScoreValue("high") == 85 && ScoreValue("very high") == 95
  {
    LowerOfLowercase("high");
    LowerOfLowercase("very high");
  }

  /** Label `i` reads as `ScoreWidths[i]`, and the widths strictly increase
      along the labels, from 10 to 95. */
  lemma ScoreValueIncreasing()
    ensures forall i :: 0 <= i < |ScoreLabels| ==> ScoreValue(ScoreLabels[i]) == ScoreWidths[i]
    ensures forall i, j :: 0 <= i < j < |ScoreLabels| ==> 0 < ScoreWidths[i] < ScoreWidths[j]
  {
    ScoreOfLowLabels();
    ScoreOfHighLabels();
  }

  /** The mapping ignores case. */
  lemma ScoreValueIgnoresCase(score: string)
    ensures ScoreValue(score) == ScoreValue(Lower(score))
  {
    LowerIdempotent(score);
  }

  /** A non-zero width names its label: two labels with the same non-zero
      width are the same label up to case. */
  lemma ScoreValueDeterminesLabel(a: string, b: string)
    requires ScoreValue(a) == ScoreValue(b) != 0
    ensures Lower(a) == Lower(b)
  {
  }

  const DefaultSentimentColor: string := "bg-gray-300 text-black"

  /** `getSentimentColor`. */
  function SentimentColor(sentiment: string): (c: string)
    ensures c == DefaultSentimentColor <==> Lower(sentiment) !in ["positive", "negative", "neutral", "mixed"]
  {
    var l := Lower(sentiment);
    if l == "positive" then "bg-green-500 text-white"
    else if l == "negative" then "bg-red-500 text-white"
    else if l == "neutral" then "bg-gray-500 text-white"
    else if l == "mixed" then "bg-yellow-500 text-white"
    else DefaultSentimentColor
  }

  /** Different known sentiments get different classes. */
  lemma SentimentColorsDistinct(a: string, b: string)
    requires SentimentColor(a) == SentimentColor(b) != DefaultSentimentColor
    ensures Lower(a) == Lower(b)
  {
  }

  /** The score a metric bar shows for a participant: a missing or empty
      entry reads "medium". */
  function MetricScore(scores: map<string, string>, participant: string): (s: string)
    ensures participant in scores && scores[participant] != "" ==> s == scores[participant]
    ensures !(participant in scores && scores[participant] != "") ==> s == "medium"
  {
    if participant in scores && scores[participant] != "" then scores[participant] else "medium"
  }

  /** The width of a trust, love, openness or curiosity bar. */
  function MetricBarWidth(scores: map<string, string>, participant: string): (w: nat)
    ensures w <= 95
  {
    ScoreValue(MetricScore(scores, participant))
  }

  /** A participant the model said nothing about gets a half-width bar. */
  lemma MissingMetricIsHalfWidth(scores: map<string, string>, participant: string)
    requires participant !in scores
    ensures MetricBarWidth(scores, participant) == 50
  {
    ScoreOfLowLabels();
  }

  /** `COLORS[i]`, `undefined` outside the palette. */
  function ColorAt(i: int): (c: Option<string>)
    ensures c.Some? <==> 0 <= i < |Colors|
  {
    if 0 <= i < |Colors| then Some(Colors[i]) else None
  }

  /** The colour of emotion badge `index` of participant `p`. */
  function EmotionBadgeColor(p: nat, index: nat): Option<string> {
    ColorAt((p * 3 + index) % |Colors|)
  }

  /** The colour of tone badge `index` of participant `p`. */
  function ToneBadgeColor(p: nat, index: nat): Option<string> {
    ColorAt((p * 4 + index + 2) % |Colors|)
  }

  /** The eight palette colours are different. */
  lemma PaletteDistinct()
    ensures forall i, j :: 0 <= i < j < |Colors| ==> Colors[i] != Colors[j]
  {
    var tags := seq(|Colors|, i requires 0 <= i < |Colors| => (Colors[i][1], Colors[i][2]));
    assert tags == [('3', 'B'), ('1', '0'), ('F', '5'), ('E', 'F'), ('8', 'B'), ('E', 'C'), ('1', '4'), ('F', '9')];
    assert forall i, j :: 0 <= i < j < |Colors| ==> tags[i] != tags[j];
  }

  /** Adding `d` keeps the remainder modulo 8 exactly when `d` is a multiple of 8. */
  lemma ShiftKeepsRemainder(x: nat, d: nat)
    ensures (x + d) % 8 == x % 8 <==> d % 8 == 0
  {
    var q, r := x / 8, x % 8;
    var t, s := d / 8, d % 8;
    assert x == 8 * q + r && d == 8 * t + s;
    var u := q + t + (if r + s >= 8 then 1 else 0);
    var v := if r + s >= 8 then r + s - 8 else r + s;
    assert x + d == 8 * u + v && 0 <= v < 8;
    assert (x + d) % 8 == v;
  }

  /** The palette wraps, so every emotion and tone badge gets a colour. The
      tone sequence runs one step ahead per participant and two at the start,
      so badge `index` of participant `p` has the same colour in both rows
      exactly when `p % 8 == 6`: never for the route's two participants. */
  lemma BadgeColorsDefined(p: nat, index: nat)
    ensures EmotionBadgeColor(p, index).Some? && ToneBadgeColor(p, index).Some?
    ensures EmotionBadgeColor(p, index) == ToneBadgeColor(p, index) <==> p % 8 == 6
    ensures p < 2 ==> EmotionBadgeColor(p, index) != ToneBadgeColor(p, index)
  {
    var x := p * 3 + index;
    assert p * 4 + index + 2 == x + (p + 2);
    ShiftKeepsRemainder(x, p + 2);
    assert (p + 2) % 8 == 0 <==> p % 8 == 6;
    PaletteDistinct();
  }

  /** The toxicity and sarcasm badges of participant `index`. */
  function BehaviourColors(index: nat): (pair: (Option<string>, Option<string>))
    ensures pair.0.Some? && pair.1.Some? <==> index < 4
  {
    (ColorAt(index * 2), ColorAt(index * 2 + 1))
  }

  /** With the route's participants (at most two) both behaviour badges of
      every participant have a colour. */
  lemma RouteParticipantsHaveBehaviourColors(ms: seq<Message>, index: nat)
    requires index < |ChatParticipants(ms)|
    ensures BehaviourColors(index).0.Some? && BehaviourColors(index).1.Some?
  {
  }

  /** The sentiments the fallback uses each have their own colour. */
  lemma FallbackSentimentColors()
    ensures SentimentColor("positive") == "bg-green-500 text-white"
    ensures SentimentColor("neutral") == "bg-gray-500 text-white"
    ensures SentimentColor("mixed") == "bg-yellow-500 text-white"
  {
    LowerOfLowercase("positive");
    LowerOfLowercase("neutral");
    LowerOfLowercase("mixed");
  }

  /** Every sentiment the fallback assigns gets its own colour, never the default. */
  lemma FallbackSentimentsAreColoured(ms: seq<Message>, ps: seq<string>)
    requires BuildFallback(ms, ps).Built?
    ensures var s := BuildFallback(ms, ps).value.sentiments;
            forall k :: k in s ==> SentimentColor(s[k]) != DefaultSentimentColor
  {
    FallbackSentimentColors();
  }

  /** "High" and "Medium" read as 85 and 50. */
  lemma CapitalisedLabels()
    ensures ScoreValue("High") == 85 && ScoreValue("Medium") == 50
  {
    assert Lower("High") == "high";
    assert Lower("Medium") == "medium";
  }

  /** The fallback's openness labels, "High" and "Medium", read as 85 and 50. */
  lemma FallbackOpennessWidths(ms: seq<Message>, ps: seq<string>)
    requires BuildFallback(ms, ps).Built?
    ensures var o := BuildFallback(ms, ps).value.openness;
            forall k :: k in o ==> ScoreValue(o[k]) == 85 || ScoreValue(o[k]) == 50
  {
    CapitalisedLabels();
  }
}

=== FILE: cleaning.dfy ===
/** The "aggressive JSON cleaning" both analysis routes apply to the model's
    trimmed reply before `JSON.parse`: two anchored replaces that cut the text
    down to its outermost braces, eight global regex replaces, a final trim,
    and the brace guard. A global replace is modelled as JavaScript runs it:
    the leftmost match is replaced, the search resumes after it, and matches
    never overlap. None of the patterns looks behind, so whether a match starts
    at a position depends only on the text from there on; `GlobalReplace`
    therefore recurses on suffixes. */
module Cleaning {
  import opened Wrappers
  import opened Text
  import opened JsonValue

  /** The character classes the patterns use. `ValueChar` is `[^",[\]{}]`. */
  datatype CharClass = Ws | Word | ValueChar | NotOpenBrace

  predicate InClass(k: CharClass, c: char) {
    match k
    case Ws => IsWs(c)
    case Word => IsWordChar(c)
    case ValueChar => c != '"' && c != ',' && c != '[' && c != ']' && c != '{' && c != '}'
    case NotOpenBrace => c != '{'
  }

  /** End of the longest run of class `k` starting at `i` (greedy `k*`). */
  function Skip(k: CharClass, s: string, i: nat): (j: nat)
    requires i <= |s|
    ensures i <= j <= |s|
    ensures forall t :: i <= t < j ==> InClass(k, s[t])
    ensures j < |s| ==> !InClass(k, s[j])
    decreases |s| - i
  {
    if i == |s| || !InClass(k, s[i]) then i else Skip(k, s, i + 1)
  }

  /** The eight global patterns, in the order the chain applies them. */
  datatype Pattern =
    | JsonFence      // /```json\s*/g       -> ""
    | Fence          // /```\s*/g           -> ""
    | TrailingComma  // /,(\s*[}\]])/g      -> "$1"
    | BareKey        // /([{,]\s*)(\w+):/g  -> '$1"$2":'
    | BareValue      // /:\s*([^",[\]{}]+)(\s*[,}])/g -> ': "$1"$2'
    | ArraySpacing   // /"\s*,\s*"/g        -> '", "'
    | Newline        // /\n/g               -> " "
    | WsRun          // /\s+/g              -> " "

  /** A match at the start of the text: how much it consumes, and its replacement. */
  datatype Match = Match(len: nat, replacement: string)

  /** What every pattern of the chain satisfies: a match is never empty, a
      match never starts at a '{' unless its replacement starts with it too,
      and a match that ends the text at a '}' keeps that '}' last. */
  predicate ValidMatch(s: string, m: Match) {
    && 1 <= m.len <= |s|
    && (s[0] == '{' ==> |m.replacement| > 0 && m.replacement[0] == '{')
    && (m.len == |s| && s[|s| - 1] == '}' ==> |m.replacement| > 0 && m.replacement[|m.replacement| - 1] == '}')
  }

  /** Whether pattern `p` matches at the start of `s`, after the regex
      engine's backtracking has settled. */
  function MatchAt(p: Pattern, s: string): (m: Option<Match>)
    ensures m.Some? ==> ValidMatch(s, m.value)
  {
    if |s| == 0 then None
    else match p
      case JsonFence => MatchFence(s, "```json")
      case Fence => MatchFence(s, "```")
      case TrailingComma => MatchTrailingComma(s)
      case BareKey => MatchBareKey(s)
      case BareValue => MatchBareValue(s)
      case ArraySpacing => MatchArraySpacing(s)
      case Newline => if s[0] == '\n' then Some(Match(1, " ")) else None
      case WsRun => if IsWs(s[0]) then Some(Match(Skip(Ws, s, 0), " ")) else None
  }

  /** `/```json\s*` and `/```\s*`: the fence and the whitespace after it, removed. */
  function MatchFence(s: string, fence: string): (m: Option<Match>)
    requires |s| > 0 && |fence| > 0 && fence[0] == '`'
    requires forall i :: 0 <= i < |fence| ==> fence[i] != '}'
    ensures m.Some? ==> ValidMatch(s, m.value)
  {
    if StartsWith(s, fence) then
      var j := Skip(Ws, s, |fence|);
      assert j == |s| ==> s[|s| - 1] != '}' by {
        if j == |s| && |fence| == |s| {
          assert s[|s| - 1] == fence[|fence| - 1];
        }
      }
      Some(Match(j, ""))
    else None
  }

  /** `,(\s*[}\]])` -> `$1`: the comma goes, the rest stays. */
  function MatchTrailingComma(s: string): (m: Option<Match>)
    requires |s| > 0
    ensures m.Some? ==> ValidMatch(s, m.value)
  {
    if s[0] != ',' then None
    else
      var j := Skip(Ws, s, 1);
      if j < |s| && (s[j] == '}' || s[j] == ']') then Some(Match(j + 1, s[1..j + 1])) else None
  }

  /** `([{,]\s*)(\w+):` -> `$1"$2":`. Whitespace and word characters are
      disjoint, so the greedy runs never need to backtrack. */
  function MatchBareKey(s: string): (m: Option<Match>)
    requires |s| > 0
    ensures m.Some? ==> ValidMatch(s, m.value)
  {
    if s[0] != '{' && s[0] != ',' then None
    else
      var j := Skip(Ws, s, 1);
      var k := Skip(Word, s, j);
      if j < k < |s| && s[k] == ':' then Some(Match(k + 1, s[..j] + "\"" + s[j..k] + "\":")) else None
  }

  /** `:\s*([^",[\]{}]+)(\s*[,}])` -> `: "$1"$2`. Whitespace belongs to the
      value class, so the value run `s[1..m]` is the longest run of that class
      after the ':', and the match succeeds exactly when that run is non-empty
      and a ',' or '}' follows it; no backtracking finds any other match. */
  function MatchBareValue(s: string): (m: Option<Match>)
    requires |s| > 0
    ensures m.Some? ==> ValidMatch(s, m.value)
  {
    if s[0] != ':' then None
    else
      var m := Skip(ValueChar, s, 1);
      if 1 < m < |s| && (s[m] == ',' || s[m] == '}') then
        Some(Match(m + 1, ": \"" + ValueGroup(s, m) + "\"" + [s[m]]))
      else None
  }

  /** `"\s*,\s*"` -> `", "`. */
  function MatchArraySpacing(s: string): (m: Option<Match>)
    requires |s| > 0
    ensures m.Some? ==> ValidMatch(s, m.value)
  {
    if s[0] != '"' then None
    else
      var j := Skip(Ws, s, 1);
      if j < |s| && s[j] == ',' then
        var k := Skip(Ws, s, j + 1);
        if k < |s| && s[k] == '"' then Some(Match(k + 1, "\", \"")) else None
      else None
  }

  /** The first capture group of `BareValue` for a value run `s[1..m]`: the
      run after its leading whitespace; when the run is whitespace only, the
      backtracking leaves exactly its last character to the group. */
  function ValueGroup(s: string, m: nat): (g: string)
    requires 1 < m <= |s|
    ensures 1 <= |g| <= m - 1
    ensures g == s[m - |g|..m]
  {
    var w := Skip(Ws, s, 1);
    if w < m then s[w..m] else s[m - 1..m]
  }

  /** One step of a global replace at the start of `s`: the match, or the
      first character copied unchanged when the pattern does not match there. */
  function Step(p: Pattern, s: string): (m: Match)
    requires |s| > 0
    ensures ValidMatch(s, m)
    ensures MatchAt(p, s).None? ==> m == Match(1, [s[0]])
  {
    match MatchAt(p, s)
    case Some(m) => m
    case None => Match(1, [s[0]])
  }

  /** `s.replace(p, ...)` with a global regex: scanning left to right, each
      match is replaced and scanning resumes after it; a text in which the
      pattern matches nowhere comes back unchanged. */
  function GlobalReplace(p: Pattern, s: string): (r: string)
    ensures (forall i :: 0 <= i < |s| ==> MatchAt(p, s[i..]).None?) ==> r == s
    decreases |s|
  {
    if |s| == 0 then ""
    else
      var m := Step(p, s);
      assert s[0..] == s && [s[0]] + s[1..] == s;
      assert forall i :: 0 <= i < |s| - 1 ==> s[1..][i..] == s[i + 1..];
      m.replacement + GlobalReplace(p, s[m.len..])
  }

  // `.replace(/^[^{]*/, "")`: drops everything before the first '{'.
  function DropBeforeFirstOpen(s: string): (r: string)
    ensures |r| <= |s| && r == s[|s| - |r|..]
    ensures forall i :: 0 <= i < |s| - |r| ==> s[i] != '{'
    ensures |r| > 0 ==> r[0] == '{'
  {
    s[Skip(NotOpenBrace, s, 0)..]
  }

  // `.replace(/[^}]*$/, "")`: the leftmost position from which no '}'
  // follows is where the match starts, so everything after the last '}'
  // goes, and all of the text when it has no '}'.
  function DropAfterLastClose(s: string): (r: string)
    ensures |r| <= |s| && r == s[..|r|]
    ensures forall i :: |r| <= i < |s| ==> s[i] != '}'
    ensures |r| > 0 ==> r[|r| - 1] == '}'
  {
    if |s| == 0 || s[|s| - 1] == '}' then s else DropAfterLastClose(s[..|s| - 1])
  }

  /** The global replaces of the chain, in source order. */
  const ChainPatterns: seq<Pattern> :=
    [JsonFence, Fence, TrailingComma, BareKey, BareValue, ArraySpacing, Newline, WsRun]

  /** Applies the global replaces `ps` one after the other. */
  function ReplaceEach(ps: seq<Pattern>, s: string): string
    decreases |ps|
  {
    if |ps| == 0 then s else ReplaceEach(ps[1..], GlobalReplace(ps[0], s))
  }

  /** The two anchored replaces: the text from its first '{' through its last '}'. */
  function Cut(s: string): string {
    DropAfterLastClose(DropBeforeFirstOpen(s))
  }

  /** Brace trimming, the global replaces `ps`, then `trim()`. */
  function CleanWith(ps: seq<Pattern>, text: string): string {
    Trim(ReplaceEach(ps, Cut(text)))
  }

  /** The whole cleaning chain of the routes. */
  function CleanSteps(text: string): string {
    CleanWith(ChainPatterns, text)
  }

  /** `text.startsWith("{") && text.endsWith("}")`. */
  predicate BraceGuard(t: string) {
    StartsWith(t, "{") && EndsWith(t, "}")
  }

  /** Starts with '{' and ends with another character, '}'. */
  predicate Framed(s: string) {
    |s| >= 2 && s[0] == '{' && s[|s| - 1] == '}'
  }

  /** The brace guard accepts exactly the framed texts. */
  lemma GuardIsFramed(t: string)
    ensures BraceGuard(t) <==> Framed(t)
  {
    if |t| >= 1 {
      assert t[..1] == [t[0]] && t[|t| - 1..] == [t[|t| - 1]];
    }
  }

  /** The text holds a '{' with a '}' somewhere after it. */
  predicate HasBracePair(s: string) {
    exists i, j :: 0 <= i < j < |s| && s[i] == '{' && s[j] == '}'
  }

  /** The brace-trimming pair leaves either nothing, or a framed text; it
      leaves nothing exactly when the text has no '{' followed by a '}'. */
  lemma CutShape(s: string)
    ensures Cut(s) == "" || Framed(Cut(s))
    ensures Cut(s) != "" <==> HasBracePair(s)
  {
    var a := DropBeforeFirstOpen(s);
    var r := DropAfterLastClose(a);
    var off := |s| - |a|;
    if r != "" {
      assert r[0] == a[0] == '{';
      assert r[|r| - 1] == '}';
      assert s[off] == '{' && s[off + |r| - 1] == '}';
    }
    if HasBracePair(s) {
      var i, j :| 0 <= i < j < |s| && s[i] == '{' && s[j] == '}';
      assert i >= off;
      assert a[j - off] == '}';
    }
  }

  lemma {:induction false} ReplaceEmpty(p: Pattern)
    ensures GlobalReplace(p, "") == ""
  {
  }

  /** No global replace of the chain removes a leading '{'. */
  lemma KeepsLeadingOpen(p: Pattern, s: string)
    requires |s| > 0 && s[0] == '{'
    ensures var r := GlobalReplace(p, s); |r| > 0 && r[0] == '{'
  {
  }

  /** No global replace of the chain removes a trailing '}'. */
  lemma {:induction false} KeepsTrailingClose(p: Pattern, s: string)
    requires |s| > 0 && s[|s| - 1] == '}'
    ensures var r := GlobalReplace(p, s); |r| > 0 && r[|r| - 1] == '}'
    decreases |s|
  {
    var m := Step(p, s);
    var rest := s[m.len..];
    var tail := GlobalReplace(p, rest);
    assert GlobalReplace(p, s) == m.replacement + tail;
    if m.len < |s| {
      assert rest[|rest| - 1] == '}';
      KeepsTrailingClose(p, rest);
      assert (m.replacement + tail)[|m.replacement + tail| - 1] == tail[|tail| - 1];
    } else {
      assert rest == "";
      ReplaceEmpty(p);
      assert m.replacement + tail == m.replacement;
    }
  }

  /** A text framed by '{' and '}' stays framed through any global replace. */
  lemma KeepsFrame(p: Pattern, s: string)
    requires Framed(s)
    ensures Framed(GlobalReplace(p, s))
  {
    KeepsLeadingOpen(p, s);
    KeepsTrailingClose(p, s);
  }

  lemma {:induction false} ReplaceEachEmpty(ps: seq<Pattern>)
    ensures ReplaceEach(ps, "") == ""
    decreases |ps|
  {
    if |ps| > 0 {
      ReplaceEmpty(ps[0]);
      ReplaceEachEmpty(ps[1..]);
    }
  }

  lemma {:induction false} ReplaceEachKeepsFrame(ps: seq<Pattern>, s: string)
    requires Framed(s)
    ensures Framed(ReplaceEach(ps, s))
    decreases |ps|
  {
    if |ps| > 0 {
      KeepsFrame(ps[0], s);
      ReplaceEachKeepsFrame(ps[1..], GlobalReplace(ps[0], s));
    }
  }

  lemma {:induction false} ReplaceEachSnoc(ps: seq<Pattern>, p: Pattern, s: string)
    ensures ReplaceEach(ps + [p], s) == GlobalReplace(p, ReplaceEach(ps, s))
    decreases |ps|
  {
    if |ps| > 0 {
      assert (ps + [p])[1..] == ps[1..] + [p];
      ReplaceEachSnoc(ps[1..], p, GlobalReplace(ps[0], s));
    } else {
      assert (ps + [p])[1..] == [];
    }
  }

  /** Whitespace in `t` is single spaces, never two in a row. */
  predicate SpacesNormalized(t: string) {
    && (forall i :: 0 <= i < |t| && IsWs(t[i]) ==> t[i] == ' ')
    && (forall i :: 0 <= i < |t| - 1 ==> !(IsWs(t[i]) && IsWs(t[i + 1])))
  }

  /** `/\s+/g -> " "` leaves normalized whitespace, and keeps a leading
      non-whitespace character in front. */
  lemma {:induction false} WsRunNormalizes(s: string)
    ensures SpacesNormalized(GlobalReplace(WsRun, s))
    ensures |s| > 0 && !IsWs(s[0]) ==> |GlobalReplace(WsRun, s)| > 0 && GlobalReplace(WsRun, s)[0] == s[0]
    decreases |s|
  {
    if |s| > 0 {
      var r := GlobalReplace(WsRun, s);
      if IsWs(s[0]) {
        var n := Skip(Ws, s, 0);
        var rest := s[n..];
        WsRunNormalizes(rest);
        assert r == " " + GlobalReplace(WsRun, rest);
        assert |rest| > 0 ==> !IsWs(rest[0]);
        PrependNormalized(' ', GlobalReplace(WsRun, rest));
      } else {
        WsRunNormalizes(s[1..]);
        assert r == [s[0]] + GlobalReplace(WsRun, s[1..]);
        PrependNormalized(s[0], GlobalReplace(WsRun, s[1..]));
      }
    }
  }

  /** One character in front of normalized text keeps it normalized, unless
      it is whitespace other than a space or sits before whitespace. */
  lemma PrependNormalized(c: char, t: string)
    requires SpacesNormalized(t)
    requires IsWs(c) ==> c == ' ' && (|t| > 0 ==> !IsWs(t[0]))
    ensures SpacesNormalized([c] + t)
  {
    var u := [c] + t;
    assert forall i :: 1 <= i < |u| ==> u[i] == t[i - 1];
  }

  /** The value-quoting replace, at a ':': the bare run up to the next ',' or
      '}' is wrapped in quotes, numbers and `true` included; the whitespace
      after the ':' becomes one space. */
  lemma BareValueQuotes(s: string, m: nat)
    requires 1 < m < |s| && s[0] == ':'
    requires forall t :: 1 <= t < m ==> InClass(ValueChar, s[t])
    requires s[m] == ',' || s[m] == '}'
    requires !IsWs(s[1])
    ensures MatchAt(BareValue, s) == Some(Match(m + 1, ": \"" + s[1..m] + "\"" + [s[m]]))
  {
    assert Skip(ValueChar, s, 1) == m by { SkipReaches(ValueChar, s, 1, m); }
  }

  lemma {:induction false} SkipReaches(k: CharClass, s: string, i: nat, j: nat)
    requires i <= j < |s|
    requires forall t :: i <= t < j ==> InClass(k, s[t])
    requires !InClass(k, s[j])
    ensures Skip(k, s, i) == j
    decreases j - i
  {
    if i < j {
      SkipReaches(k, s, i + 1, j);
    }
  }

  /** A value that starts with a quote, after optional whitespace, is left
      alone by the value-quoting replace. */
  lemma QuotedValueNotRequoted(s: string, q: nat)
    requires 0 < q < |s| && s[0] == ':' && s[q] == '"'
    requires forall t :: 1 <= t < q ==> IsWs(s[t])
    ensures MatchAt(BareValue, s) == None
  {
    SkipReaches(ValueChar, s, 1, q);
  }

  /** Whatever the global replaces, the cleaned text is empty or framed,
      and it is empty exactly when the text has no '{' followed by a '}'. */
  lemma CleanWithShape(ps: seq<Pattern>, text: string)
    ensures CleanWith(ps, text) == "" || Framed(CleanWith(ps, text))
    ensures CleanWith(ps, text) != "" <==> HasBracePair(text)
  {
    CutShape(text);
    var c := Cut(text);
    var d := ReplaceEach(ps, c);
    if c == "" {
      ReplaceEachEmpty(ps);
    } else {
      ReplaceEachKeepsFrame(ps, c);
    }
    assert d == c || Framed(d);
    assert d == "" <==> c == "";
    FramedTrimmed(d);
  }

  /** A framed text has no whitespace to trim. */
  lemma FramedTrimmed(d: string)
    requires d == "" || Framed(d)
    ensures Trim(d) == d
  {
    if d != "" {
      TrimKeepsNonWsEnds(d);
    }
  }

  /** Trimming keeps whitespace normalized, and leaves none at the ends. */
  lemma TrimKeepsNormalized(d: string)
    requires SpacesNormalized(d)
    ensures var t := Trim(d);
            && SpacesNormalized(t)
            && (forall i :: 0 <= i < |t| ==> t[i] != '\n')
            && (|t| > 0 ==> !IsWs(t[0]) && !IsWs(t[|t| - 1]))
  {
    var t := Trim(d);
    var x, y :| 0 <= x <= y <= |d| && t == d[x..y] && AllWs(d[..x]) && AllWs(d[y..]);
    assert forall i :: 0 <= i < |t| ==> t[i] == d[x + i];
    assert IsWs('\n');
  }

  /** When the last global replace is `WsRun`, the cleaned text has no
      newline, no two whitespace characters in a row, and no whitespace at
      either end. */
  lemma CleanWithWhitespace(ps: seq<Pattern>, text: string)
    requires |ps| > 0 && ps[|ps| - 1] == WsRun
    ensures var t := CleanWith(ps, text);
            && SpacesNormalized(t)
            && (forall i :: 0 <= i < |t| ==> t[i] != '\n')
            && (|t| > 0 ==> !IsWs(t[0]) && !IsWs(t[|t| - 1]))
  {
    var init := ps[..|ps| - 1];
    assert ps == init + [WsRun];
    var before := ReplaceEach(init, Cut(text));
    ReplaceEachSnoc(init, WsRun, Cut(text));
    WsRunNormalizes(before);
    TrimKeepsNormalized(GlobalReplace(WsRun, before));
  }
}

=== FILE: client_retry.dfy ===
/** The two retry loops of `analyzeAllChats` in app/page.tsx: up to three
    requests per file, with a wait of 2000·r ms before retry r, stopping at
    once on a rejected key; any file that still fails aborts the run. Then
    up to three requests for the overall analysis, with 3000·r ms waits,
    whose failure never aborts anything. `fetch` is an oracle: the outcome
    of the k-th request. Waits are returned, not slept. */
module ClientRetry {
  import opened Wrappers
  import opened Text
  import opened JsonValue
  import Page

  /** A request's outcome: the status and parsed body of the answer, or the
      message of what was thrown (a failed `fetch`, or a body that is not JSON). */
  datatype FetchOutcome = Answered(status: int, body: Json) | Thrown(message: string)

  /** `response.ok`. */
  predicate Ok(o: FetchOutcome) {
    o.Answered? && 200 <= o.status <= 299
  }

  /** `errorData.error`, when it is a string. */
  function ErrorField(body: Json): Option<string> {
    match Field(body, "error")
    case Some(JString(s)) => Some(s)
    case _ => None
  }

  /** A non-ok answer whose JSON body is `null`: reading `errorData.error`
      throws a TypeError before the status is looked at, in the 401 test or
      in the template of the key error alike. */
  predicate NullErrorBody(o: FetchOutcome) {
    o.Answered? && !Ok(o) && o.body.JNull?
  }

  /** That TypeError's message, in V8's wording, spelled in pieces short
      enough for the verifier to read character by character. */
  const NullBodyMessage: string := "Cannot read " + "properties of " + "null (reading " + "'error')"

  /** A 401, or an error text mentioning "API_KEY_INVALID": never retried. */
  predicate KeyRejected(o: FetchOutcome) {
    && o.Answered? && !Ok(o) && !o.body.JNull?
    && (o.status == 401 || (ErrorField(o.body).Some? && Contains(ErrorField(o.body).value, "API_KEY_INVALID")))
  }

  predicate Unavailable(o: FetchOutcome) {
    o.Answered? && !Ok(o) && !o.body.JNull? && !KeyRejected(o) && o.status == 503
  }

  const InvalidKeyMarker: string := "Invalid API Key"

  /** The error thrown for a rejected key; `${undefined}` reads "undefined". */
  function KeyErrorMessage(body: Json): (m: string)
    ensures StartsWith(m, InvalidKeyMarker)
  {
    InvalidKeyMarker + ": " + (match ErrorField(body) case Some(s) => s case None => "undefined")
      + ". Please check your API key and try again."
  }

  function UnavailableMessage(name: string): string {
    "Service temporarily unavailable for " + name + ". Please try again later."
  }

  /** `errorData.error || "Analysis failed for <name>"`. */
  function FailureMessage(body: Json, name: string): (m: string)
    ensures m != ""
  {
    match ErrorField(body)
    case Some(s) => if s != "" then s else "Analysis failed for " + name
    case None => "Analysis failed for " + name
  }

  /** The message the catch block sees for a failed request that is
      neither a rejected key nor a 503. */
  function CaughtMessage(o: FetchOutcome, name: string): string {
    match o
    case Thrown(m) => m
    case Answered(_, body) => if body.JNull? then NullBodyMessage else FailureMessage(body, name)
  }

  /** The pieces of the TypeError's text have no capital 'I'. */
  lemma NullBodyPiecesLackI()
    ensures LacksFrom("Cannot read ", 'I', 0) && LacksFrom("properties of ", 'I', 0)
    ensures LacksFrom("null (reading ", 'I', 0) && LacksFrom("'error')", 'I', 0)
  {
  }

  /** The TypeError does not read as a key error, so the catch block retries it. */
  lemma NullBodyMessageIsNoKeyError()
    ensures !Contains(NullBodyMessage, InvalidKeyMarker)
  {
    NullBodyPiecesLackI();
    LacksAll("Cannot read ", 'I', 0);
    LacksAll("properties of ", 'I', 0);
    LacksAll("null (reading ", 'I', 0);
    LacksAll("'error')", 'I', 0);
    NoFirstCharNoContains(NullBodyMessage, InvalidKeyMarker);
  }

  /** The catch block's test: rethrow a key error, or any error once two retries were spent. */
  predicate Rethrows(m: string, retryCount: nat) {
    Contains(m, InvalidKeyMarker) || retryCount >= 2
  }

  datatype FileOutcome = Analysed(result: Json) | Abort(message: string)

  /** The outcome for one file, the number of requests made and the waits before them. */
  datatype FileRun = FileRun(outcome: FileOutcome, fetches: nat, waits: seq<nat>)

  /** The first retry round at or after `retryCount` that waits. */
  function FirstWaiting(retryCount: nat): nat {
    if retryCount == 0 then 1 else retryCount
  }

  /** The waits of `n` retry rounds from round `first` on, at `unit`·r ms before round r. */
  function Waits(unit: nat, first: nat, n: nat): (r: seq<nat>)
    ensures |r| == n && forall i :: 0 <= i < n ==> r[i] == unit * (first + i)
    decreases n
  {
    if n == 0 then [] else [unit * first] + Waits(unit, first + 1, n - 1)
  }

  /** A failed or successful request as the per-file loop tells them apart. */
  datatype Reply =
    | Success(body: Json)
    | KeyError(message: string)   // thrown as "Invalid API Key: ..."
    | ServiceDown                 // a 503
    | Failure(message: string)    // what the catch block sees otherwise

  function Classify(o: FetchOutcome, name: string): (c: Reply)
    ensures c.Success? <==> Ok(o)
    ensures c.Success? ==> c.body == o.body
    ensures c.KeyError? <==> KeyRejected(o)
    ensures c.KeyError? ==> c.message == KeyErrorMessage(o.body) && Contains(c.message, InvalidKeyMarker)
    ensures c.ServiceDown? <==> Unavailable(o)
    ensures c.Failure? ==> c.message == CaughtMessage(o, name)
    ensures NullErrorBody(o) ==> c == Failure(NullBodyMessage)
  {
    if Ok(o) then Success(o.body)
    else if o.Answered? && o.body.JNull? then Failure(NullBodyMessage)
    else if KeyRejected(o) then
      ContainsAt(KeyErrorMessage(o.body), InvalidKeyMarker, 0);
      KeyError(KeyErrorMessage(o.body))
    else if o.Answered? && o.status == 503 then ServiceDown
    else Failure(CaughtMessage(o, name))
  }

  /** What one iteration of the per-file loop does with a request's outcome. */
  datatype Step = Done(body: Json) | Stop(message: string) | Retry

  /** The iteration with `retryCount`: a success ends the loop; a key error
      is rethrown, its message carrying the marker; a 503 counts a retry and
      is thrown at the third; any other failure is rethrown when it names a
      key error or two retries were already spent. */
  function StepAt(c: Reply, name: string, retryCount: nat): (s: Step)
    ensures s.Done? <==> c.Success?
    ensures s.Retry? ==> retryCount < 2
  {
    match c
    case Success(body) => Done(body)
    case KeyError(m) => Stop(m)
    case ServiceDown => if retryCount + 1 >= 3 then Stop(UnavailableMessage(name)) else Retry
    case Failure(m) => if Rethrows(m, retryCount) then Stop(m) else Retry
  }

  /** The per-file loop from the iteration with `retryCount` onwards, on the
      classified replies; every failed request adds one to the count. */
  function FileFrom(replies: nat -> Reply, name: string, retryCount: nat): (run: FileRun)
    requires retryCount < 3
    ensures retryCount + 1 <= run.fetches <= 3
    ensures run.waits == Waits(2000, FirstWaiting(retryCount), run.fetches - FirstWaiting(retryCount))
    ensures forall k :: retryCount <= k < run.fetches - 1 ==> StepAt(replies(k), name, k).Retry?
    ensures var last := StepAt(replies(run.fetches - 1), name, run.fetches - 1);
            && !last.Retry?
            && run.outcome == (if last.Done? then Analysed(last.body) else Abort(last.message))
    decreases 3 - retryCount
  {
    var lead := if retryCount > 0 then [2000 * retryCount] else [];
    match StepAt(replies(retryCount), name, retryCount)
    case Done(body) => FileRun(Analysed(body), retryCount + 1, lead)
    case Stop(m) => FileRun(Abort(m), retryCount + 1, lead)
    case Retry =>
      var rest := FileFrom(replies, name, retryCount + 1);
      FileRun(rest.outcome, rest.fetches, lead + rest.waits)
  }

  /** The classified outcomes of a file's requests. */
  function RepliesOf(fetch: nat -> FetchOutcome, name: string): nat -> Reply {
    (k: nat) => Classify(fetch(k), name)
  }

  /** All requests for one file. */
  function FileAttempts(fetch: nat -> FetchOutcome, name: string): (run: FileRun)
    ensures 1 <= run.fetches <= 3
    ensures run.waits == Waits(2000, 1, run.fetches - 1)
    ensures run.outcome.Analysed? <==> Ok(fetch(run.fetches - 1))
    ensures run.outcome.Analysed? ==> run.outcome.result == fetch(run.fetches - 1).body
    ensures forall k :: 0 <= k < run.fetches - 1 ==> !Ok(fetch(k)) && !KeyRejected(fetch(k))
    ensures KeyRejected(fetch(run.fetches - 1)) ==> run.outcome == Abort(KeyErrorMessage(fetch(run.fetches - 1).body))
    ensures Unavailable(fetch(run.fetches - 1)) && run.outcome.Abort? ==>
              run.fetches == 3 && run.outcome.message == UnavailableMessage(name)
    ensures run.outcome.Abort? && run.fetches < 3 ==>
              var o := fetch(run.fetches - 1);
              KeyRejected(o) || (!Unavailable(o) && Contains(CaughtMessage(o, name), InvalidKeyMarker))
  {
    var replies := RepliesOf(fetch, name);
    var run := FileFrom(replies, name, 0);
    assert forall k :: 0 <= k < run.fetches - 1 ==> replies(k) == Classify(fetch(k), name);
    assert replies(run.fetches - 1) == Classify(fetch(run.fetches - 1), name);
    run
  }

  /** The body of the per-file loop after the wait, as written: the request,
      the `!response.ok` tests with the 503 `continue`, and the catch block.
      It does what `StepAt` says; `next` is the new `retryCount`. */
  method LoopBody(o: FetchOutcome, name: string, retryCount: nat)
    returns (success: bool, aborted: bool, outcome: FileOutcome, next: nat)
    requires retryCount < 3
    ensures retryCount <= next <= retryCount + 1
    ensures var step := StepAt(Classify(o, name), name, retryCount);
            && (step.Done? <==> success) && (step.Stop? <==> aborted)
            && (step.Done? ==> outcome == Analysed(step.body))
            && (step.Stop? ==> outcome == Abort(step.message))
            && (step.Retry? ==> next == retryCount + 1)
  {
    next := retryCount;
    success := false;
    aborted := false;
    outcome := Abort("");
    var thrown: Option<string> := None;
    if Ok(o) {
      outcome := Analysed(o.body);
      success := true;
    } else if o.Answered? && o.body.JNull? {
      thrown := Some(NullBodyMessage);
    } else if KeyRejected(o) {
      thrown := Some(KeyErrorMessage(o.body));
      ContainsAt(KeyErrorMessage(o.body), InvalidKeyMarker, 0);
    } else if o.Answered? && o.status == 503 {
      next := next + 1;
      if next >= 3 {
        thrown := Some(UnavailableMessage(name));
      }
    } else {
      thrown := Some(CaughtMessage(o, name));
    }
    if thrown.Some? {
      if Rethrows(thrown.value, next) {
        outcome := Abort(thrown.value);
        aborted := true;
      } else {
        next := next + 1;
      }
    }
  }

  /** The rest of the per-file loop from the iteration with `retryCount`,
      after the waits already made. */
  function Resume(replies: nat -> Reply, name: string, waited: seq<nat>, retryCount: nat): FileRun
    requires retryCount < 3
  {
    var rest := FileFrom(replies, name, retryCount);
    FileRun(rest.outcome, rest.fetches, waited + rest.waits)
  }

  /** One iteration: the wait, then what `StepAt` decides. */
  lemma ResumeStep(replies: nat -> Reply, name: string, waited: seq<nat>, retryCount: nat)
    requires retryCount < 3
    ensures var lead := if retryCount > 0 then [2000 * retryCount] else [];
            match StepAt(replies(retryCount), name, retryCount)
            case Done(body) => Resume(replies, name, waited, retryCount) == FileRun(Analysed(body), retryCount + 1, waited + lead)
            case Stop(m) => Resume(replies, name, waited, retryCount) == FileRun(Abort(m), retryCount + 1, waited + lead)
            case Retry => Resume(replies, name, waited, retryCount) == Resume(replies, name, waited + lead, retryCount + 1)
  {
    var lead := if retryCount > 0 then [2000 * retryCount] else [];
    if StepAt(replies(retryCount), name, retryCount).Retry? {
      var rest := FileFrom(replies, name, retryCount + 1);
      assert waited + (lead + rest.waits) == waited + lead + rest.waits;
    }
  }

  /** One iteration of the per-file loop: the wait, the request, and what
      `LoopBody` makes of its answer, stated against the rest of the loop. */
  method Iteration(fetch: nat -> FetchOutcome, name: string, retryCount: nat, waits: seq<nat>)
    returns (success: bool, aborted: bool, outcome: FileOutcome, next: nat, waited: seq<nat>)
    requires retryCount < 3
    ensures retryCount <= next <= retryCount + 1
    ensures var before := Resume(RepliesOf(fetch, name), name, waits, retryCount);
            && (success || aborted ==> before == FileRun(outcome, retryCount + 1, waited))
            && (!success && !aborted ==>
                  next == retryCount + 1 && next < 3 && before == Resume(RepliesOf(fetch, name), name, waited, next))
  {
    ResumeStep(RepliesOf(fetch, name), name, waits, retryCount);
    waited := waits;
    if retryCount > 0 {
      waited := waited + [2000 * retryCount];
    }
    var o := fetch(retryCount);
    assert RepliesOf(fetch, name)(retryCount) == Classify(o, name);
    success, aborted, outcome, next := LoopBody(o, name, retryCount);
    if !success && !aborted && next >= 3 {
      assert false;
    }
  }

  /** The per-file loop as written: `retryCount`, `success`, the wait before
      each retry, with a flag for the rethrow that leaves the loop. */
  method AnalyzeFile(fetch: nat -> FetchOutcome, name: string) returns (outcome: FileOutcome, fetches: nat, waits: seq<nat>)
    ensures FileRun(outcome, fetches, waits) == FileAttempts(fetch, name)
  {
    var retryCount: nat := 0;
    var success := false;
    var aborted := false;
    fetches := 0;
    waits := [];
    outcome := Abort("");
    ghost var target := Resume(RepliesOf(fetch, name), name, [], 0);
    while !success && !aborted && retryCount < 3
      invariant retryCount <= 3
      invariant !success && !aborted ==>
                  retryCount < 3 && fetches == retryCount && target == Resume(RepliesOf(fetch, name), name, waits, retryCount)
      invariant success || aborted ==> target == FileRun(outcome, fetches, waits)
      decreases 3 - retryCount + (if success || aborted then 0 else 1)
    {
      fetches := fetches + 1;
      success, aborted, outcome, retryCount, waits := Iteration(fetch, name, retryCount, waits);
    }
  }

  /** A rejected key on the first request ends the file after that request,
      without a wait. */
  lemma RejectedKeyIsNotRetried(fetch: nat -> FetchOutcome, name: string)
    requires KeyRejected(fetch(0))
    ensures var run := FileAttempts(fetch, name);
            run.fetches == 1 && run.waits == [] && run.outcome.Abort?
            && StartsWith(run.outcome.message, InvalidKeyMarker)
  {
  }

  /** Three 503 answers in a row: three requests, waits of 2 s and 4 s, and
      the file aborts with the service-unavailable message. */
  lemma ThreeUnavailableAbort(fetch: nat -> FetchOutcome, name: string)
    requires Unavailable(fetch(0)) && Unavailable(fetch(1)) && Unavailable(fetch(2))
    ensures FileAttempts(fetch, name) == FileRun(Abort(UnavailableMessage(name)), 3, [2000, 4000])
  {
    var replies := RepliesOf(fetch, name);
    var r2 := FileFrom(replies, name, 2);
    assert r2 == FileRun(Abort(UnavailableMessage(name)), 3, [4000]);
    var r1 := FileFrom(replies, name, 1);
    assert r1 == FileRun(Abort(UnavailableMessage(name)), 3, [2000] + [4000]);
  }

  /** A non-ok answer with a `null` body is retried like any other failure,
      whatever its status, 401 included: three of them mean three requests,
      waits of 2 s and 4 s, and the TypeError's text as the abort message. */
  lemma NullErrorBodyIsRetried(fetch: nat -> FetchOutcome, name: string)
    requires NullErrorBody(fetch(0)) && NullErrorBody(fetch(1)) && NullErrorBody(fetch(2))
    ensures FileAttempts(fetch, name) == FileRun(Abort(NullBodyMessage), 3, [2000, 4000])
  {
    NullBodyMessageIsNoKeyError();
    var replies := RepliesOf(fetch, name);
    assert replies(0) == Failure(NullBodyMessage) && replies(1) == Failure(NullBodyMessage);
    var r2 := FileFrom(replies, name, 2);
    assert r2 == FileRun(Abort(NullBodyMessage), 3, [4000]);
    var r1 := FileFrom(replies, name, 1);
    assert r1 == FileRun(Abort(NullBodyMessage), 3, [2000] + [4000]);
  }

  /** Any three failed requests abort the file: there is never a fourth. */
  lemma ThreeFailuresAbort(fetch: nat -> FetchOutcome, name: string)
    requires !Ok(fetch(0)) && !Ok(fetch(1)) && !Ok(fetch(2))
    ensures FileAttempts(fetch, name).outcome.Abort?
  {
  }

  // ---------------------------------------------------------------- the run

  /** `{ ...result, fileName }`. */
  datatype FileResult = FileResult(fileName: string, analysis: Json)

  /** The per-file phase from file `i` on: the results, the file that
      aborted the run with its message, and the file index of every request. */
  datatype FilesRun = FilesRun(results: seq<FileResult>, aborted: Option<(nat, string)>, requested: seq<nat>)

  function Repeat(x: nat, n: nat): (r: seq<nat>)
    ensures |r| == n && forall k :: 0 <= k < n ==> r[k] == x
  {
    if n == 0 then [] else [x] + Repeat(x, n - 1)
  }

  /** The requests for every file, as if each were analysed. */
  function FileRuns(files: seq<Page.ChatFile>, fetch: nat -> nat -> FetchOutcome): (runs: seq<FileRun>)
    ensures |runs| == |files|
    ensures forall j :: 0 <= j < |files| ==> runs[j] == FileAttempts(fetch(j), files[j].name)
    ensures forall j :: 0 <= j < |files| ==> 1 <= runs[j].fetches <= 3
  {
    seq(|files|, j requires 0 <= j < |files| => FileAttempts(fetch(j), files[j].name))
  }

  /** `for (let i = 0; i < chatFiles.length; i++)` from file `i` on, with
      the rethrow leaving the loop; `runs[j]` is what file `j` does. */
  function FilesFrom(files: seq<Page.ChatFile>, runs: seq<FileRun>, i: nat): (run: FilesRun)
    requires |runs| == |files| && i <= |files|
    requires forall j :: 0 <= j < |runs| ==> runs[j].fetches <= 3
    ensures forall k :: 0 <= k < |run.requested| ==> i <= run.requested[k] < |files|
    ensures |run.requested| <= 3 * (|files| - i)
    ensures run.aborted.Some? ==>
              var bad := run.aborted.value.0;
              && i <= bad < |files|
              && runs[bad].outcome == Abort(run.aborted.value.1)
              && (forall j :: i <= j < bad ==> runs[j].outcome.Analysed?)
              && (forall k :: 0 <= k < |run.requested| ==> run.requested[k] <= bad)
    ensures run.aborted.None? ==> |run.results| == |files| - i
                                  && forall k :: 0 <= k < |run.results| ==> run.results[k].fileName == files[i + k].name
    ensures run.aborted.None? ==>
              forall k :: 0 <= k < |run.results| ==>
                runs[i + k].outcome.Analysed?
                && run.results[k] == FileResult(files[i + k].name, runs[i + k].outcome.result)
    ensures run.aborted.None? <==> forall j :: i <= j < |files| ==> runs[j].outcome.Analysed?
    decreases |files| - i
  {
    if i == |files| then FilesRun([], None, [])
    else
      var file := runs[i];
      match file.outcome
      case Abort(m) => FilesRun([], Some((i, m)), Repeat(i, file.fetches))
      case Analysed(result) =>
        var rest := FilesFrom(files, runs, i + 1);
        FilesRun([FileResult(files[i].name, result)] + rest.results, rest.aborted,
                 Repeat(i, file.fetches) + rest.requested)
  }

  /** The overall-analysis loop from the round with `retryCount` on: the
      analysis if some request succeeded, the requests and waits. */
  datatype OverallRun = OverallRun(analysis: Option<Json>, fetches: nat, waits: seq<nat>)

  /** Every failure, whatever its status or message, counts one retry and
      ends the loop quietly at the third. */
  function OverallFrom(fetch: nat -> FetchOutcome, retryCount: nat): (run: OverallRun)
    requires retryCount < 3
    ensures retryCount + 1 <= run.fetches <= 3
    ensures run.waits == Waits(3000, FirstWaiting(retryCount), run.fetches - FirstWaiting(retryCount))
    ensures run.analysis.Some? <==> Ok(fetch(run.fetches - 1))
    ensures run.analysis.Some? ==> run.analysis.value == fetch(run.fetches - 1).body
    ensures run.analysis.None? ==> run.fetches == 3
    ensures forall k :: retryCount <= k < run.fetches - 1 ==> !Ok(fetch(k))
    decreases 3 - retryCount
  {
    var lead := if retryCount > 0 then [3000 * retryCount] else [];
    var o := fetch(retryCount);
    if Ok(o) then OverallRun(Some(o.body), retryCount + 1, lead)
    else if retryCount + 1 >= 3 then OverallRun(None, retryCount + 1, lead)
    else
      var rest := OverallFrom(fetch, retryCount + 1);
      OverallRun(rest.analysis, rest.fetches, lead + rest.waits)
  }

  datatype RunOutcome =
    | NotStarted                                   // no files: nothing happens
    | Aborted(file: nat, message: string)          // "Analysis failed: <message>"
    | Finished(results: seq<FileResult>, overall: Option<Json>)

  /** The run, the file index of every per-file request, and the number of
      overall-analysis requests. */
  datatype Run = Run(outcome: RunOutcome, requested: seq<nat>, overallFetches: nat)

  /** `analyzeAllChats`. `fetch(i)` answers the requests for file `i`;
      `overallFetch` those for the overall analysis. */
  function AnalyzeAllChats(files: seq<Page.ChatFile>, fetch: nat -> nat -> FetchOutcome,
                           overallFetch: nat -> FetchOutcome): (run: Run)
    ensures |files| == 0 <==> run.outcome == NotStarted
    ensures |files| == 0 ==> run.requested == [] && run.overallFetches == 0
    ensures run.overallFetches <= 3 && |run.requested| <= 3 * |files|
    ensures run.outcome.Aborted? ==> run.overallFetches == 0
                                     && forall k :: 0 <= k < |run.requested| ==> run.requested[k] <= run.outcome.file
    ensures run.outcome.Finished? ==> |run.outcome.results| == |files| && 1 <= run.overallFetches
    ensures run.outcome.Finished? ==>
              forall k :: 0 <= k < |files| ==>
                && FileAttempts(fetch(k), files[k].name).outcome.Analysed?
                && run.outcome.results[k] == FileResult(files[k].name, FileAttempts(fetch(k), files[k].name).outcome.result)
    ensures run.outcome.Finished? && run.outcome.overall.Some? ==>
              Ok(overallFetch(run.overallFetches - 1))
              && run.outcome.overall.value == overallFetch(run.overallFetches - 1).body
  {
    if |files| == 0 then Run(NotStarted, [], 0)
    else
      var phase := FilesFrom(files, FileRuns(files, fetch), 0);
      match phase.aborted
      case Some((i, m)) => Run(Aborted(i, m), phase.requested, 0)
      case None =>
        var overall := OverallFrom(overallFetch, 0);
        Run(Finished(phase.results, overall.analysis), phase.requested, overall.fetches)
  }

  /** Once every file is analysed the run finishes, whatever the overall
      requests answer; its failure only leaves the overall analysis unset. */
  lemma OverallFailureDoesNotAbort(files: seq<Page.ChatFile>, fetch: nat -> nat -> FetchOutcome,
                                   overallFetch: nat -> FetchOutcome)
    requires |files| > 0
    requires forall i :: 0 <= i < |files| ==> FileAttempts(fetch(i), files[i].name).outcome.Analysed?
    ensures AnalyzeAllChats(files, fetch, overallFetch).outcome.Finished?
  {
  }

  /** The run aborts at the first file that fails, with that file's message,
      and no later file is requested. */
  lemma AbortAtFirstFailure(files: seq<Page.ChatFile>, fetch: nat -> nat -> FetchOutcome,
                            overallFetch: nat -> FetchOutcome, bad: nat)
    requires bad < |files|
    requires forall j :: 0 <= j < bad ==> FileAttempts(fetch(j), files[j].name).outcome.Analysed?
    requires FileAttempts(fetch(bad), files[bad].name).outcome.Abort?
    ensures var run := AnalyzeAllChats(files, fetch, overallFetch);
            && run.outcome == Aborted(bad, FileAttempts(fetch(bad), files[bad].name).outcome.message)
            && forall k :: 0 <= k < |run.requested| ==> run.requested[k] <= bad
  {
    var runs := FileRuns(files, fetch);
    var phase := FilesFrom(files, runs, 0);
    assert runs[bad].outcome.Abort?;
    var b := phase.aborted.value.0;
    assert b == bad;
  }
}

=== FILE: json_value.dfy ===
/** The values `JSON.parse` can produce, and JavaScript truthiness on them. */
module JsonValue {
  import opened Wrappers

  datatype Json =
    | JNull
    | JBool(b: bool)
    | JNumber(n: real)
    | JString(s: string)
    | JArray(items: seq<Json>)
    | JObject(fields: map<string, Json>)

  /** `!!v`: false exactly for null, false, 0 and "". */
  predicate Truthy(v: Json) {
    match v
    case JNull => false
    case JBool(b) => b
    case JNumber(n) => n != 0.0
    case JString(s) => s != ""
    case JArray(_) => true
    case JObject(_) => true
  }

  /** `v[key]`, with `undefined` for a missing key or a value without fields. */
  function Field(v: Json, key: string): Option<Json> {
    if v.JObject? && key in v.fields then Some(v.fields[key]) else None
  }

  /** `!!v[key]`. Reading a field of `null` throws instead; the routes catch
      that in the same handler as a falsy field, so both read as false here. */
  predicate FieldTruthy(v: Json, key: string) {
    match Field(v, key)
    case Some(f) => Truthy(f)
    case None => false
  }
}

=== FILE: overall_view.dfy ===
/** The value and colour mappings of the aggregate dashboard,
    app/components/overall-analysis.tsx: health labels to badge classes, the
    compatibility score to a colour band, level labels to bar widths, and
    the defaults for missing participants, timeline and levels. */
module OverallView {
  import opened Wrappers
  import opened Text
  import opened JsonValue
  import ChatView
  import AnalyzeOverall
  import ChatStats

  // ---------------------------------------------------------------- health

  const DefaultHealthColor: string := "bg-gray-500 text-white"

  /** `getHealthColor`. */
  function HealthColor(health: string): (c: string)
    ensures c == DefaultHealthColor <==> Lower(health) !in ["excellent", "good", "fair", "poor"]
  {
    var l := Lower(health);
    if l == "excellent" then "bg-green-500 text-white"
    else if l == "good" then "bg-blue-500 text-white"
    else if l == "fair" then "bg-yellow-500 text-white"
    else if l == "poor" then "bg-red-500 text-white"
    else DefaultHealthColor
  }

  /** The health badge ignores case. */
  lemma HealthColorIgnoresCase(health: string)
    ensures HealthColor(health) == HealthColor(Lower(health))
  {
    LowerIdempotent(health);
  }

  /** Different known health labels get different classes. */
  lemma HealthColorsDistinct(a: string, b: string)
    requires HealthColor(a) == HealthColor(b) != DefaultHealthColor
    ensures Lower(a) == Lower(b)
  {
  }

  // ---------------------------------------------------------------- score

  /** The score thresholds, from the lowest band up. */
  const Thresholds: seq<real> := [40.0, 60.0, 80.0]

  /** How many of `ts` the score reaches; `None` stands for a missing score,
      which as `NaN` reaches none. */
  function Reached(score: Option<real>, ts: seq<real>): (n: nat)
    ensures n <= |ts|
  {
    if |ts| == 0 then 0
    else Reached(score, ts[..|ts| - 1]) + (if score.Some? && score.value >= ts[|ts| - 1] then 1 else 0)
  }

  /** The band of a score: 0 (red) to 3 (green). */
  function Band(score: Option<real>): (b: nat)
    ensures b <= 3
  {
    Reached(score, Thresholds)
  }

  /** The band counts the thresholds reached, one by one. */
  lemma BandCounts(score: Option<real>)
    ensures Band(score) == (if score.Some? && score.value >= 40.0 then 1 else 0)
                           + (if score.Some? && score.value >= 60.0 then 1 else 0)
                           + (if score.Some? && score.value >= 80.0 then 1 else 0)
  {
    var ts := Thresholds;
    assert ts[..2] == [40.0, 60.0] && ts[2] == 80.0;
    calc {
      Reached(score, ts);
      Reached(score, [40.0, 60.0]) + (if score.Some? && score.value >= 80.0 then 1 else 0);
      { assert [40.0, 60.0][..1] == [40.0]; }
      Reached(score, [40.0]) + (if score.Some? && score.value >= 60.0 then 1 else 0)
        + (if score.Some? && score.value >= 80.0 then 1 else 0);
      { assert [40.0][..0] == []; }
      (if score.Some? && score.value >= 40.0 then 1 else 0) + (if score.Some? && score.value >= 60.0 then 1 else 0)
        + (if score.Some? && score.value >= 80.0 then 1 else 0);
    }
  }

  /** The badge classes and ring strokes of the four bands, red first. */
  const BandClasses: seq<string> := ["bg-red-500", "bg-yellow-500", "bg-blue-500", "bg-green-500"]
  const BandStrokes: seq<string> := ["#ef4444", "#f59e0b", "#3b82f6", "#10b981"]

  /** `getScoreColor`. */
  function ScoreColor(score: Option<real>): (c: string)
    ensures c in BandClasses
  {
    if score.Some? && score.value >= 80.0 then "bg-green-500"
    else if score.Some? && score.value >= 60.0 then "bg-blue-500"
    else if score.Some? && score.value >= 40.0 then "bg-yellow-500"
    else "bg-red-500"
  }

  /** The stroke of the compatibility ring. */
  function RingStroke(score: Option<real>): (c: string)
    ensures c in BandStrokes
  {
    if score.Some? && score.value >= 80.0 then "#10b981"
    else if score.Some? && score.value >= 60.0 then "#3b82f6"
    else if score.Some? && score.value >= 40.0 then "#f59e0b"
    else "#ef4444"
  }

  /** Both cascades pick the colour of the number of thresholds reached. */
  lemma ColoursFollowBand(score: Option<real>)
    ensures ScoreColor(score) == BandClasses[Band(score)]
    ensures RingStroke(score) == BandStrokes[Band(score)]
  {
    BandCounts(score);
  }

  /** The ring and the badge always show the same band. */
  lemma RingAgreesWithScoreColor(score: Option<real>, k: nat)
    requires k < 4
    ensures ScoreColor(score) == BandClasses[k] <==> RingStroke(score) == BandStrokes[k]
  {
    ColoursFollowBand(score);
  }

  /** Reaching more is monotone in the score. */
  lemma {:induction false} ReachedMonotone(x: real, y: real, ts: seq<real>)
    requires x <= y
    ensures Reached(Some(x), ts) <= Reached(Some(y), ts)
  {
    if |ts| > 0 {
      ReachedMonotone(x, y, ts[..|ts| - 1]);
    }
  }

  /** A higher score never falls into a lower band, and a missing score is
      in the lowest band. */
  lemma BandMonotone(x: real, y: real)
    requires x <= y
    ensures Band(Some(x)) <= Band(Some(y))
    ensures Band(None) == 0
  {
    ReachedMonotone(x, y, Thresholds);
    BandCounts(None);
  }

  // ---------------------------------------------------------------- levels

  /** `getLevelValue`: a bar width in percent for a level label, in any case;
      an unknown label reads 50. */
  function LevelValue(level: string): (v: nat)
    ensures 20 <= v <= 95
    ensures v == 50 <==> Lower(level) !in ChatView.ScoreLabels
  {
    var l := Lower(level);
    if l == "very high" then 95
    else if l == "high" then 80
    else if l == "medium" then 60
    else if l == "low" then 40
    else if l == "very low" then 20
    else 50
  }

  /** The widths of the labels in the order of `ChatView.ScoreLabels`. */
  const LevelWidths: seq<nat> := [20, 40, 60, 80, 95]

  lemma LevelOfLowLabels()
    ensures LevelValue("very low") == 20 && LevelValue("low") == 40 && LevelValue("medium") == 60
  {
    LowerOfLowercase("very low");
    LowerOfLowercase("low");
    LowerOfLowercase("medium");
  }

  lemma LevelOfHighLabels()
    ensures LevelValue("high") == 80 && LevelValue("very high") == 95
  {
    LowerOfLowercase("high");
    LowerOfLowercase("very high");
  }

  /** Label `i` reads as `LevelWidths[i]`, and the widths strictly increase
      along the labels, from 20 to 95. */
  lemma LevelValueIncreasing()
    ensures forall i :: 0 <= i < |ChatView.ScoreLabels| ==> LevelValue(ChatView.ScoreLabels[i]) == LevelWidths[i]
    ensures forall i, j :: 0 <= i < j < |LevelWidths| ==> LevelWidths[i] < LevelWidths[j]
  {
    LevelOfLowLabels();
    LevelOfHighLabels();
  }

  /** The level bars ignore case. */
  lemma LevelValueIgnoresCase(level: string)
    ensures LevelValue(level) == LevelValue(Lower(level))
  {
    LowerIdempotent(level);
  }

  /** The width of an empathy, conflict, support, trust, intimacy or
      vulnerability bar: `getLevelValue(level || "medium")`, where `None` is
      a missing field. */
  function LevelWidth(level: Option<string>): (w: nat)
    ensures 20 <= w <= 95
  {
    LevelValue(if level.None? || level.value == "" then "medium" else level.value)
  }

  /** A missing level shows a 60% bar; an unknown one shows 50%, less than
      the missing one. */
  lemma MissingLevelWidths(unknown: string)
    requires unknown != "" && Lower(unknown) !in ChatView.ScoreLabels
    ensures LevelWidth(None) == LevelWidth(Some("")) == 60
    ensures LevelWidth(Some(unknown)) == 50
  {
    LevelOfLowLabels();
  }

  /** The two dashboards read "medium" differently: 50% per conversation, 60%
      in the aggregate. Both orders agree. */
  lemma MediumReadsDifferently()
    ensures ChatView.ScoreValue("medium") == 50 && LevelValue("medium") == 60
    ensures forall i, j :: 0 <= i < j < |ChatView.ScoreLabels| ==>
              ChatView.ScoreValue(ChatView.ScoreLabels[i]) < ChatView.ScoreValue(ChatView.ScoreLabels[j])
              && LevelValue(ChatView.ScoreLabels[i]) < LevelValue(ChatView.ScoreLabels[j])
  {
    ChatView.ScoreValueIncreasing();
    LevelValueIncreasing();
  }

  // ---------------------------------------------------------------- defaults

  /** `Object.keys(individual_analysis)`, or the two placeholders when the
      field is missing or falsy. Key order is not kept. */
  function ParticipantNames(individual: Option<Json>): (names: set<string>)
    ensures individual.None? || !Truthy(individual.value) ==> names == {"Person 1", "Person 2"}
    ensures individual.Some? && individual.value.JObject? ==> names == individual.value.fields.Keys
  {
    if individual.None? || !Truthy(individual.value) then {"Person 1", "Person 2"}
    else match individual.value
      case JObject(fields) => fields.Keys
      case JArray(items) => set i | 0 <= i < |items| :: NatToString(i)
      case JString(s) => set i | 0 <= i < Utf16Length(s) :: NatToString(i)
      case _ => {}
  }

  /** Different indices have different decimal names. */
  lemma NatToStringInjective(i: nat, j: nat)
    requires NatToString(i) == NatToString(j)
    ensures i == j
  {
    DigitsValueOfNatToString(i);
    DigitsValueOfNatToString(j);
  }

  /** An array in place of the object shows its indices as participants:
      index `i` is shown exactly when it is in range. */
  lemma ArrayParticipantsAreIndices(items: seq<Json>, i: nat)
    ensures NatToString(i) in ParticipantNames(Some(JArray(items))) <==> i < |items|
  {
    if NatToString(i) in ParticipantNames(Some(JArray(items))) {
      var j :| 0 <= j < |items| && NatToString(j) == NatToString(i);
      NatToStringInjective(i, j);
    }
  }

  /** A string in place of the object shows one index per UTF-16 code unit,
      as `Object.keys` lists them: index `i` is shown exactly when it is
      below the string's `length`. */
  lemma StringParticipantsAreUnitIndices(s: string, i: nat)
    ensures NatToString(i) in ParticipantNames(Some(JString(s))) <==> i < Utf16Length(s)
  {
    if s == "" {
      assert IsDigit(NatToString(i)[0]) && !IsDigit("Person 1"[0]) && !IsDigit("Person 2"[0]);
    } else if NatToString(i) in ParticipantNames(Some(JString(s))) {
      var j :| 0 <= j < Utf16Length(s) && NatToString(j) == NatToString(i);
      NatToStringInjective(i, j);
    }
  }

  /** The fallback analysis names its participants after the first two
      senders, so the dashboard shows at most those two. */
  lemma FallbackParticipantsShown(ps: seq<string>, individual: map<string, Json>)
    requires individual.Keys == AnalyzeOverall.Fallback(ps).individualKeys
    ensures var names := ParticipantNames(Some(JObject(individual)));
            |names| <= 2 && names == {ChatStats.SlotKey(ps, 0), ChatStats.SlotKey(ps, 1)}
  {
  }

  /** The timeline the chart draws: the given one when truthy (an empty
      array included), otherwise the fixed three periods. */
  datatype TimelineSource = Given(timeline: Json) | Default(points: seq<AnalyzeOverall.TimelinePoint>)

  const DefaultTimeline: seq<AnalyzeOverall.TimelinePoint> := [
    AnalyzeOverall.TimelinePoint("Early Phase", 70, 75, 60),
    AnalyzeOverall.TimelinePoint("Development", 80, 85, 75),
    AnalyzeOverall.TimelinePoint("Current", 85, 90, 85)]

  /** `data.timeline_analysis || [...]`. */
  function Timeline(given: Option<Json>): (t: TimelineSource)
    ensures t.Given? <==> given.Some? && Truthy(given.value)
    ensures t.Given? ==> t.timeline == given.value
    ensures t.Default? ==> |t.points| == 3 && t.points[0].period == "Early Phase"
  {
    if given.Some? && Truthy(given.value) then Given(given.value) else Default(DefaultTimeline)
  }

  /** The chart's default is the timeline of the route's fallback analysis,
      so a missing timeline and a fallback analysis draw the same chart. */
  lemma DefaultTimelineIsFallbacks(ps: seq<string>, given: Option<Json>)
    requires given.None? || !Truthy(given.value)
    ensures Timeline(given) == Default(AnalyzeOverall.Fallback(ps).timeline)
  {
  }

  /** An empty timeline array is truthy: the chart draws nothing rather than
      the default. */
  lemma EmptyTimelineIsKept()
    ensures Timeline(Some(JArray([]))) == Given(JArray([]))
  {
  }

  /** `total_stats?.total_participants || 2`: a missing or zero count shows 2. */
  function ShownParticipantTotal(total: Option<nat>): (n: nat)
    ensures n > 0
    ensures total.Some? && total.value > 0 ==> n == total.value
  {
    if total.Some? && total.value > 0 then total.value else 2
  }

  /** The route's count is zero exactly for a merge without messages, and
      the dashboard then claims two participants. */
  lemma EmptyMergeShowsTwo(chats: seq<seq<ChatStats.Message>>)
    requires AnalyzeOverall.MessageCount(chats) == 0
    ensures ShownParticipantTotal(Some(AnalyzeOverall.Totals(chats).totalParticipants)) == 2
  {
  }
}

=== FILE: page.dfy ===
/** The pure parts of the upload page, app/page.tsx: the key format check
    and the key submission, the numeric file-name sort, reading an uploaded
    batch, and removing a file. Alerts are returned as strings; the file
    reader and `fetch` are inputs. */
module Page {
  import opened Wrappers
  import opened Text
  import opened JsonValue
  import opened Backoff
  import TestApiKey

  // ---------------------------------------------------------------- API key

  /** `{ valid, message }` of `validateApiKeyFormat`. */
  datatype KeyFormat = KeyFormat(valid: bool, message: string)

  const KeyPrefix: string := "AIza"
  const KeyLength: nat := 39

  /** `validateApiKeyFormat`: the three checks on the trimmed key, in order. */
  function ValidateApiKeyFormat(key: string): (r: KeyFormat)
    ensures r.valid <==> StartsWith(Trim(key), KeyPrefix) && Utf16Length(Trim(key)) == KeyLength
    ensures r.valid ==> r.message == ""
    ensures Trim(key) == "" ==> r.message == "API key is required"
    ensures Trim(key) != "" && !StartsWith(Trim(key), KeyPrefix) ==>
              r.message == "Google API keys should start with 'AIza'"
    ensures StartsWith(Trim(key), KeyPrefix) && Utf16Length(Trim(key)) != KeyLength ==>
              r.message == "Google API keys should be 39 characters long"
  {
    var k := Trim(key);
    if k == "" then KeyFormat(false, "API key is required")
    else if !StartsWith(k, KeyPrefix) then KeyFormat(false, "Google API keys should start with 'AIza'")
    else if Utf16Length(k) != KeyLength then KeyFormat(false, "Google API keys should be 39 characters long")
    else KeyFormat(true, "")
  }

  /** Trimming twice is trimming once. */
  lemma TrimIdempotent(s: string)
    ensures Trim(Trim(s)) == Trim(s)
  {
    var t := Trim(s);
    if |t| > 0 {
      TrimKeepsNonWsEnds(t);
    } else {
      assert Trim(t) == t by {
        var a, b :| 0 <= a <= b <= |t| && Trim(t) == t[a..b];
      }
    }
  }

  /** The submit handler checks the trimmed key; checking it again trims
      nothing more, so the answer is the same as for the raw input. */
  lemma FormatCheckIgnoresSurroundingSpace(key: string)
    ensures ValidateApiKeyFormat(Trim(key)) == ValidateApiKeyFormat(key)
  {
    TrimIdempotent(key);
  }

  /** Any accepted key is 39 UTF-16 code units (so 20 to 39 characters)
      without surrounding white space and begins with "AIza". */
  lemma AcceptedKeyShape(key: string)
    requires ValidateApiKeyFormat(key).valid
    ensures var k := Trim(key);
            && Utf16Length(k) == 39 && 20 <= |k| <= 39
            && k[..4] == "AIza" && !IsWs(k[0]) && !IsWs(k[|k| - 1])
  {
  }

  /** What `handleApiKeySubmit` does with a key. */
  datatype Submission =
    | Ignored                      // blank input: nothing happens
    | FormatRejected(alert: string)
    | TestRejected(alert: string)
    | Validated                    // the page moves on to the upload step

  /** `handleApiKeySubmit`, given the answer of the key-check route to the
      trimmed key (`None` when the request or its JSON body failed). */
  function SubmitKey(key: string, answer: Option<TestApiKey.KeyTestResponse>): (r: Submission)
    ensures r == Ignored <==> Trim(key) == ""
    ensures r.FormatRejected? <==> Trim(key) != "" && !ValidateApiKeyFormat(key).valid
    ensures r.FormatRejected? ==> r.alert == ValidateApiKeyFormat(key).message
    ensures r == Validated <==>
              ValidateApiKeyFormat(key).valid && answer.Some? && 200 <= answer.value.status <= 299
    ensures r.TestRejected? && answer.None? ==> r.alert == "API Key Error: Failed to test API key"
  {
    var k := Trim(key);
    if k == "" then Ignored
    else
      var format := ValidateApiKeyFormat(k);
      FormatCheckIgnoresSurroundingSpace(key);
      if !format.valid then FormatRejected(format.message)
      else match answer
        case None => TestRejected("API Key Error: Failed to test API key")
        case Some(a) =>
          if 200 <= a.status <= 299 then Validated else TestRejected("API Key Error: " + a.text)
  }

  /** Page and route together: a key is accepted exactly when its trimmed
      form is well-formed and the model's reply to the test prompt says
      "working"; a thrown model error never validates a key. */
  lemma KeyAcceptedIffModelSaysWorking(key: string, reply: Attempt<string>)
    ensures var answer := TestApiKey.TestKey(JString(Trim(key)), reply).response;
            SubmitKey(key, Some(answer)) == Validated <==>
              ValidateApiKeyFormat(key).valid && reply.Returned? && TestApiKey.SaysWorking(reply.value)
  {
    var format := ValidateApiKeyFormat(key);
    assert format.valid ==> Trim(key) != "";
  }

  // ---------------------------------------------------------------- files

  /** An uploaded chat: the file name and its message data, kept as JSON. */
  datatype ChatFile = ChatFile(name: string, data: Json)

  /** The longest run of digits at the start of `s`. */
  function DigitPrefix(s: string): (run: string)
    ensures |run| <= |s| && run == s[..|run|]
    ensures forall i :: 0 <= i < |run| ==> IsDigit(run[i])
    ensures |run| < |s| ==> !IsDigit(s[|run|])
  {
    if |s| > 0 && IsDigit(s[0]) then [s[0]] + DigitPrefix(s[1..]) else ""
  }

  /** `filename.match(/(\d+)/)[1]`: the first run of digits, or "" when there is none. */
  function FirstDigitRun(s: string): (run: string)
    ensures forall i :: 0 <= i < |run| ==> IsDigit(run[i])
    ensures run == "" <==> forall i :: 0 <= i < |s| ==> !IsDigit(s[i])
  {
    if |s| == 0 then ""
    else if IsDigit(s[0]) then DigitPrefix(s)
    else FirstDigitRun(s[1..])
  }

  /** `getNumber`: the value of the first digit run, 0 without one. */
  function FileNumber(name: string): nat {
    DigitsValue(FirstDigitRun(name))
  }

  /** A run of digits is taken whole: it stops at the first non-digit. */
  lemma {:induction false} DigitPrefixOfNumber(digits: string, rest: string)
    requires forall i :: 0 <= i < |digits| ==> IsDigit(digits[i])
    requires rest == "" || !IsDigit(rest[0])
    ensures DigitPrefix(digits + rest) == digits
    decreases |digits|
  {
    if |digits| > 0 {
      assert (digits + rest)[1..] == digits[1..] + rest;
      DigitPrefixOfNumber(digits[1..], rest);
    }
  }

  /** Characters before the first digit are skipped. */
  lemma {:induction false} FirstDigitRunSkipsPrefix(p: string, t: string)
    requires forall i :: 0 <= i < |p| ==> !IsDigit(p[i])
    ensures FirstDigitRun(p + t) == FirstDigitRun(t)
    decreases |p|
  {
    if |p| > 0 {
      assert (p + t)[0] == p[0] && (p + t)[1..] == p[1..] + t;
      FirstDigitRunSkipsPrefix(p[1..], t);
    } else {
      assert p + t == t;
    }
  }

  /** A name made of a digit-free prefix, the decimal text of `n` and a
      suffix not starting with a digit sorts as `n`. */
  lemma FileNumberOfNumberedName(p: string, n: nat, suffix: string)
    requires forall i :: 0 <= i < |p| ==> !IsDigit(p[i])
    requires suffix == "" || !IsDigit(suffix[0])
    ensures FileNumber(p + NatToString(n) + suffix) == n
  {
    var digits := NatToString(n);
    assert p + digits + suffix == p + (digits + suffix);
    FirstDigitRunSkipsPrefix(p, digits + suffix);
    DigitPrefixOfNumber(digits, suffix);
    DigitsValueOfNatToString(n);
  }

  /** The point of the numeric sort: "message_2.json" before "message_10.json". */
  lemma SecondExportBeforeTenth()
    ensures FileNumber("message_2.json") == 2 && FileNumber("message_10.json") == 10
  {
    assert NatToString(2) == "2";
    assert "message_2.json" == "message_" + NatToString(2) + ".json";
    FileNumberOfNumberedName("message_", 2, ".json");
    assert NatToString(10) == "10";
    assert "message_10.json" == "message_" + NatToString(10) + ".json";
    FileNumberOfNumberedName("message_", 10, ".json");
  }

  /** The sort key of a file. */
  function NameNumber(f: ChatFile): nat {
    FileNumber(f.name)
  }

  /** Non-decreasing under `key`. */
  predicate SortedBy(fs: seq<ChatFile>, key: ChatFile -> nat) {
    forall i, j :: 0 <= i < j < |fs| ==> key(fs[i]) <= key(fs[j])
  }

  predicate SortedByNumber(fs: seq<ChatFile>) {
    SortedBy(fs, NameNumber)
  }

  /** Appending a file whose key is at least every other's keeps the order. */
  lemma SortedSnoc(fs: seq<ChatFile>, f: ChatFile, key: ChatFile -> nat)
    requires SortedBy(fs, key)
    requires forall x :: x in fs ==> key(x) <= key(f)
    ensures SortedBy(fs + [f], key)
  {
    forall i, j | 0 <= i < j < |fs| + 1 ensures key((fs + [f])[i]) <= key((fs + [f])[j]) {
      if j == |fs| {
        assert (fs + [f])[i] == fs[i] && fs[i] in fs;
      }
    }
  }

  /** The last file of a sorted list has the greatest key, and dropping it
      keeps the rest sorted. */
  lemma SortedLast(fs: seq<ChatFile>, key: ChatFile -> nat)
    requires SortedBy(fs, key) && |fs| > 0
    ensures forall x :: x in fs ==> key(x) <= key(fs[|fs| - 1])
    ensures SortedBy(fs[..|fs| - 1], key)
  {
    forall x | x in fs ensures key(x) <= key(fs[|fs| - 1]) {
      var i :| 0 <= i < |fs| && fs[i] == x;
    }
  }

  /** Inserts `f` after every file whose key is not greater. */
  function Insert(f: ChatFile, fs: seq<ChatFile>, key: ChatFile -> nat): (r: seq<ChatFile>)
    requires SortedBy(fs, key)
    ensures SortedBy(r, key)
    ensures multiset(r) == multiset(fs) + multiset{f}
    ensures forall x :: x in r ==> x == f || x in fs
  {
    if |fs| == 0 then [f]
    else
      var last := fs[|fs| - 1];
      var init := fs[..|fs| - 1];
      SortedLast(fs, key);
      assert fs == init + [last];
      if key(last) <= key(f) then
        SortedSnoc(fs, f, key);
        fs + [f]
      else
        var r := Insert(f, init, key);
        assert forall x :: x in init ==> x in fs;
        SortedSnoc(r, last, key);
        r + [last]
  }

  /** An insertion sort on `key`; each file goes after the equal keys before it. */
  function SortBy(fs: seq<ChatFile>, key: ChatFile -> nat): (r: seq<ChatFile>)
    ensures SortedBy(r, key)
    ensures multiset(r) == multiset(fs)
  {
    if |fs| == 0 then []
    else
      assert fs == fs[..|fs| - 1] + [fs[|fs| - 1]];
      Insert(fs[|fs| - 1], SortBy(fs[..|fs| - 1], key), key)
  }

  /** `sortFilesByName`: the files, ordered by the number in their names. */
  function SortFilesByName(fs: seq<ChatFile>): (r: seq<ChatFile>)
    ensures SortedByNumber(r)
    ensures multiset(r) == multiset(fs)
  {
    SortBy(fs, NameNumber)
  }

  /** Two files in the wrong order are swapped. */
  lemma SortSwapsPair(a: ChatFile, b: ChatFile, key: ChatFile -> nat)
    requires key(a) < key(b)
    ensures SortBy([b, a], key) == [a, b]
  {
    assert [b, a][..1] == [b];
    assert SortBy([b], key) == [b] by {
      assert [b][..0] == [];
    }
  }

  /** With two files out of order, the sort swaps them: "message_10.json"
      goes after "message_2.json", which a comparison of the names as text
      would not do. */
  lemma ExportsSortNumerically(d2: Json, d10: Json)
    ensures var f2 := ChatFile("message_2.json", d2);
            var f10 := ChatFile("message_10.json", d10);
            SortFilesByName([f10, f2]) == [f2, f10]
  {
    SecondExportBeforeTenth();
    SortSwapsPair(ChatFile("message_2.json", d2), ChatFile("message_10.json", d10), NameNumber);
  }

  /** What an uploaded file's JSON contributes as messages: the value itself
      when it is an array, else its truthy `messages` field, else `[]`.
      Reading a field of `null` throws, which the reader reports as invalid. */
  function ExtractMessages(j: Json): (r: Option<Json>)
    ensures r.None? <==> j.JNull?
    ensures j.JArray? ==> r == Some(j)
    ensures j.JObject? && FieldTruthy(j, "messages") ==> r == Field(j, "messages")
    ensures !j.JArray? && !j.JNull? && !FieldTruthy(j, "messages") ==> r == Some(JArray([]))
  {
    match j
    case JNull => None
    case JArray(_) => Some(j)
    case _ => if FieldTruthy(j, "messages") then Field(j, "messages") else Some(JArray([]))
  }

  /** One selected file: its name and the result of `JSON.parse` on its text. */
  datatype Upload = Upload(name: string, parsed: Option<Json>)

  function ReadUpload(u: Upload): (r: Option<ChatFile>)
    ensures r.Some? <==> u.parsed.Some? && !u.parsed.value.JNull?
    ensures r.Some? ==> r.value.name == u.name && ExtractMessages(u.parsed.value) == Some(r.value.data)
  {
    match u.parsed
    case None => None
    case Some(j) =>
      match ExtractMessages(j)
      case None => None
      case Some(data) => Some(ChatFile(u.name, data))
  }

  function InvalidFileAlert(name: string): string {
    "Invalid JSON file: " + name + ". Please upload valid chat exports."
  }

  /** The files of a batch that were read, and an alert for each one that was not. */
  function ReadBatch(batch: seq<Upload>): (r: (seq<ChatFile>, seq<string>))
    ensures |r.0| + |r.1| == |batch|
    ensures |r.1| == 0 <==> forall i :: 0 <= i < |batch| ==> ReadUpload(batch[i]).Some?
    ensures |r.1| == 0 ==> forall i :: 0 <= i < |batch| ==> r.0[i] == ReadUpload(batch[i]).value
  {
    if |batch| == 0 then ([], [])
    else
      var (files, alerts) := ReadBatch(batch[..|batch| - 1]);
      var u := batch[|batch| - 1];
      match ReadUpload(u)
      case Some(f) => (files + [f], alerts)
      case None => (files, alerts + [InvalidFileAlert(u.name)])
  }

  datatype UploadResult = UploadResult(files: seq<ChatFile>, alerts: seq<string>)

  /** `handleFileUpload`: the batch joins the list, and the whole list is
      re-sorted, only once every file of the batch was read; a single bad
      file keeps the whole batch out. */
  function AddUploads(prev: seq<ChatFile>, batch: seq<Upload>): (r: UploadResult)
    ensures var (read, alerts) := ReadBatch(batch);
            && r.alerts == alerts
            && (|batch| > 0 && |alerts| == 0 ==>
                  SortedByNumber(r.files) && multiset(r.files) == multiset(prev) + multiset(read))
            && (|batch| == 0 || |alerts| > 0 ==> r.files == prev)
  {
    var (read, alerts) := ReadBatch(batch);
    if |batch| > 0 && |alerts| == 0 then UploadResult(SortFilesByName(prev + SortFilesByName(read)), alerts)
    else UploadResult(prev, alerts)
  }

  /** `prev.filter((_, i) => i !== index)`. */
  function RemoveFile(files: seq<ChatFile>, index: int): (r: seq<ChatFile>)
    ensures 0 <= index < |files| ==> r == files[..index] + files[index + 1..]
    ensures !(0 <= index < |files|) ==> r == files
  {
    if |files| == 0 then []
    else
      var init := files[..|files| - 1];
      var r := RemoveFile(init, index);
      var last := files[|files| - 1];
      if index == |files| - 1 then
        assert r == init;
        r
      else
        assert 0 <= index < |files| - 1 ==> files[index + 1..] == init[index + 1..] + [last];
        assert files == init + [last];
        r + [last]
  }

  /** Removing keeps the order of the other files, shifting the later ones down by one. */
  lemma RemoveFileShifts(files: seq<ChatFile>, index: int, k: int)
    requires 0 <= index < |files| && 0 <= k < |files| - 1
    ensures RemoveFile(files, index)[k] == if k < index then files[k] else files[k + 1]
  {
  }
}

=== FILE: recovery.dfy ===
/** The try block both analysis routes run on the model's reply: the
    cleaning chain, the brace guard, `JSON.parse` and the required-field
    check, and what the chain guarantees about the text `JSON.parse` sees. */
module Recovery {
  import opened Wrappers
  import opened Text
  import opened JsonValue
  import opened Cleaning

  /** After the chain, the text is empty or framed by '{' and '}', and it is
      empty exactly when the model's text has no '{' followed by a '}'. */
  lemma CleanedShape(text: string)
    ensures CleanSteps(text) == "" || Framed(CleanSteps(text))
    ensures CleanSteps(text) != "" <==> HasBracePair(text)
  {
    CleanWithShape(ChainPatterns, text);
  }

  /** So the brace guard rejects only the empty text: it passes exactly when
      the model's text holds a '{' followed by a '}'. */
  lemma GuardPassesIffBracePair(text: string)
    ensures BraceGuard(CleanSteps(text)) <==> HasBracePair(text)
  {
    CleanedShape(text);
    GuardIsFramed(CleanSteps(text));
  }

  /** The cleaned text has no newline, no two whitespace characters in a row,
      and no whitespace at either end. */
  lemma CleanedWhitespace(text: string)
    ensures var t := CleanSteps(text);
            && SpacesNormalized(t)
            && (forall i :: 0 <= i < |t| ==> t[i] != '\n')
            && (|t| > 0 ==> !IsWs(t[0]) && !IsWs(t[|t| - 1]))
  {
    CleanWithWhitespace(ChainPatterns, text);
  }

  /** The choice between the parsed reply and the fallback. */
  datatype Recovery = UseParsed(value: Json) | UseFallback

  /** The try block of both routes: clean, guard, `JSON.parse` (the oracle
      `parse`, `None` for a syntax error), then require every field of
      `required` to be truthy. Any failure selects the fallback. */
  function Recover(text: string, parse: string -> Option<Json>, required: seq<string>): (r: Recovery)
    ensures r.UseParsed? ==> HasBracePair(text)
    ensures r.UseParsed? ==> Some(r.value) == parse(CleanSteps(text))
    ensures r.UseParsed? ==> forall k :: k in required ==> FieldTruthy(r.value, k)
    ensures r.UseFallback? ==>
              !HasBracePair(text) || parse(CleanSteps(text)).None?
              || exists k :: k in required && !FieldTruthy(parse(CleanSteps(text)).value, k)
  {
    GuardPassesIffBracePair(text);
    var t := CleanSteps(text);
    if !BraceGuard(t) then UseFallback
    else match parse(t)
      case None => UseFallback
      case Some(v) => if forall k :: k in required ==> FieldTruthy(v, k) then UseParsed(v) else UseFallback
  }

  /** Conversely, a text with a brace pair that parses after cleaning into a
      value with every required field truthy is recovered as that value. */
  lemma ValidTextIsRecovered(text: string, parse: string -> Option<Json>, required: seq<string>, v: Json)
    requires HasBracePair(text) && parse(CleanSteps(text)) == Some(v)
    requires forall k :: k in required ==> FieldTruthy(v, k)
    ensures Recover(text, parse, required) == UseParsed(v)
  {
    GuardPassesIffBracePair(text);
  }

  /** A reply without a '{' followed by a '}' (plain prose, say) always ends
      in the fallback, whatever the parser would have said. */
  lemma ProseFallsBack(text: string, parse: string -> Option<Json>, required: seq<string>)
    requires !HasBracePair(text)
    ensures Recover(text, parse, required) == UseFallback
  {
  }
}

=== FILE: test_api_key.dfy ===
/** The key-check route, `POST` in app/api/test-api-key/route.ts: one model
    call with a fixed prompt and no retry; the key is accepted when the reply
    mentions "working" in any case. The model call is the oracle `reply`. */
module TestApiKey {
  import opened Wrappers
  import opened Text
  import opened JsonValue
  import opened ApiErrors
  import opened Backoff

  /** The answer: status, the `success` field (absent on the missing-key
      answer), and the `message` or `error` text. */
  datatype KeyTestResponse = KeyTestResponse(status: int, success: Option<bool>, text: string)

  datatype KeyTestOutcome = KeyTestOutcome(response: KeyTestResponse, modelCalls: nat)

  /** `text && text.toLowerCase().includes("working")`. */
  predicate SaysWorking(text: string) {
    text != "" && Contains(Lower(text), "working")
  }

  /** The catch block: status from the markers, `success: false`, and for a
      500 the message behind "API key validation failed: ". */
  function ErrorResponse(m: string): (r: KeyTestResponse)
    ensures r.status == KeyTestErrorStatus(m) && r.success == Some(false)
    ensures r.status >= 400
    ensures r.status == 500 ==> r.text == KeyTestFailureText(m)
  {
    var status := KeyTestErrorStatus(m);
    KeyTestResponse(status, Some(false), ErrorText(status, m))
  }

  /** The error text the catch block sends with each status. */
  function ErrorText(status: int, m: string): (text: string)
    ensures status == 500 ==> text == KeyTestFailureText(m)
  {
    if status == 401 then "Invalid API key. Please check that your key is correct and has access to the Gemini API."
    else if status == 403 then "API key doesn't have permission to access Gemini. Please enable the Generative Language API in Google Cloud Console."
    else if status == 404 then "Gemini model not found. Please ensure your API key has access to Gemini 1.5 Flash."
    else if status == 429 then "API rate limit exceeded. Please wait a moment and try again."
    else if status == 503 then "Gemini service is temporarily unavailable. Please try again in a few moments."
    else KeyTestFailureText(m)
  }

  /** The route. */
  function TestKey(apiKey: Json, reply: Attempt<string>): (o: KeyTestOutcome)
    ensures !Truthy(apiKey) ==> o == KeyTestOutcome(KeyTestResponse(400, None, "API key is required"), 0)
    ensures Truthy(apiKey) ==> o.modelCalls == 1
    ensures o.response.success == Some(true) <==> Truthy(apiKey) && reply.Returned? && SaysWorking(reply.value)
    ensures o.response.success == Some(true) ==> o.response.status == 200
    ensures 200 <= o.response.status <= 299 <==> o.response.success == Some(true)
    ensures Truthy(apiKey) && reply.Threw? ==> o.response == ErrorResponse(reply.message)
    ensures Truthy(apiKey) && reply.Returned? && !SaysWorking(reply.value) ==>
              o.response.status == 400 && o.response.success == Some(false)
    ensures Truthy(apiKey) ==> o.response.success.Some?
  {
    if !Truthy(apiKey) then KeyTestOutcome(KeyTestResponse(400, None, "API key is required"), 0)
    else match reply
      case Returned(text) =>
        if SaysWorking(text) then KeyTestOutcome(KeyTestResponse(200, Some(true), "API key is valid and working correctly!"), 1)
        else KeyTestOutcome(KeyTestResponse(400, Some(false), "API key test failed - unexpected response from Gemini"), 1)
      case Threw(m) => KeyTestOutcome(ErrorResponse(m), 1)
  }

  /** Lower-casing keeps every occurrence, lower-cased. */
  lemma ContainsLower(s: string, sub: string)
    requires Contains(s, sub)
    ensures Contains(Lower(s), Lower(sub))
  {
    var i :| 0 <= i <= |s| - |sub| && StartsWith(s[i..], sub);
    assert Lower(s)[i..i + |sub|] == Lower(sub) by {
      forall k | 0 <= k < |sub| ensures Lower(s)[i + k] == Lower(sub)[k] {
        assert s[i..][k] == sub[k];
      }
    }
    ContainsAt(Lower(s), Lower(sub), i);
  }

  /** A reply that says "working" in any ASCII capitalisation passes. */
  lemma AnyCaseOfWorkingPasses(apiKey: Json, text: string, w: string)
    requires Truthy(apiKey)
    requires |w| == 7 && Lower(w) == "working" && Contains(text, w)
    ensures TestKey(apiKey, Returned(text)).response.success == Some(true)
  {
    ContainsLower(text, w);
  }

  /** The `text &&` test is subsumed: an empty reply never contains "working". */
  lemma EmptyReplyNeverSaysWorking()
    ensures !Contains(Lower(""), "working")
  {
  }

  /** Every failure after the model call reports `success: false`; only the
      missing key answers without a `success` field. */
  lemma FailuresReportSuccessFalse(apiKey: Json, reply: Attempt<string>)
    ensures var r := TestKey(apiKey, reply).response;
            r.success.None? <==> !Truthy(apiKey)
  {
  }
}

=== FILE: text.dfy ===
/** Character classes and string helpers shared by the routes and the page.
    A `string` is a sequence of Unicode scalar values, whereas a JavaScript
    string is a sequence of UTF-16 code units in which a character above
    U+FFFF takes two units: `Utf16Length` gives JavaScript's `length` and
    `Utf16Cut` the end of its `substring`/`slice` prefix. Every character
    class used here is ASCII or in the Basic Multilingual Plane, so matching
    per scalar value agrees with matching per code unit. `IsWs` is the exact
    set JavaScript's `\s` and `String.prototype.trim` use. */
module Text {

  /** JavaScript's `\s`: the WhiteSpace and LineTerminator code points. */
  const WsCodes: set<int> := {0x09, 0x0A, 0x0B, 0x0C, 0x0D, 0x20, 0xA0, 0x1680,
    0x2000, 0x2001, 0x2002, 0x2003, 0x2004, 0x2005, 0x2006, 0x2007, 0x2008, 0x2009, 0x200A,
    0x2028, 0x2029, 0x202F, 0x205F, 0x3000, 0xFEFF}

  predicate IsWs(c: char) {
    c as int in WsCodes
  }

  /** JavaScript's `\d`. */
  predicate IsDigit(c: char) {
    '0' <= c <= '9'
  }

  /** JavaScript's `\w`. */
  predicate IsWordChar(c: char) {
    ('a' <= c <= 'z') || ('A' <= c <= 'Z') || IsDigit(c) || c == '_'
  }

  predicate AllWs(s: string) {
    forall i :: 0 <= i < |s| ==> IsWs(s[i])
  }

  predicate StartsWith(s: string, prefix: string) {
    |prefix| <= |s| && s[..|prefix|] == prefix
  }

  predicate EndsWith(s: string, suffix: string) {
    |suffix| <= |s| && s[|s| - |suffix|..] == suffix
  }

  /** The UTF-16 code units JavaScript stores for `c`: a surrogate pair
      above U+FFFF, one unit otherwise. */
  function Utf16Units(c: char): nat {
    if c as int > 0xFFFF then 2 else 1
  }

  /** JavaScript's `s.length`: the number of UTF-16 code units. It equals the
      number of characters exactly when none lies above U+FFFF. */
  function Utf16Length(s: string): (n: nat)
    ensures |s| <= n <= 2 * |s|
    ensures n == |s| <==> forall i :: 0 <= i < |s| ==> s[i] as int <= 0xFFFF
  {
    if |s| == 0 then 0
    else
      var n := Utf16Length(s[..|s| - 1]);
      assert forall i :: 0 <= i < |s| - 1 ==> s[..|s| - 1][i] == s[i];
      n + Utf16Units(s[|s| - 1])
  }

  /** A prefix never has more code units than the whole string. */
  lemma {:induction false} Utf16LengthOfPrefix(s: string, k: nat)
    requires k <= |s|
    ensures Utf16Length(s[..k]) <= Utf16Length(s)
    decreases |s|
  {
    if k < |s| {
      assert s[..|s| - 1][..k] == s[..k];
      Utf16LengthOfPrefix(s[..|s| - 1], k);
    } else {
      assert s[..k] == s;
    }
  }

  /** The number of characters of the longest prefix of `s` that fits in
      `limit` code units, counting from position `k`. */
  function Utf16CutFrom(s: string, limit: nat, k: nat): (e: nat)
    requires k <= |s| && Utf16Length(s[..k]) <= limit
    ensures k <= e <= |s|
    ensures Utf16Length(s[..e]) <= limit
    ensures e < |s| ==> Utf16Length(s[..e]) + Utf16Units(s[e]) > limit
    decreases |s| - k
  {
    if k == |s| then k
    else
      var used := Utf16Length(s[..k]);
      assert s[..k + 1][..k] == s[..k];
      if used + Utf16Units(s[k]) > limit then k else Utf16CutFrom(s, limit, k + 1)
  }

  /** The number of characters `s.substring(0, limit)` and `s.slice(0, limit)`
      keep: the longest prefix of at most `limit` code units, one unit short
      when that prefix would end inside a surrogate pair. A string that fits
      is kept whole. */
  function Utf16Cut(s: string, limit: nat): (e: nat)
    ensures e <= |s|
    ensures Utf16Length(s[..e]) <= limit
    ensures e < |s| ==> limit < Utf16Length(s[..e]) + Utf16Units(s[e])
    ensures Utf16Length(s) <= limit ==> e == |s|
  {
    assert s[..0] == [];
    var e := Utf16CutFrom(s, limit, 0);
    if e < |s| then
      assert s[..e + 1][..e] == s[..e];
      Utf16LengthOfPrefix(s, e + 1);
      e
    else e
  }

  /** `s.includes(sub)`. */
  predicate Contains(s: string, sub: string) {
    exists i :: 0 <= i <= |s| - |sub| && StartsWith(s[i..], sub)
  }

  lemma ContainsAt(s: string, sub: string, i: int)
    requires 0 <= i <= |s| - |sub|
    requires s[i..i + |sub|] == sub
    ensures Contains(s, sub)
  {
    assert StartsWith(s[i..], sub);
  }

  /** A text none of whose characters is the first of `sub` does not contain it. */
  lemma NoFirstCharNoContains(s: string, sub: string)
    requires |sub| > 0 && forall i :: 0 <= i < |s| ==> s[i] != sub[0]
    ensures !Contains(s, sub)
  {
    forall i | 0 <= i <= |s| - |sub|
      ensures !StartsWith(s[i..], sub)
    {
      assert s[i..][..|sub|][0] == s[i];
    }
  }

  /** No character of `s` from index `from` on is `c`. On a short literal
      the verifier evaluates it outright. */
  predicate LacksFrom(s: string, c: char, from: nat)
    decreases |s| - from
  {
    from >= |s| || (s[from] != c && LacksFrom(s, c, from + 1))
  }

  lemma {:induction false} LacksAll(s: string, c: char, from: nat)
    requires LacksFrom(s, c, from)
    ensures forall i :: from <= i < |s| ==> s[i] != c
    decreases |s| - from
  {
    if from < |s| {
      LacksAll(s, c, from + 1);
    }
  }

  lemma ContainsInSuffix(s: string, prefix: string, sub: string)
    requires Contains(s, sub)
    ensures Contains(prefix + s, sub)
  {
    var i :| 0 <= i <= |s| - |sub| && StartsWith(s[i..], sub);
    assert (prefix + s)[|prefix| + i..] == s[i..];
  }

  lemma ContainsInPrefix(s: string, suffix: string, sub: string)
    requires Contains(s, sub)
    ensures Contains(s + suffix, sub)
  {
    var i :| 0 <= i <= |s| - |sub| && StartsWith(s[i..], sub);
    assert (s + suffix)[i..][..|sub|] == s[i..][..|sub|];
  }

  /** ASCII `toLowerCase`. */
  function LowerChar(c: char): (r: char)
    ensures 'A' <= c <= 'Z' ==> r as int == c as int + 32
    ensures !('A' <= c <= 'Z') ==> r == c
  {
    if 'A' <= c <= 'Z' then (c as int + 32) as char else c
  }

  function Lower(s: string): (r: string)
    ensures |r| == |s|
    ensures forall i :: 0 <= i < |s| ==> r[i] == LowerChar(s[i])
  {
    seq(|s|, i requires 0 <= i < |s| => LowerChar(s[i]))
  }

  /** Text without capitals is its own lower case. */
  lemma LowerOfLowercase(s: string)
    requires forall i :: 0 <= i < |s| ==> !('A' <= s[i] <= 'Z')
    ensures Lower(s) == s
  {
  }

  /** Lower-casing twice is lower-casing once. */
  lemma LowerIdempotent(s: string)
    ensures Lower(Lower(s)) == Lower(s)
  {
    LowerOfLowercase(Lower(s));
  }

  /** Whitespace on both sides of a join is whitespace. */
  lemma AllWsJoin(a: string, b: string)
    requires AllWs(a) && AllWs(b)
    ensures AllWs(a + b)
  {
    forall i | 0 <= i < |a + b| ensures IsWs((a + b)[i]) {
      if i < |a| { assert (a + b)[i] == a[i]; } else { assert (a + b)[i] == b[i - |a|]; }
    }
  }

  /** Number of leading whitespace code units. */
  function LeadingWs(s: string): (n: nat)
    ensures n <= |s|
    ensures AllWs(s[..n])
    ensures n < |s| ==> !IsWs(s[n])
  {
    if |s| == 0 || !IsWs(s[0]) then 0
    else
      var rest := s[1..];
      var k := LeadingWs(rest);
      assert s[..k + 1] == [s[0]] + rest[..k];
      assert k < |rest| ==> s[k + 1] == rest[k];
      AllWsJoin([s[0]], rest[..k]);
      k + 1
  }

  /** Number of trailing whitespace code units. */
  function TrailingWs(s: string): (n: nat)
    ensures n <= |s|
    ensures AllWs(s[|s| - n..])
    ensures n < |s| ==> !IsWs(s[|s| - n - 1])
  {
    if |s| == 0 || !IsWs(s[|s| - 1]) then 0
    else
      var init := s[..|s| - 1];
      var k := TrailingWs(init);
      assert s[|s| - (k + 1)..] == init[|init| - k..] + [s[|s| - 1]];
      assert k < |init| ==> s[|s| - (k + 1) - 1] == init[|init| - k - 1];
      AllWsJoin(init[|init| - k..], [s[|s| - 1]]);
      k + 1
  }

  /** `s.trim()`: drops the whitespace at both ends and nothing else. */
  function Trim(s: string): (r: string)
    ensures exists a, b :: 0 <= a <= b <= |s| && r == s[a..b] && AllWs(s[..a]) && AllWs(s[b..])
    ensures |r| > 0 ==> !IsWs(r[0]) && !IsWs(r[|r| - 1])
  {
    var a := LeadingWs(s);
    var t := s[a..];
    var b := TrailingWs(t);
    assert t[|t| - b..] == s[a + |t| - b..];
    s[a..a + |t| - b]
  }

  lemma TrimKeepsNonWsEnds(s: string)
    requires |s| > 0 && !IsWs(s[0]) && !IsWs(s[|s| - 1])
    ensures Trim(s) == s
  {
  }

  /** Decimal digit of `d`. */
  function DigitChar(d: nat): (c: char)
    requires d < 10
    ensures IsDigit(c) && c as int - '0' as int == d
  {
    ('0' as int + d) as char
  }

  /** `String(n)` for a non-negative integer. */
  function NatToString(n: nat): (s: string)
    ensures |s| > 0
    ensures forall i :: 0 <= i < |s| ==> IsDigit(s[i])
    ensures n > 0 ==> s[0] != '0'
    decreases n
  {
    if n < 10 then [DigitChar(n)] else NatToString(n / 10) + [DigitChar(n % 10)]
  }

  /** The value of a run of decimal digits, as `parseInt` reads it. */
  function DigitsValue(s: string): nat
    requires forall i :: 0 <= i < |s| ==> IsDigit(s[i])
  {
    if |s| == 0 then 0
    else
      assert IsDigit(s[|s| - 1]);
      10 * DigitsValue(s[..|s| - 1]) + (s[|s| - 1] as int - '0' as int)
  }

  /** Reading back the decimal text of `n` gives `n`. */
  lemma {:induction false} DigitsValueOfNatToString(n: nat)
    ensures DigitsValue(NatToString(n)) == n
    decreases n
  {
    if n >= 10 {
      var s := NatToString(n);
      assert s[..|s| - 1] == NatToString(n / 10);
      DigitsValueOfNatToString(n / 10);
    }
  }

  /** `lines.join(sep)`. */
  function Join(lines: seq<string>, sep: string): string {
    if |lines| == 0 then ""
    else if |lines| == 1 then lines[0]
    else lines[0] + sep + Join(lines[1..], sep)
  }

  /** Joining two non-empty lists is joining each and putting `sep` between. */
  lemma {:induction false} JoinAppend(xs: seq<string>, ys: seq<string>, sep: string)
    requires |xs| > 0 && |ys| > 0
    ensures Join(xs + ys, sep) == Join(xs, sep) + sep + Join(ys, sep)
    decreases |xs|
  {
    if |xs| == 1 {
      assert (xs + ys)[1..] == ys;
    } else {
      assert (xs + ys)[1..] == xs[1..] + ys;
      JoinAppend(xs[1..], ys, sep);
    }
  }
}

=== FILE: wrappers.dfy ===
/** The optional-value datatype used throughout the model for JavaScript's
    `undefined` (a missing field, an absent array element). */
module Wrappers {
  datatype Option<+T> = None | Some(value: T) {
    function GetOr(default: T): T {
      match this
      case Some(v) => v
      case None => default
    }
  }
}
